=== FILE: README.md ===
# Tailored résumé generator: templating, rewriting and CLI rules

This project is a Dafny model of the text-processing core of a résumé PDF
generator. The generator takes a static HTML résumé and a YAML configuration
for one job application. It rewrites the HTML for that application and
prints it to PDF. The model covers the parts that are string work and
decision logic:

- **References serialiser** (`generateReferencesSection` and its three
  category builders). It turns a `references` record (professional,
  portfolio and academic lists, plus an optional contact paragraph) into
  HTML. Every builder is a method with its `forEach` loop, proved equal to
  a specification function. Lemmas over that function state what appears
  in the output, in what order, and what leaves no trace.
- **In-page references builder**. This is the second builder, which the
  browser-side path uses to replace the REFERENCES block of the loaded
  page. It has an extra "References at <company>" category for `internal`
  references, and it renders a present list even when the list is empty.
- **Objective templating**. The in-page objective text has `{{ key }}`
  placeholders: `jobTitle`, `companyName`, `keySkills` and
  `internal.<i>.name|title|company`. They are filled with global
  regular-expression replacements, then the text is trimmed and wrapped in
  the "Why I'm applying" section.
- **`customizeContent`**. This is the regex rewriting of the HTML:
  - objective insertion after ABOUT ME;
  - global case-insensitive highlighting of skills;
  - emphasis inside the first paragraph after a company name;
  - removal of named sections;
  - replacement or insertion of the references section.
- **The default output filename**: `resume-<title>-<date>.pdf`.
- **The CLI rules** (`cli-generate.js`):
  - help and list flags;
  - choosing the configuration name from `--config` or the first
    positional argument;
  - the config path;
  - the sorted list of available configurations;
  - the two load-error messages and the exit codes.

JavaScript regular expressions are modelled by a small pattern language
(`Pattern`). Its atoms are a literal, any character, and a run of `\s`. A
search finds the leftmost match. A lazy `[\s\S]*?` span is the chaining
"first marker, then the first next marker after it" (`Customize.Extend`).
`String.prototype.replace` with a string replacement goes through the
`$`-substitution rules of ECMAScript's GetSubstitution (`Substitution.Expand`):
`$$`, `$&`, `` $` ``, `$'`, `$n` and `$nn`. So a `$` inside user-supplied
text is expanded, just as the code expands it. The fixed HTML texts of the
templates are the fields of a `Markup` record passed to every builder, so
each property holds whatever those texts are. `Markup.Html` holds the
generator's own texts, character for character.

Notes on the code's regexes:

- **Section removal.** The lazy `<section[\s\S]*?# NAME[\s\S]*?</section>`
  starts at the first `<section` of the whole document, not at the section
  that holds the heading. So the deleted span runs from there, through the
  first `# NAME` after it, to the first `</section>` after that heading.
  `Customize.RemovalSpanShape` states this.
- **Default REFERENCES block.** The span it replaces also starts at the
  first `<section` of the document (`Customize.ReferencesSpanShape`).
- **Emphasis scope.** Emphasis looks only at the first paragraph after the
  first occurrence of the company name (`Customize.ParagraphShape`).

## Model

| member | source | states |
|---|---|---|
| Text.OrElse | scripts/generate-resume-pdf.js:118-121 | `x \|\| default` on an optional string: the value when it is truthy (present and non-empty), the default otherwise |
| Text.Interpolate | scripts/generate-resume-pdf.js:289 | `${x}` renders a present field as itself and a missing one as "undefined" |
| Text.Decimal | scripts/generate-resume-pdf.js:373 | `${n}` renders a natural number as the decimal digits whose value (`Text.DecimalValue`) is `n`, with no leading zero |
| Text.Trim | scripts/generate-resume-pdf.js:645 | `trim()` yields the slice of its input between a leading and a trailing run of white space, and the slice neither starts nor ends with white space |
| Text.FoldCase | scripts/generate-resume-pdf.js:137 | the `i` flag compares characters after folding: no upper-case letter survives folding, other characters are unchanged |
| Pattern.SkipSpaces | scripts/generate-resume-pdf.js:599 | `\s*` consumes exactly the maximal run of white space from its position |
| Pattern.MatchAt | scripts/generate-resume-pdf.js:599 | an anchored match ends inside the text, no earlier than it starts |
| Pattern.Search | scripts/generate-resume-pdf.js:128-131 | a search from `from` returns a span inside the text that starts at or after `from` |
| Pattern.SearchLeftmost | scripts/generate-resume-pdf.js:128-131 | a found span is a match, no earlier position matches, and a failed search means no position matches |
| Pattern.MatchConcat | scripts/generate-resume-pdf.js:150 | matching a concatenated pattern is matching the first part and then the second from where it ended; failure of the first part fails the whole |
| Pattern.TermPattern | scripts/generate-resume-pdf.js:137 | a spliced term becomes one atom per character, with `.` as the wildcard |
| Pattern.TermMatch | scripts/generate-resume-pdf.js:137 | a term matches at `i` exactly when the next `\|t\|` characters fit it (case-folded under `i`, any character at a `.`) |
| Pattern.LiteralFound | scripts/generate-resume-pdf.js:150 | a found literal spans exactly its own length and its text equals the literal under the case rule |
| Pattern.ExactlyMatch | scripts/generate-resume-pdf.js:599 | a case-sensitive literal matches at `i` exactly when it occurs at `i` |
| Pattern.MatchShift | scripts/generate-resume-pdf.js:599 | a pattern matches at a position of a text exactly when it matches at the same position behind any prefix, ending at the shifted index |
| Pattern.SearchShift | scripts/generate-resume-pdf.js:603-607 | the leftmost match inside a text, shifted, is the leftmost match behind any prefix, and none stays none |
| Substitution.ExpandPlain | scripts/generate-resume-pdf.js:195-198 | a replacement string without `$` is inserted unchanged |
| Substitution.FirstCaptureThen | scripts/generate-resume-pdf.js:130 | `$1` followed by `$`-free text expands to the first capture followed by that text |
| Rewrite.ReplaceSpan | scripts/generate-resume-pdf.js:128-131 | a single replacement keeps everything before and after the match |
| Rewrite.ReplacePlain | scripts/generate-resume-pdf.js:195-198 | a `$`-free replacement takes exactly the matched span's place |
| Rewrite.InsertAfterMatch | scripts/generate-resume-pdf.js:128-131 | `$1` + text keeps the match and inserts the text right after it |
| Rewrite.InsertBeforeMatch | scripts/generate-resume-pdf.js:201-205 | text + `$1` keeps the match and inserts the text right before it |
| Rewrite.ReplaceShift | scripts/generate-resume-pdf.js:603-616 | with a `$`-free replacement, the global replacement inside a text is the same behind any prefix |
| Rewrite.ReplacePrefixKept | scripts/generate-resume-pdf.js:603-616 | a prefix where the pattern starts no match is copied, and the replacement goes on in the rest |
| Rewrite.ReplaceLeadingMatch | scripts/generate-resume-pdf.js:603-616 | a non-empty match at the start becomes the `$`-free replacement, and the replacement goes on in the rest |
| Rewrite.EmphasisTemplateParts | scripts/generate-resume-pdf.js:140 | the emphasis template is an opening tag, `$1` and a closing tag, with no other `$` |
| Rewrite.EmphasizeNoMatch | scripts/generate-resume-pdf.js:137-141 | where the term matches nowhere, the global replacement copies the text |
| Rewrite.WrapFirst | scripts/generate-resume-pdf.js:137-141 | a global wrap replaces the leftmost match by the wrapped match and goes on after it |
| Rewrite.WrapGrows | scripts/generate-resume-pdf.js:137-141 | wrapping every match never shortens the text and lengthens it when something matches |
| Rewrite.WrapTwiceDiffers | scripts/generate-resume-pdf.js:137-141 | wrapping a matched term a second time changes the text again: the wrap is not idempotent |
| Rewrite.EmphasizeGrows | scripts/generate-resume-pdf.js:137-141 | highlighting one term never shortens the document and lengthens it when the term occurs |
| Rewrite.EmphasizeTwiceDiffers | scripts/generate-resume-pdf.js:137-141 | highlighting the same term twice double-wraps it; the output differs from highlighting once |
| Customize.First | scripts/generate-resume-pdf.js:174-177 | the first match of a marker lies inside the text |
| Customize.Extend | scripts/generate-resume-pdf.js:150 | a lazy span extended to the next marker keeps its start and only grows |
| Customize.AboutSpan | scripts/generate-resume-pdf.js:129 | the ABOUT ME block, when found, lies inside the document |
| Customize.ReferencesSpan | scripts/generate-resume-pdf.js:189-192 | the default REFERENCES block, when found, lies inside the document |
| Customize.RemovalSpan | scripts/generate-resume-pdf.js:174-177 | the block to remove, when found, lies inside the document |
| Customize.ParagraphContent | scripts/generate-resume-pdf.js:149-152 | the paragraph after a company name, when found, lies inside the document |
| Customize.Highlight | scripts/generate-resume-pdf.js:135-143 | the `forEach` over highlight skills computes the skills applied first to last |
| Customize.EmphasizeExperience | scripts/generate-resume-pdf.js:146-169 | the `forEach` over emphasis items computes the items applied first to last |
| Customize.RemoveSections | scripts/generate-resume-pdf.js:172-180 | the `forEach` over section names computes the removals applied first to last |
| Customize.CustomizeContent | scripts/generate-resume-pdf.js:101-210 | the whole rewrite: objective, highlights, emphasis, removals, references, in that order |
| Customize.NoKeysNoChange | scripts/generate-resume-pdf.js:101-210 | with no company name, no lists and no references (or with no customizations at all) the HTML is returned unchanged |
| Customize.AboutSpanFirst | scripts/generate-resume-pdf.js:129 | the ABOUT ME block starts at the first occurrence of the marker and at no earlier one |
| Customize.ObjectivePlaced | scripts/generate-resume-pdf.js:105-131 | with a company name and an ABOUT ME block, the objective section is inserted right after the block, on a new line, and nothing else changes |
| Customize.ObjectiveSkipped | scripts/generate-resume-pdf.js:105-132 | without a company name, or without an ABOUT ME block, the objective pass changes nothing |
| Customize.ObjectiveSectionShows | scripts/generate-resume-pdf.js:107-125 | the objective section names the company and the key skills, or the default skills |
| Customize.HighlightAbsent | scripts/generate-resume-pdf.js:135-143 | a skill that does not occur leaves the document unchanged |
| Customize.HighlightGrows | scripts/generate-resume-pdf.js:135-143 | highlighting any list of skills never shortens the document |
| Customize.ParagraphAfterOpening | scripts/generate-resume-pdf.js:149-152 | the emphasised content starts right after a `<p class="mt-2.1">` opening |
| Customize.ParagraphUpToClose | scripts/generate-resume-pdf.js:149-152 | the emphasised content ends at the first `</p>` after the opening and contains none |
| Customize.ParagraphShape | scripts/generate-resume-pdf.js:149-152 | the emphasised paragraph is the first `<p class="mt-2.1">` (in any case) after the first mention of the company, which has no earlier mention, and its content starts right after that opening |
| Customize.MentionLength | scripts/generate-resume-pdf.js:149-150 | the first mention of the spliced company name spans exactly the name's length |
| Customize.EmphasisConfined | scripts/generate-resume-pdf.js:146-168 | an item without company or highlight list, or with no paragraph found, changes nothing; otherwise only the paragraph content changes, and it does not shrink |
| Customize.RemovalSpanShape | scripts/generate-resume-pdf.js:174-178 | the removed span starts at the first `<section` of the document; the first `# name` heading after that tag follows; the span ends with the first `</section>` after the heading |
| Customize.ReferencesSpanShape | scripts/generate-resume-pdf.js:189-192 | the replaced REFERENCES block starts at the first `<section` of the document; the first `# REFERENCES` (in any case) after that tag follows; the block ends with the first `</section>\s*</div>\s*</section>` after it |
| Customize.RemoveFirstOnly | scripts/generate-resume-pdf.js:172-180 | a removal deletes exactly its one span and keeps everything around it; no match changes nothing |
| Customize.ReferencesReplaced | scripts/generate-resume-pdf.js:194-198 | an existing REFERENCES block is replaced by the generated section and nothing else changes |
| Customize.ReferencesBeforeFork | scripts/generate-resume-pdf.js:199-206 | without that block, the section and its indentation are inserted right before the fork link |
| Customize.ReferencesDropped | scripts/generate-resume-pdf.js:199-206 | without either anchor, the references are not added and the document is unchanged |
| References.Field | scripts/generate-resume-pdf.js:290 | an optional line renders as its prefix and value when truthy and as nothing otherwise |
| References.GenerateProfessionalReferences | scripts/generate-resume-pdf.js:272-324 | the loop computes the professional block: header, entries in list order, close |
| References.GeneratePortfolioReferences | scripts/generate-resume-pdf.js:329-385 | the loop computes the portfolio block: header, entries in list order, close |
| References.GenerateAcademicReferences | scripts/generate-resume-pdf.js:390-428 | the loop computes the academic block: header, entries in list order, close |
| References.GenerateReferencesSection | scripts/generate-resume-pdf.js:217-267 | the serialiser computes the section: opening, non-empty categories, optional contact paragraph, close |
| References.ProfessionalCardShows | scripts/generate-resume-pdf.js:286-306 | a person card shows the name and every truthy title, company, email, phone, LinkedIn link and note |
| References.ProfessionalCardOmits | scripts/generate-resume-pdf.js:290-304 | a missing or empty optional field leaves no trace: the card equals the card without that field |
| References.AcademicCardShows | scripts/generate-resume-pdf.js:404-419 | an academic card shows the name and every truthy title, institution, email, phone and note |
| References.AvailableShows | scripts/generate-resume-pdf.js:307-315 | an "available" entry shows its message, or the fixed default text when the message is not truthy |
| References.PortfolioEntryShows | scripts/generate-resume-pdf.js:341-376 | a page or github entry shows its link head, its description when truthy, and for github its star count when set |
| References.LinkTarget | scripts/generate-resume-pdf.js:346-364 | page links open a new tab exactly when the url starts with "http"; github links always do |
| References.UnknownKindsSilent | scripts/generate-resume-pdf.js:284-421 | an entry whose type its list does not handle renders as nothing |
| References.SectionFrame | scripts/generate-resume-pdf.js:217-266 | the section starts with the REFERENCES heading block and ends with its closing tags |
| References.ContactParagraph | scripts/generate-resume-pdf.js:241-259 | unless hidden, the contact paragraph appears, and it is exactly the difference between the shown and hidden sections, just before the close |
| References.CategoryOrder | scripts/generate-resume-pdf.js:228-239 | professional, portfolio and academic blocks follow the opening in that order, and with no entries the section is opening, contact and close |
| References.EmptyCategoriesVanish | scripts/generate-resume-pdf.js:229-239 | an empty list renders like a missing one |
| References.InternalIgnored | scripts/generate-resume-pdf.js:217-267 | the serialiser does not look at `internal` references |
| References.EntryInBlock | scripts/generate-resume-pdf.js:284-421 | every entry of a listed category appears in the section |
| References.PersonListed | scripts/generate-resume-pdf.js:284-421 | every professional or academic person's name appears, in bold, in the section |
| References.LinkListed | scripts/generate-resume-pdf.js:341-378 | every portfolio page or repository link appears in the section |
| LiveReferences.Spanned | scripts/generate-resume-pdf.js:683-692 | an optional span renders as its opening, value and `</span>` when truthy and as nothing otherwise |
| LiveReferences.BuildInternal | scripts/generate-resume-pdf.js:672-735 | the loop computes the internal block: section, "References at" header, entries in order, close |
| LiveReferences.BuildProfessional | scripts/generate-resume-pdf.js:737-802 | the loop computes the professional block in list order |
| LiveReferences.BuildPortfolio | scripts/generate-resume-pdf.js:804-827 | the loop computes the portfolio block in list order |
| LiveReferences.BuildLiveReferences | scripts/generate-resume-pdf.js:667-829 | the builder computes the replacement: heading, internal, professional, portfolio, `</div>` |
| LiveReferences.LiveCardShows | scripts/generate-resume-pdf.js:678-725 | a person card shows the name and every truthy title, company and LinkedIn link |
| LiveReferences.LiveCardContacts | scripts/generate-resume-pdf.js:695-715 | a person card shows every truthy note (styled by category), email and phone |
| LiveReferences.LiveLinkShows | scripts/generate-resume-pdf.js:809-823 | a page or github entry always opens in a new tab and shows its description and stars when set |
| LiveReferences.LiveFrame | scripts/generate-resume-pdf.js:667-829 | the replacement starts with the REFERENCES heading and ends with `</div>` |
| LiveReferences.LiveIgnores | scripts/generate-resume-pdf.js:667-829 | the in-page builder ignores academic references and the hide-contact flag |
| LiveReferences.PresentEmptyRendered | scripts/generate-resume-pdf.js:672-826 | a present but empty list still renders its section and header |
| LiveReferences.EmptyListDiverges | scripts/generate-resume-pdf.js:737-801 | for an empty professional list the static serialiser writes nothing while the in-page builder writes a header block |
| LiveReferences.LiveCategoryOrder | scripts/generate-resume-pdf.js:671-829 | internal, professional and portfolio blocks follow the heading in that order |
| LiveReferences.InternalListed | scripts/generate-resume-pdf.js:672-735 | the internal block's company header and every internal entry appear |
| LiveReferences.ProfessionalLiveListed | scripts/generate-resume-pdf.js:737-802 | every professional entry appears |
| LiveReferences.PortfolioLiveListed | scripts/generate-resume-pdf.js:804-827 | every portfolio entry appears |
| LiveReferences.LiveLinkListed | scripts/generate-resume-pdf.js:809-823 | every page or github link appears, opening in a new tab |
| LiveReferences.LivePersonListed | scripts/generate-resume-pdf.js:676-802 | every internal or professional person's name appears |
| Objective.WhyHtml | scripts/generate-resume-pdf.js:587-648 | the "Why I'm applying" section exists exactly when the company name is truthy |
| Objective.FillInternal | scripts/generate-resume-pdf.js:619-635 | the loop fills the internal placeholders by index, first reference to last |
| Objective.ComposeObjective | scripts/generate-resume-pdf.js:591-635 | the objective text is the custom or default text with job title, company, skills and internal placeholders filled in that order |
| Objective.TokenHead | scripts/generate-resume-pdf.js:598-600 | a placeholder match starts with `{{` |
| Objective.NoToken | scripts/generate-resume-pdf.js:603-607 | a text without a placeholder of the key is unchanged |
| Objective.BraceFree | scripts/generate-resume-pdf.js:603-616 | a text without `{` is unchanged by any placeholder pass |
| Objective.FirstTokenReplaced | scripts/generate-resume-pdf.js:603-607 | the leftmost placeholder is replaced by the value, the text before it is kept, and the pass continues after it |
| Objective.KeyMatchesItself | scripts/generate-resume-pdf.js:599 | a key's pattern matches the key's own text |
| Objective.PlaceholderLayout | scripts/generate-resume-pdf.js:599 | a placeholder is `{{`, padding, key, padding, `}}` |
| Objective.OpeningMatch | scripts/generate-resume-pdf.js:599 | `\{\{\s*` consumes the braces and all the padding |
| Objective.ClosingMatch | scripts/generate-resume-pdf.js:599 | `\s*\}\}` consumes the padding and the closing braces to the end |
| Objective.KeyThenClosing | scripts/generate-resume-pdf.js:599 | after the opening, the key and the closing match to the end of the placeholder |
| Objective.PlaceholderMatches | scripts/generate-resume-pdf.js:599 | a placeholder with any white-space padding matches its key's pattern in full |
| Objective.PlaceholderReplaced | scripts/generate-resume-pdf.js:603-616 | in any text, a padded placeholder of the key is replaced by the `$`-free value: the text before it is kept, and the pass goes on after it |
| Objective.OtherKeyMisses | scripts/generate-resume-pdf.js:599 | a key's pattern does not match a placeholder of a key that differs at a non-wildcard position |
| Objective.OtherPlaceholderKept | scripts/generate-resume-pdf.js:603-616 | in any text, such a placeholder of another key survives the pass unchanged |
| Objective.Fill | scripts/generate-resume-pdf.js:603-616 | filling a key changes exactly that key's placeholders into the value, piece by piece |
| Objective.FillKeeps | scripts/generate-resume-pdf.js:603-633 | a brace-free value creates no new placeholder: the pieces stay well formed and separated from every other key |
| Objective.SlotsFilled | scripts/generate-resume-pdf.js:603-616 | one global pass over a whole objective turns every placeholder of its key, however padded, into the value and keeps all plain text and all other placeholders |
| Objective.HeadlineKeeps | scripts/generate-resume-pdf.js:603-616 | the headline passes keep the objective well formed and separated from any other key |
| Objective.HeadlineFilled | scripts/generate-resume-pdf.js:603-616 | the three headline passes fill every `jobTitle` placeholder with the job title or "Software Engineer", every `companyName` one with the company, every `keySkills` one with the skills or the default list, and keep everything else |
| Objective.EntryKeeps | scripts/generate-resume-pdf.js:620-633 | the passes of one internal reference keep the objective well formed and separated from any other key |
| Objective.EntryFilled | scripts/generate-resume-pdf.js:620-633 | the passes of reference `i` fill every `internal.i.name`, `.title` and `.company` placeholder with that field or "", and keep everything else |
| Objective.RefsKeep | scripts/generate-resume-pdf.js:619-635 | the passes of all internal references keep the objective well formed and separated from any other key |
| Objective.InternalFilled | scripts/generate-resume-pdf.js:619-635 | the `forEach` over the internal references fills the placeholders of every reference by its index |
| Objective.ObjectiveFilled | scripts/generate-resume-pdf.js:591-635 | the final objective text is the config's objective (or the default) with the headline placeholders and then every internal reference's placeholders filled |
| Objective.InternalBraceFree | scripts/generate-resume-pdf.js:619-635 | a text without `{` goes through the internal passes unchanged |
| Objective.DefaultPiecesRender | scripts/generate-resume-pdf.js:593-596 | the default objective is its four texts with the `jobTitle`, `companyName` and `keySkills` placeholders between them |
| Objective.DefaultPiecesWellFormed | scripts/generate-resume-pdf.js:593-596 | the default objective's texts hold no brace and its placeholders are unpadded keys |
| Objective.DefaultPiecesSeparated | scripts/generate-resume-pdf.js:593-599 | in the default objective each headline key's pattern matches only its own placeholder |
| Objective.DefaultHeadline | scripts/generate-resume-pdf.js:593-616 | the headline passes over the default objective put the job title, company and skills in its three places |
| Objective.HtmlObjective | scripts/generate-resume-pdf.js:591-596 | the in-page path's default objective is exactly the source's template text |
| Objective.DefaultObjectiveFilled | scripts/generate-resume-pdf.js:591-635 | without an objective of its own, the config's objective text is the default one with the job title (or "Software Engineer"), the company name and the skills (or the default list) in its three places, and internal references change nothing |
| Objective.WhyShows | scripts/generate-resume-pdf.js:637-648 | the section names the company and holds the trimmed objective text |
| OutputName.DatePart | scripts/generate-resume-pdf.js:859 | `slice(0, 10)` keeps the first ten characters, or all of a shorter text |
| OutputName.OutputFilename | scripts/generate-resume-pdf.js:860-862 | a truthy configured filename is used as is; otherwise the name starts with "resume-" and ends with ".pdf" |
| OutputName.DefaultNameRoundTrip | scripts/generate-resume-pdf.js:860-862 | a default name reads back into the job title and date it was made from |
| OutputName.DefaultFilenameReadsBack | scripts/generate-resume-pdf.js:859-862 | without a filename, the name carries the job title (or "tailored") and the timestamp's date |
| Cli.IndexOf | scripts/cli-generate.js:168 | `indexOf` gives the first position of the argument, or none when it is absent |
| Cli.FirstPositional | scripts/cli-generate.js:173 | `find` gives the first argument not starting with "--", and none when every argument does |
| Cli.SelectCommand | scripts/cli-generate.js:151-180 | help wins over everything, list over the rest, and a chosen name is non-empty and one of the arguments |
| Cli.ConfigFlagSelects | scripts/cli-generate.js:168-170 | a non-empty value after the first `--config` is the name |
| Cli.PositionalSelects | scripts/cli-generate.js:171-174 | without a usable `--config` value, the first positional argument is the name |
| Cli.NoNameWhen | scripts/cli-generate.js:166-180 | the "specify a configuration name" exit happens exactly when there is no help, no list, no usable `--config` value and the first positional argument is missing or empty |
| Cli.DashedNameFromFlag | scripts/cli-generate.js:168-174 | a name that starts with "--" can only come from a `--config` value |
| Cli.ConfigPath | scripts/cli-generate.js:26 | the config path is the entry `<name>.yaml` of the configurations directory: it starts with that directory and a separator, ends with a separator and the file name, and has nothing in between |
| Cli.ConfigPathInjective | scripts/cli-generate.js:26 | different names without `/` are loaded from different files |
| Cli.StemRoundTrip | scripts/cli-generate.js:17-18 | stripping ".yaml" inverts adding it, both ways |
| Cli.YamlNamesCount | scripts/cli-generate.js:15-18 | each name is listed as often as its `.yaml` file occurs in the directory |
| Cli.PrecedesTotal | scripts/cli-generate.js:19 | the sort order compares any two names |
| Cli.PrecedesTransitive | scripts/cli-generate.js:19 | the sort order is transitive |
| Cli.PrecedesAntisymmetric | scripts/cli-generate.js:19 | names that precede each other are equal |
| Cli.InsertKeeps | scripts/cli-generate.js:19 | inserting adds exactly one copy of the name |
| Cli.InsertSorted | scripts/cli-generate.js:19 | inserting into a sorted list keeps it sorted |
| Cli.SortNamesCorrect | scripts/cli-generate.js:19 | `sort()` yields a sorted permutation of its input |
| Cli.SortedUnique | scripts/cli-generate.js:19 | two sorted permutations of the same names are equal, so the sorted list is unique |
| Cli.AvailableConfigsCorrect | scripts/cli-generate.js:12-23 | the available configs are sorted, hold each name as often as its `.yaml` file, contain a name exactly when its file exists, and are empty when the directory cannot be read |
| Cli.LoadMessage | scripts/cli-generate.js:31-36 | a missing file gives "Configuration file not found: <path>", any other failure "Error reading configuration: <message>" |
| Cli.LoadMessagesDiffer | scripts/cli-generate.js:32-35 | the not-found message never equals a read-error message |
| Cli.ExitCode | scripts/cli-generate.js:176-204 | `main` exits with 1 exactly when the name is missing or the config fails to load |
| Cli.Run | scripts/cli-generate.js:151-204 | generation starts only with the selected name and the config read from its path; a load failure reports the configs available in the same configurations directory |
| Cli.NothingReadWithoutName | scripts/cli-generate.js:154-180 | without a name, the outcome and exit code do not depend on the file system (help and list read it only to print their listings; a missing name reads nothing); the exit code is 1 for a missing name and 0 for help or list |
| Cli.LoadFailureReported | scripts/cli-generate.js:183-204 | a failed read is reported with its message and the available configs, and a missing file's message ends with `/<name>.yaml` |

## Left out

- The browser, the HTTP server, Puppeteer and the PDF rendering are not modelled. Neither is the DOM search that finds the ABOUT ME and REFERENCES headings on the page. The in-page builders are modelled as the strings they produce, and whether the page has those headings is not modelled.
- The file system and YAML parsing are parameters of `Cli.Run`: `read` maps a path to a parsed configuration or a failure, and `list` maps a directory to its entries or none. Console output and `padEnd` are left out, and so are the listings that `--help` (`showHelp`) and `--list` (`listConfigs`) print. Both read the configurations directory and load every `.yaml` file in it only to print them, so `Cli.Run` does not consult `read` or `list` for help or list.
- `path.join` is modelled as joining with "/". Its normalisation and the directory stripping of `path.basename` are left out.
- Cli.ConfigPathInjective: stated only for names without `/`. `path.join` normalises `.` and `..` segments, so names such as `./lego` and `x/../lego` load the same file as `lego`. A name without `/` gives the single segment `<name>.yaml`, which normalisation leaves alone.
- The clock is a parameter: the ISO timestamp is given to `OutputName.OutputFilename`.
- Generation errors after a configuration has loaded are not modelled (the `try` around `generateTailoredResume`, cli-generate.js:209-225). `Cli.Run` stops at `Ready`.
- Customize.CustomizeContent: the terms spliced into regular expressions (skills, companies, highlight terms, section names) must be plain words, where `.` is the wildcard. Terms with other regex metacharacters are outside the model.
- Text.FoldCase: case-insensitive matching folds ASCII letters only, not the full Unicode case folding of the `i` flag.
- Cli.Precedes: `sort()` compares strings by UTF-16 code units. The model compares `char`s in order, which agrees except for characters outside the Basic Multilingual Plane.
- Pattern.TermPattern: the code's regular expressions have no `u` flag, so JavaScript matches them one UTF-16 code unit at a time. The model matches whole characters. A `.` in a spliced term therefore stands for a whole character, where JavaScript takes one half of a surrogate pair. After an empty match, `Rewrite.ReplaceAll` steps over a whole character, where JavaScript steps one code unit and can insert the template between the halves of a pair. This affects `Pattern.TermMatch`, `Rewrite.ReplaceAll`, `Customize.CustomizeContent` and the highlight and emphasis passes (`Customize.Highlight`, `Customize.EmphasizeExperience`). The model agrees with JavaScript on text without characters outside the Basic Multilingual Plane.
- Pattern.TermMatch: "the next `|t|` characters" counts whole characters, not UTF-16 code units, for the reason given for `Pattern.TermPattern`. On text outside the Basic Multilingual Plane, the match lengths and positions differ from JavaScript's.
- References.GeneratePortfolioReferences: a page entry without a `url` makes the source throw, because it calls `startsWith` on `undefined`. The model requires every page entry to have a url instead of modelling the exception. `References.GenerateReferencesSection` and `Customize.CustomizeContent` carry the same requirement.
- Objective.SlotsFilled: an objective is read as pieces (`Objective.Piece`): brace-free plain text and placeholders whose keys contain no brace. Each key's pattern must match no placeholder but its own (`Objective.Separated`), which holds when the keys differ at a position without a `.` wildcard. A custom objective that breaks these conditions (a stray `{`, or keys one pattern matches both) is computed by the model, but no lemma describes its result.
- Objective.HeadlineFilled: values containing `$` or `{` are excluded, and so are they in `Objective.EntryFilled`, `Objective.ObjectiveFilled` and `Objective.DefaultObjectiveFilled`. A `$` is expanded by the replacement, as the model itself computes. A `{` could form a new placeholder for a later pass.
- Customize.ObjectivePlaced: stated for a `$`-free objective section. With a `$` in the company name or skills, the model computes the expansion but no lemma describes it.
- Customize.ReferencesReplaced: stated for a `$`-free generated section, for the same reason.
- YAML scalars: the configuration's text fields are modelled as optional strings and a repository's `stars` as an optional natural number. Other YAML scalar types (numbers or booleans where text is expected, negative or fractional stars) are not modelled, so neither is how `${...}` and `||` would render them.

=== FILE: cli.dfy ===
/**
 * The command-line front end: which command the arguments select, which
 * file a configuration name maps to, how a failed load is reported, and
 * the list of available configurations built from a directory listing.
 * Directory listing and file reading (with YAML parsing) are function
 * parameters; console output is not modelled.
 */
module Cli {
  import opened Wrappers
  import opened Text

  const YamlSuffix := ".yaml"
  const NotFoundLead := "Configuration file not found: "
  const ReadErrorLead := "Error reading configuration: "

  // ---------------------------------------------------------------------
  // Argument selection

  /** `args.indexOf(x)`: the first index holding `x`. */
  function IndexOf(args: seq<string>, x: string): (r: Option<nat>)
    ensures r.Some? ==> r.value < |args| && args[r.value] == x && forall k :: 0 <= k < r.value ==> args[k] != x
    ensures r.None? ==> x !in args
  {
    if args == [] then None
    else if args[0] == x then Some(0)
    else
      match IndexOf(args[1..], x)
      case None => None
      case Some(i) => Some(i + 1)
  }

  predicate IsOption(arg: string) {
    StartsWith(arg, "--")
  }

  /** `args.find((arg) => !arg.startsWith("--"))`, as an index. */
  function FirstPositional(args: seq<string>): (r: Option<nat>)
    ensures r.Some? ==> r.value < |args| && !IsOption(args[r.value]) && forall k :: 0 <= k < r.value ==> IsOption(args[k])
    ensures r.None? ==> forall k :: 0 <= k < |args| ==> IsOption(args[k])
  {
    if args == [] then None
    else if !IsOption(args[0]) then Some(0)
    else
      match FirstPositional(args[1..])
      case None => None
      case Some(i) => Some(i + 1)
  }

  /** The argument after the first `--config`, when there is one and it is
      not empty. */
  function ConfigFlagValue(args: seq<string>): Option<string> {
    match IndexOf(args, "--config")
    case Some(i) => if i + 1 < |args| && args[i + 1] != "" then Some(args[i + 1]) else None
    case None => None
  }

  /** The configuration name `main` picks: the `--config` value, else the
      first argument that does not start with `--` (possibly empty). */
  function ConfigName(args: seq<string>): Option<string> {
    if ConfigFlagValue(args).Some? then ConfigFlagValue(args)
    else
      match FirstPositional(args)
      case Some(k) => Some(args[k])
      case None => None
  }

  predicate AsksHelp(args: seq<string>) {
    "--help" in args || "-h" in args
  }

  predicate AsksList(args: seq<string>) {
    "--list" in args || "-l" in args
  }

  /** What `main` does with its arguments; `NoName` ends the process with
      exit code 1. */
  datatype Command = Help | List | Generate(name: string) | NoName

  function SelectCommand(args: seq<string>): (r: Command)
    ensures r == Help <==> AsksHelp(args)
    ensures r == List <==> !AsksHelp(args) && AsksList(args)
    ensures r.Generate? ==> r.name != "" && r.name in args
  {
    if AsksHelp(args) then Help
    else if AsksList(args) then List
    else
      match ConfigName(args)
      case Some(n) => if n != "" then Generate(n) else NoName
      case None => NoName
  }

  /** `--config` followed by a non-empty argument selects that argument,
      whatever positional arguments come before it. */
  lemma ConfigFlagSelects(args: seq<string>, i: nat)
    requires !AsksHelp(args) && !AsksList(args)
    requires i + 1 < |args| && args[i] == "--config" && args[i + 1] != ""
    requires forall k :: 0 <= k < i ==> args[k] != "--config"
    ensures SelectCommand(args) == Generate(args[i + 1])
  {
    var j := IndexOf(args, "--config");
    assert j.Some? && j.value == i;
  }

  /** Otherwise the first argument not starting with `--` is the name; a
      single-dash argument counts. */
  lemma PositionalSelects(args: seq<string>, k: nat)
    requires !AsksHelp(args) && !AsksList(args) && ConfigFlagValue(args).None?
    requires k < |args| && !IsOption(args[k]) && args[k] != ""
    requires forall j :: 0 <= j < k ==> IsOption(args[j])
    ensures SelectCommand(args) == Generate(args[k])
  {
    var p := FirstPositional(args);
    assert p.Some? && p.value == k;
  }

  /** The process stops with exit code 1 exactly when neither help nor list
      is asked for and no usable name is found: no `--config` value and no
      non-empty first positional argument. */
  lemma NoNameWhen(args: seq<string>)
    ensures SelectCommand(args) == NoName <==>
              !AsksHelp(args) && !AsksList(args) && ConfigFlagValue(args).None?
              && forall k :: 0 <= k < |args| && !IsOption(args[k]) && (forall j :: 0 <= j < k ==> IsOption(args[j])) ==> args[k] == ""
  {
    var p := FirstPositional(args);
    if p.Some? {
      forall k | 0 <= k < |args| && !IsOption(args[k]) && (forall j :: 0 <= j < k ==> IsOption(args[j]))
        ensures k == p.value
      {
      }
    }
  }

  /** A name starting with `--` can only come from `--config`. */
  lemma DashedNameFromFlag(args: seq<string>)
    requires SelectCommand(args).Generate? && IsOption(SelectCommand(args).name)
    ensures exists i :: 0 <= i < |args| - 1 && args[i] == "--config" && args[i + 1] == SelectCommand(args).name
  {
    var i := IndexOf(args, "--config").value;
    assert args[i] == "--config" && args[i + 1] == SelectCommand(args).name;
  }

  // ---------------------------------------------------------------------
  // Configuration files

  /** `${configName}.yaml`. */
  function ConfigFile(name: string): string {
    name + YamlSuffix
  }

  /** `path.join(dir, "configs")`, the directory both the loader and the
      listing use, without the normalisation of `..` and repeated
      separators. */
  function ConfigsDir(dir: string): string {
    dir + "/configs"
  }

  /** `path.join(dir, "configs", \`${configName}.yaml\`)`: the entry
      `name.yaml` inside the configurations directory, and nothing else. */
  function ConfigPath(dir: string, name: string): (r: string)
    ensures StartsWith(r, ConfigsDir(dir) + "/") && EndsWith(r, "/" + ConfigFile(name))
    ensures |r| == |ConfigsDir(dir)| + 1 + |ConfigFile(name)|
  {
    var r := ConfigsDir(dir) + "/" + ConfigFile(name);
    PrefixOfAppend(ConfigsDir(dir) + "/", ConfigFile(name));
    SuffixOfAppend(ConfigsDir(dir), "/" + ConfigFile(name));
    assert r == ConfigsDir(dir) + ("/" + ConfigFile(name));
    r
  }

  /** Different names are loaded from different files of the same
      directory. A name without `/` is a single path segment `<name>.yaml`,
      never `.` or `..`, which `path.join` keeps as it is; names with `/`
      (`./lego`, `x/../lego`) can be normalised onto the same file. */
  lemma {:induction false} ConfigPathInjective(dir: string, a: string, b: string)
    requires '/' !in a && '/' !in b
    requires ConfigPath(dir, a) == ConfigPath(dir, b)
    ensures a == b
  {
    var k := |ConfigsDir(dir)| + 1;
    var r := ConfigPath(dir, a);
    assert ConfigFile(a) == r[k..] == ConfigFile(b);
    StemRoundTrip(a, ConfigFile(a));
    StemRoundTrip(b, ConfigFile(b));
  }

  /** `path.basename(file, ".yaml")` of a directory entry ending in `.yaml`. */
  function Stem(file: string): string
    requires EndsWith(file, YamlSuffix)
  {
    file[..|file| - |YamlSuffix|]
  }

  /** A configuration name and its file name determine each other. */
  lemma StemRoundTrip(name: string, file: string)
    ensures EndsWith(ConfigFile(name), YamlSuffix) && Stem(ConfigFile(name)) == name
    ensures EndsWith(file, YamlSuffix) ==> ConfigFile(Stem(file)) == file
  {
    SuffixOfAppend(name, YamlSuffix);
    if EndsWith(file, YamlSuffix) {
      assert file == file[..|file| - |YamlSuffix|] + file[|file| - |YamlSuffix|..];
    }
  }

  /** The filter and map of `getAvailableConfigs`: the names of the `.yaml`
      entries, in listing order. */
  function YamlNames(files: seq<string>): seq<string> {
    if files == [] then []
    else (if EndsWith(files[0], YamlSuffix) then [Stem(files[0])] else []) + YamlNames(files[1..])
  }

  /** Each name is listed once per `.yaml` file of that name in the
      listing, and no other name is listed. */
  lemma {:induction false} YamlNamesCount(files: seq<string>, name: string)
    ensures multiset(YamlNames(files))[name] == multiset(files)[ConfigFile(name)]
  {
    if files != [] {
      YamlNamesCount(files[1..], name);
      StemRoundTrip(name, files[0]);
      assert files == [files[0]] + files[1..];
      assert multiset(files) == multiset{files[0]} + multiset(files[1..]);
    }
  }

  // ---------------------------------------------------------------------
  // Sorting

  /** The default order of `Array.prototype.sort` on strings: code unit by
      code unit, a prefix first. */
  predicate Precedes(a: string, b: string)
    decreases |a|
  {
    a == [] || (b != [] && (a[0] < b[0] || (a[0] == b[0] && Precedes(a[1..], b[1..]))))
  }

  lemma {:induction false} PrecedesTotal(a: string, b: string)
    ensures Precedes(a, b) || Precedes(b, a)
    decreases |a|
  {
    if a != [] && b != [] && a[0] == b[0] {
      PrecedesTotal(a[1..], b[1..]);
    }
  }

  lemma {:induction false} PrecedesTransitive(a: string, b: string, c: string)
    requires Precedes(a, b) && Precedes(b, c)
    ensures Precedes(a, c)
    decreases |a|
  {
    if a != [] && a[0] == b[0] && b[0] == c[0] {
      PrecedesTransitive(a[1..], b[1..], c[1..]);
    }
  }

  lemma {:induction false} PrecedesAntisymmetric(a: string, b: string)
    requires Precedes(a, b) && Precedes(b, a)
    ensures a == b
    decreases |a|
  {
    if a != [] {
      PrecedesAntisymmetric(a[1..], b[1..]);
      assert a == [a[0]] + a[1..] && b == [b[0]] + b[1..];
    }
  }

  predicate Sorted(xs: seq<string>) {
    forall i, j :: 0 <= i < j < |xs| ==> Precedes(xs[i], xs[j])
  }

  function Insert(x: string, xs: seq<string>): seq<string> {
    if xs == [] then [x]
    else if Precedes(x, xs[0]) then [x] + xs
    else [xs[0]] + Insert(x, xs[1..])
  }

  /** `.sort()` with the default comparison. */
  function SortNames(xs: seq<string>): seq<string> {
    if xs == [] then [] else Insert(xs[0], SortNames(xs[1..]))
  }

  lemma {:induction false} InsertKeeps(x: string, xs: seq<string>)
    ensures multiset(Insert(x, xs)) == multiset(xs) + multiset{x}
  {
    if xs != [] && !Precedes(x, xs[0]) {
      InsertKeeps(x, xs[1..]);
      assert xs == [xs[0]] + xs[1..];
    }
  }

  lemma {:induction false} InsertSorted(x: string, xs: seq<string>)
    requires Sorted(xs)
    ensures Sorted(Insert(x, xs))
  {
    if xs != [] {
      if Precedes(x, xs[0]) {
        forall j | 0 <= j < |xs| ensures Precedes(x, xs[j]) {
          if j > 0 { PrecedesTransitive(x, xs[0], xs[j]); }
        }
      } else {
        PrecedesTotal(x, xs[0]);
        InsertSorted(x, xs[1..]);
        InsertKeeps(x, xs[1..]);
        var r := Insert(x, xs[1..]);
        forall j | 0 <= j < |r| ensures Precedes(xs[0], r[j]) {
          assert r[j] in multiset(r);
          if r[j] != x {
            assert r[j] in xs[1..];
          }
        }
      }
    }
  }

  /** The sort returns the same names, in order. */
  lemma {:induction false} SortNamesCorrect(xs: seq<string>)
    ensures Sorted(SortNames(xs)) && multiset(SortNames(xs)) == multiset(xs)
  {
    if xs != [] {
      SortNamesCorrect(xs[1..]);
      InsertSorted(xs[0], SortNames(xs[1..]));
      InsertKeeps(xs[0], SortNames(xs[1..]));
      assert xs == [xs[0]] + xs[1..];
    }
  }

  /** Two sorted orders of the same names start with the same name. */
  lemma SortedHeads(a: seq<string>, b: seq<string>)
    requires Sorted(a) && Sorted(b) && multiset(a) == multiset(b) && a != []
    ensures b != [] && a[0] == b[0]
  {
    assert a[0] in multiset(b);
    assert b != [];
    assert b[0] in multiset(a);
    var j :| 0 <= j < |b| && b[j] == a[0];
    var i :| 0 <= i < |a| && a[i] == b[0];
    PrecedesTotal(a[0], a[0]);
    PrecedesTotal(b[0], b[0]);
    assert Precedes(b[0], a[0]);
    assert Precedes(a[0], b[0]);
    PrecedesAntisymmetric(a[0], b[0]);
  }

  lemma SortedTail(a: seq<string>)
    requires Sorted(a) && a != []
    ensures Sorted(a[1..])
  {
  }

  /** Sorted orders of the same names are the same list: the result does
      not depend on how the sort is carried out. */
  lemma {:induction false} SortedUnique(a: seq<string>, b: seq<string>)
    requires Sorted(a) && Sorted(b) && multiset(a) == multiset(b)
    ensures a == b
    decreases |a|
  {
    if a == [] {
      assert |b| == |multiset(b)|;
    } else {
      SortedHeads(a, b);
      assert multiset(a[1..]) == multiset(b[1..]) by {
        assert a == [a[0]] + a[1..] && b == [b[0]] + b[1..];
        assert multiset(a[1..]) == multiset(a) - multiset{a[0]};
        assert multiset(b[1..]) == multiset(b) - multiset{b[0]};
      }
      SortedTail(a);
      SortedTail(b);
      SortedUnique(a[1..], b[1..]);
      assert a == [a[0]] + a[1..] && b == [b[0]] + b[1..];
    }
  }

  /** `getAvailableConfigs`: the sorted names of the `.yaml` entries of the
      listing, or no names when the directory cannot be read. */
  function AvailableConfigs(listing: Option<seq<string>>): seq<string> {
    match listing
    case None => []
    case Some(files) => SortNames(YamlNames(files))
  }

  /** The available configurations are sorted and hold each name once per
      `.yaml` file of that name: a name is listed exactly when its file is
      in the listing. An unreadable directory gives no names. */
  lemma AvailableConfigsCorrect(files: seq<string>, name: string)
    ensures Sorted(AvailableConfigs(Some(files)))
    ensures multiset(AvailableConfigs(Some(files)))[name] == multiset(files)[ConfigFile(name)]
    ensures name in AvailableConfigs(Some(files)) <==> ConfigFile(name) in files
    ensures AvailableConfigs(None) == []
  {
    var names := YamlNames(files);
    SortNamesCorrect(names);
    YamlNamesCount(files, name);
    assert name in SortNames(names) <==> name in multiset(SortNames(names));
  }

  // ---------------------------------------------------------------------
  // Loading

  /** A failed read or parse: the error's `code` (`"ENOENT"` for a missing
      file) and its `message`. */
  datatype LoadFailure = LoadFailure(code: Option<string>, message: string)

  predicate Missing(f: LoadFailure) {
    f.code == Some("ENOENT")
  }

  /** The message `loadConfig` throws for a failure at `path`. */
  function LoadMessage(path: string, f: LoadFailure): (r: string)
    ensures Missing(f) ==> StartsWith(r, NotFoundLead) && EndsWith(r, path)
    ensures !Missing(f) ==> StartsWith(r, ReadErrorLead) && EndsWith(r, f.message)
  {
    var lead := if Missing(f) then NotFoundLead else ReadErrorLead;
    var tail := if Missing(f) then path else f.message;
    PrefixOfAppend(lead, tail);
    SuffixOfAppend(lead, tail);
    lead + tail
  }

  /** A missing file and any other failure are never reported alike. */
  lemma LoadMessagesDiffer(p1: string, f1: LoadFailure, p2: string, f2: LoadFailure)
    requires Missing(f1) && !Missing(f2)
    ensures LoadMessage(p1, f1) != LoadMessage(p2, f2)
  {
    assert LoadMessage(p1, f1)[0] == NotFoundLead[0];
    assert LoadMessage(p2, f2)[0] == ReadErrorLead[0];
  }

  /** `loadConfig`: the parsed configuration, or the message it throws. */
  function LoadConfig<T>(dir: string, name: string, read: string -> Result<T, LoadFailure>): Result<T, string> {
    var path := ConfigPath(dir, name);
    match read(path)
    case Success(config) => Success(config)
    case Failure(f) => Failure(LoadMessage(path, f))
  }

  // ---------------------------------------------------------------------
  // main

  /** Where `main` ends up before any generation starts. */
  datatype Outcome<T> =
    | ShowHelp
    | ShowList
    | MissingName                                       // exit code 1
    | LoadFailed(message: string, available: seq<string>)  // exit code 1
    | Ready(name: string, config: T)

  function ExitCode<T>(o: Outcome<T>): (code: Option<int>)
    ensures code == Some(1) <==> o.MissingName? || o.LoadFailed?
  {
    match o
    case MissingName => Some(1)
    case LoadFailed(_, _) => Some(1)
    case Ready(_, _) => None
    case _ => Some(0)
  }

  /** `main` up to the start of generation: the file system is the `read`
      function (a path to its parsed configuration) and the `list` function
      (a directory to its entries, or none when it cannot be read). */
  function Run<T>(args: seq<string>, dir: string, read: string -> Result<T, LoadFailure>,
                  list: string -> Option<seq<string>>): (o: Outcome<T>)
    ensures o.Ready? ==> SelectCommand(args) == Generate(o.name) && read(ConfigPath(dir, o.name)) == Success(o.config)
    ensures o.LoadFailed? ==> SelectCommand(args).Generate? && o.available == AvailableConfigs(list(ConfigsDir(dir)))
  {
    match SelectCommand(args)
    case Help => ShowHelp
    case List => ShowList
    case NoName => MissingName
    case Generate(name) =>
      match LoadConfig(dir, name, read)
      case Success(config) => Ready(name, config)
      case Failure(message) => LoadFailed(message, AvailableConfigs(list(ConfigsDir(dir))))
  }

  /** The outcome and exit code of help, list and a missing name do not
      depend on the file system: what `showHelp` and `listConfigs` read is
      only printed. Only the missing-name exit reads nothing at all. */
  lemma NothingReadWithoutName<T>(args: seq<string>, dir: string,
                                  read1: string -> Result<T, LoadFailure>, list1: string -> Option<seq<string>>,
                                  read2: string -> Result<T, LoadFailure>, list2: string -> Option<seq<string>>)
    requires !SelectCommand(args).Generate?
    ensures Run(args, dir, read1, list1) == Run(args, dir, read2, list2)
    ensures ExitCode(Run(args, dir, read1, list1)) == if SelectCommand(args) == NoName then Some(1) else Some(0)
  {
  }

  /** A failed load reports the loader's message for the chosen name's
      path. */
  lemma LoadFailureReported<T>(args: seq<string>, dir: string, read: string -> Result<T, LoadFailure>,
                               list: string -> Option<seq<string>>, name: string, f: LoadFailure)
    requires SelectCommand(args) == Generate(name) && read(ConfigPath(dir, name)) == Failure(f)
    ensures Run(args, dir, read, list) == LoadFailed(LoadMessage(ConfigPath(dir, name), f), AvailableConfigs(list(ConfigsDir(dir))))
    ensures Missing(f) ==> EndsWith(Run(args, dir, read, list).message, "/" + ConfigFile(name))
  {
    var path := ConfigPath(dir, name);
    if Missing(f) {
      var m := LoadMessage(path, f);
      assert m == NotFoundLead + path;
      SuffixOfAppend(NotFoundLead + ConfigsDir(dir), "/" + ConfigFile(name));
      assert m == NotFoundLead + ConfigsDir(dir) + ("/" + ConfigFile(name));
    }
  }
}

=== FILE: customizations.dfy ===
/**
 * The `customizations` record of a tailoring config, as far as the
 * generator reads it. Every key is optional; lists are arrays in the
 * config, so a present list is truthy even when it is empty.
 */
module Customizations {
  import opened Wrappers
  import opened References

  /** One `emphasizeExperience` item: the company to look for and the terms
      to highlight in the paragraph that follows it. */
  datatype Emphasis = Emphasis(company: Option<string>, highlight: Option<seq<string>>)

  datatype Customizations = Customizations(
    companyName: Option<string>,
    jobTitle: Option<string>,
    keySkills: Option<string>,
    customObjective: Option<string>,
    highlightSkills: Option<seq<string>>,
    emphasizeExperience: Option<seq<Emphasis>>,
    removeSections: Option<seq<string>>,
    references: Option<References>)

  /** The config with no customization key at all. */
  const NoCustomizations := Customizations(None, None, None, None, None, None, None, None)
}

=== FILE: customize.dfy ===
/**
 * `customizeContent`: the rewrite passes over the résumé's HTML, in the
 * order the generator runs them: the objective section after ABOUT ME,
 * highlighted skills, emphasis inside one experience paragraph, removed
 * sections, and the references section.
 *
 * Each regular expression of the source is read with the `Pattern` module.
 * A lazy span `A[\s\S]*?B` is the match of `A` followed by the first match
 * of `B` after it (`Extend`); since every `A` and `B` here has a fixed
 * length or ends the expression, this is the leftmost match the engine
 * finds.
 */
module Customize {
  import opened Wrappers
  import opened Text
  import opened Pattern
  import opened Substitution
  import opened Rewrite
  import opened Markup
  import opened References
  import opened Customizations
  import opened Objective

  const AboutMarker := "# ABOUT ME"
  const ReferencesMarker := "# REFERENCES"
  const SectionTag := "<section"
  const SectionClose := "</section>"
  /** `<p class="mt-2\.1">`: the escaped dot is a literal dot. */
  const ParagraphOpen := "<p class=\"mt-2.1\">"
  const ParagraphClose := "</p>"
  /** What the fork-link rule puts between the references and the link. */
  const ForkIndent := "\n\n        "

  /** `<\/section>\s*<\/div>\s*<\/section>`. */
  function SectionEnd(): Pattern {
    [Lit(SectionClose), Spaces, Lit("</div>"), Spaces, Lit(SectionClose)]
  }

  /** `<p>\s*Fork this resume at`. */
  function ForkLink(): Pattern {
    [Lit("<p>"), Spaces, Lit("Fork this resume at")]
  }

  /** `# ${name}`: the section heading to remove; the name is spliced in. */
  function Heading(name: string): Pattern {
    [Lit("# ")] + TermPattern(name)
  }

  predicate Within(s: string, sp: Span) {
    sp.start <= sp.end <= |s|
  }

  /** The leftmost match of `p` in `s`. */
  function First(s: string, p: Pattern, ci: bool): (r: Option<Span>)
    ensures r.Some? ==> Within(s, r.value)
  {
    Search(s, 0, p, ci)
  }

  /** `A[\s\S]*?B` from a match `a` of `A`: the span from the start of `a`
      to the end of the first match of `B` after it. */
  function Extend(s: string, a: Option<Span>, p: Pattern, ci: bool): (r: Option<Span>)
    requires a.Some? ==> Within(s, a.value)
    ensures r.Some? ==> a.Some? && Within(s, r.value) && r.value.start == a.value.start && a.value.end <= r.value.end
  {
    if a.None? then None
    else
      match Search(s, a.value.end, p, ci)
      case None => None
      case Some(b) => Some(Span(a.value.start, b.end))
  }

  /** `(# ABOUT ME[\s\S]*?<\/section>\s*<\/div>\s*<\/section>)`. */
  function AboutSpan(s: string): (r: Option<Span>)
    ensures r.Some? ==> Within(s, r.value)
  {
    Extend(s, First(s, Exactly(AboutMarker), false), SectionEnd(), false)
  }

  /** `<section[\s\S]*?# REFERENCES[\s\S]*?</section>\s*</div>\s*</section>`,
      case-insensitive. */
  function ReferencesSpan(s: string): (r: Option<Span>)
    ensures r.Some? ==> Within(s, r.value)
  {
    Extend(s, Extend(s, First(s, Exactly(SectionTag), true), Exactly(ReferencesMarker), true), SectionEnd(), true)
  }

  /** `<section[\s\S]*?# ${name}[\s\S]*?</section>`, case-insensitive. */
  function RemovalSpan(s: string, name: string): (r: Option<Span>)
    ensures r.Some? ==> Within(s, r.value)
  {
    Extend(s, Extend(s, First(s, Exactly(SectionTag), true), Heading(name), true), Exactly(SectionClose), true)
  }

  /** The middle group of `(${company}[\s\S]*?<p class="mt-2\.1">)([\s\S]*?)(</p>)`,
      case-insensitive: the content of the first such paragraph after the
      first mention of the company. */
  function ParagraphContent(s: string, company: string): (r: Option<Span>)
    ensures r.Some? ==> Within(s, r.value)
  {
    match Extend(s, First(s, TermPattern(company), true), Exactly(ParagraphOpen), true)
    case None => None
    case Some(o) =>
      match Search(s, o.end, Exactly(ParagraphClose), true)
      case None => None
      case Some(q) => Some(Span(o.end, q.start))
  }

  /** The objective section `customizeContent` inserts. */
  function ObjectiveSection(m: Markup, companyName: string, keySkills: Option<string>): string {
    m.objectiveLead + companyName + m.objectiveMiddle + OrElse(keySkills, DefaultSkills) + m.objectiveTail
  }

  /** The objective pass: with a truthy company name, the objective section
      goes after the ABOUT ME block (template `$1\n${objectiveSection}`). */
  function ObjectivePass(m: Markup, s: string, c: Customizations): string {
    if Truthy(c.companyName) then
      match AboutSpan(s)
      case None => s
      case Some(sp) => ReplaceSpan(s, sp, "$1" + ("\n" + ObjectiveSection(m, c.companyName.value, c.keySkills)), [s[sp.start..sp.end]])
    else s
  }

  /** The highlight terms applied one after the other, first to last. */
  function HighlightAll(s: string, terms: seq<string>): string
    decreases |terms|
  {
    if terms == [] then s else EmphasizeAll(HighlightAll(s, terms[..|terms| - 1]), terms[|terms| - 1])
  }

  /** One `emphasizeExperience` item: the terms are highlighted inside the
      paragraph content only; the rest of the text is copied. */
  function EmphasisPass(s: string, e: Emphasis): string {
    if Truthy(e.company) && e.highlight.Some? then
      match ParagraphContent(s, e.company.value)
      case None => s
      case Some(sp) => s[..sp.start] + HighlightAll(s[sp.start..sp.end], e.highlight.value) + s[sp.end..]
    else s
  }

  function EmphasisAll(s: string, items: seq<Emphasis>): string
    decreases |items|
  {
    if items == [] then s else EmphasisPass(EmphasisAll(s, items[..|items| - 1]), items[|items| - 1])
  }

  /** One `removeSections` name: the first matching section is deleted. */
  function RemovePass(s: string, name: string): string {
    match RemovalSpan(s, name)
    case None => s
    case Some(sp) => s[..sp.start] + s[sp.end..]
  }

  function RemoveAll(s: string, names: seq<string>): string
    decreases |names|
  {
    if names == [] then s else RemovePass(RemoveAll(s, names[..|names| - 1]), names[|names| - 1])
  }

  /** The references pass: the generated section replaces the page's
      REFERENCES block, or else goes before the fork link, or else is
      dropped. */
  function ReferencesPass(m: Markup, s: string, r: References): string
    requires Serialisable(r)
  {
    var section := SectionText(m, r);
    match ReferencesSpan(s)
    case Some(sp) => ReplaceSpan(s, sp, section, [])
    case None =>
      match First(s, ForkLink(), true)
      case None => s
      case Some(f) => ReplaceSpan(s, f, section + ForkIndent + "$1", [s[f.start..f.end]])
  }

  function Listed<T>(o: Option<seq<T>>): seq<T> {
    if o.Some? then o.value else []
  }

  /** The terms the source splices into regular expressions read as plain
      words (a `.` is the wildcard). */
  predicate PlainTerms(c: Customizations) {
    (forall t :: t in Listed(c.highlightSkills) ==> PlainTerm(t))
    && (forall e :: e in Listed(c.emphasizeExperience) ==>
          (e.company.Some? ==> PlainTerm(e.company.value))
          && (forall t :: t in Listed(e.highlight) ==> PlainTerm(t)))
    && (forall t :: t in Listed(c.removeSections) ==> PlainTerm(t))
  }

  /** A references record the serialiser accepts. */
  predicate ReferencesOk(c: Customizations) {
    c.references.Some? ==> Serialisable(c.references.value)
  }

  /** What `customizeContent` returns. */
  function CustomizedText(m: Markup, html: string, c: Customizations): string
    requires PlainTerms(c) && ReferencesOk(c)
  {
    var s1 := ObjectivePass(m, html, c);
    var s2 := HighlightAll(s1, Listed(c.highlightSkills));
    var s3 := EmphasisAll(s2, Listed(c.emphasizeExperience));
    var s4 := RemoveAll(s3, Listed(c.removeSections));
    if c.references.Some? then ReferencesPass(m, s4, c.references.value) else s4
  }

  /** The `forEach` over highlight terms. */
  method Highlight(s0: string, terms: seq<string>) returns (s: string)
    ensures s == HighlightAll(s0, terms)
  {
    s := s0;
    for i := 0 to |terms|
      invariant s == HighlightAll(s0, terms[..i])
    {
      assert terms[..i + 1][..i] == terms[..i];
      s := EmphasizeAll(s, terms[i]);
    }
    assert terms[..|terms|] == terms;
  }

  /** The `forEach` over `emphasizeExperience`. */
  method EmphasizeExperience(s0: string, items: seq<Emphasis>) returns (s: string)
    ensures s == EmphasisAll(s0, items)
  {
    s := s0;
    for i := 0 to |items|
      invariant s == EmphasisAll(s0, items[..i])
    {
      assert items[..i + 1][..i] == items[..i];
      var e := items[i];
      if Truthy(e.company) && e.highlight.Some? {
        match ParagraphContent(s, e.company.value)
        case None =>
        case Some(sp) =>
          var content := Highlight(s[sp.start..sp.end], e.highlight.value);
          s := s[..sp.start] + content + s[sp.end..];
      }
    }
    assert items[..|items|] == items;
  }

  /** The `forEach` over `removeSections`. */
  method RemoveSections(s0: string, names: seq<string>) returns (s: string)
    ensures s == RemoveAll(s0, names)
  {
    s := s0;
    for i := 0 to |names|
      invariant s == RemoveAll(s0, names[..i])
    {
      assert names[..i + 1][..i] == names[..i];
      match RemovalSpan(s, names[i])
      case None =>
      case Some(sp) =>
        s := s[..sp.start] + s[sp.end..];
    }
    assert names[..|names|] == names;
  }

  /** `customizeContent`. */
  method CustomizeContent(m: Markup, html: string, c: Customizations) returns (s: string)
    requires PlainTerms(c) && ReferencesOk(c)
    ensures s == CustomizedText(m, html, c)
  {
    s := ObjectivePass(m, html, c);
    if c.highlightSkills.Some? {
      s := Highlight(s, c.highlightSkills.value);
    }
    if c.emphasizeExperience.Some? {
      s := EmphasizeExperience(s, c.emphasizeExperience.value);
    }
    if c.removeSections.Some? {
      s := RemoveSections(s, c.removeSections.value);
    }
    if c.references.Some? {
      s := ReferencesPass(m, s, c.references.value);
    }
  }

  /** With no customization key set, the document is returned as it is. */
  lemma NoKeysNoChange(m: Markup, html: string, c: Customizations)
    requires !Truthy(c.companyName)
    requires Listed(c.highlightSkills) == [] && Listed(c.emphasizeExperience) == [] && Listed(c.removeSections) == []
    requires c.references.None?
    ensures CustomizedText(m, html, c) == html
    ensures CustomizedText(m, html, NoCustomizations) == html
  {
  }

  /** The objective block starts at the first "# ABOUT ME". */
  lemma AboutSpanFirst(s: string)
    requires AboutSpan(s).Some?
    ensures OccursAt(s, AboutMarker, AboutSpan(s).value.start)
    ensures forall k :: 0 <= k < AboutSpan(s).value.start ==> !OccursAt(s, AboutMarker, k)
  {
    var a := First(s, Exactly(AboutMarker), false).value;
    SearchLeftmost(s, 0, Exactly(AboutMarker), false);
    ExactlyMatch(s, a.start, AboutMarker);
    forall k | 0 <= k < a.start ensures !OccursAt(s, AboutMarker, k) {
      ExactlyMatch(s, k, AboutMarker);
    }
  }

  /** With a truthy company name, the objective section is inserted on a
      new line right after the ABOUT ME block (when the section has no `$`,
      which the replacement rules would expand). */
  lemma ObjectivePlaced(m: Markup, s: string, c: Customizations, sp: Span)
    requires Truthy(c.companyName) && AboutSpan(s) == Some(sp)
    requires '$' !in ObjectiveSection(m, c.companyName.value, c.keySkills)
    ensures ObjectivePass(m, s, c)
            == s[..sp.end] + ("\n" + ObjectiveSection(m, c.companyName.value, c.keySkills)) + s[sp.end..]
  {
    var section := ObjectiveSection(m, c.companyName.value, c.keySkills);
    assert '$' !in "\n" + section;
    InsertAfterMatch(s, sp, "\n" + section);
  }

  /** Without a company name, or without an ABOUT ME block, the objective
      pass changes nothing. */
  lemma ObjectiveSkipped(m: Markup, s: string, c: Customizations)
    requires !Truthy(c.companyName) || AboutSpan(s).None?
    ensures ObjectivePass(m, s, c) == s
  {
  }

  /** The objective section names the company and the skills, or the
      default skills. */
  lemma ObjectiveSectionShows(m: Markup, companyName: string, keySkills: Option<string>)
    ensures IsInfix(companyName, ObjectiveSection(m, companyName, keySkills))
    ensures IsInfix(OrElse(keySkills, DefaultSkills), ObjectiveSection(m, companyName, keySkills))
  {
    TwoInfixes(m.objectiveLead, companyName, m.objectiveMiddle, OrElse(keySkills, DefaultSkills), m.objectiveTail);
  }

  /** A highlight term that does not occur leaves the text alone. */
  lemma HighlightAbsent(s: string, term: string)
    requires Search(s, 0, TermPattern(term), true).None?
    ensures EmphasizeAll(s, term) == s
  {
    SearchLeftmost(s, 0, TermPattern(term), true);
    EmphasizeNoMatch(s, 0, TermPattern(term));
  }

  /** Highlighting never shortens the text. */
  lemma {:induction false} HighlightGrows(s: string, terms: seq<string>)
    ensures |HighlightAll(s, terms)| >= |s|
    decreases |terms|
  {
    if terms != [] {
      var before := HighlightAll(s, terms[..|terms| - 1]);
      HighlightGrows(s, terms[..|terms| - 1]);
      EmphasizeGrows(before, terms[|terms| - 1]);
    }
  }

  /** The paragraph an emphasis item works on: its content follows a
      `<p class="mt-2.1">`, in any case, ... */
  lemma ParagraphAfterOpening(s: string, company: string, sp: Span)
    requires ParagraphContent(s, company) == Some(sp)
    ensures sp.start >= |ParagraphOpen| && SameText(s[sp.start - |ParagraphOpen|..sp.start], ParagraphOpen, true)
  {
    var c := First(s, TermPattern(company), true).value;
    var b := Search(s, c.end, Exactly(ParagraphOpen), true).value;
    LiteralFound(s, c.end, ParagraphOpen, true, b);
  }

  /** ... and runs up to the first `</p>` after it. */
  lemma ParagraphUpToClose(s: string, company: string, sp: Span)
    requires ParagraphContent(s, company) == Some(sp)
    ensures MatchAt(s, sp.end, Exactly(ParagraphClose), true).Some?
    ensures forall k :: sp.start <= k < sp.end ==> MatchAt(s, k, Exactly(ParagraphClose), true).None?
  {
    var o := Extend(s, First(s, TermPattern(company), true), Exactly(ParagraphOpen), true).value;
    assert sp.start == o.end;
    SearchLeftmost(s, o.end, Exactly(ParagraphClose), true);
  }

  /** At `at` ends the first match of `open` after the leftmost match of
      `p`, both in any case. */
  predicate FirstThenOpen(s: string, p: Pattern, open: string, at: int) {
    Search(s, 0, p, true).Some?
    && var c := Search(s, 0, p, true).value;
       MatchAt(s, c.start, p, true) == Some(c.end)
       && (forall k :: 0 <= k < c.start ==> MatchAt(s, k, p, true).None?)
       && c.end + |open| <= at <= |s|
       && MatchAt(s, at - |open|, Exactly(open), true) == Some(at)
       && (forall k :: c.end <= k < at - |open| ==> MatchAt(s, k, Exactly(open), true).None?)
  }

  /** The paragraph of an emphasis item is the first `<p class="mt-2.1">`
      after the first mention of the company (both in any case), and its
      content starts right after that opening (`MentionLength` gives the
      mention's length). */
  lemma ParagraphShape(s: string, company: string, sp: Span)
    requires ParagraphContent(s, company) == Some(sp)
    ensures Within(s, sp) && FirstThenOpen(s, TermPattern(company), ParagraphOpen, sp.start)
  {
    var o := ParagraphOpening(s, company, sp);
    var c := OpenAfterFirst(s, TermPattern(company), ParagraphOpen, o);
  }

  /** The content starts where the opening found after the company ends. */
  lemma ParagraphOpening(s: string, company: string, sp: Span) returns (o: Span)
    requires ParagraphContent(s, company) == Some(sp)
    ensures Extend(s, First(s, TermPattern(company), true), Exactly(ParagraphOpen), true) == Some(o)
    ensures sp.start == o.end
  {
    o := Extend(s, First(s, TermPattern(company), true), Exactly(ParagraphOpen), true).value;
  }

  /** A mention of the company spans its length. */
  lemma MentionLength(s: string, company: string)
    ensures First(s, TermPattern(company), true).Some? ==>
              First(s, TermPattern(company), true).value.end == First(s, TermPattern(company), true).value.start + |company|
  {
    if First(s, TermPattern(company), true).Some? {
      var c := First(s, TermPattern(company), true).value;
      SearchLeftmost(s, 0, TermPattern(company), true);
      TermMatch(s, c.start, company, true);
    }
  }

  /** `A[\s\S]*?open`, case-insensitive: the leftmost match of `A`, then the
      first `open` after it. */
  lemma OpenAfterFirst(s: string, p: Pattern, open: string, o: Span) returns (c: Span)
    requires Extend(s, First(s, p, true), Exactly(open), true) == Some(o)
    ensures First(s, p, true) == Some(c) && MatchAt(s, c.start, p, true) == Some(c.end)
    ensures FirstThenOpen(s, p, open, o.end)
  {
    c := First(s, p, true).value;
    var b := Search(s, c.end, Exactly(open), true).value;
    SearchLeftmost(s, 0, p, true);
    SearchLeftmost(s, c.end, Exactly(open), true);
    LiteralFound(s, c.end, open, true, b);
  }

  /** Emphasis is confined to that paragraph: the text before and after its
      content is copied, and nothing is lost; without such a paragraph
      nothing changes. */
  lemma EmphasisConfined(s: string, e: Emphasis)
    ensures !(Truthy(e.company) && e.highlight.Some?) ==> EmphasisPass(s, e) == s
    ensures Truthy(e.company) && e.highlight.Some? && ParagraphContent(s, e.company.value).None? ==> EmphasisPass(s, e) == s
    ensures Truthy(e.company) && e.highlight.Some? && ParagraphContent(s, e.company.value).Some? ==>
              var sp := ParagraphContent(s, e.company.value).value;
              StartsWith(EmphasisPass(s, e), s[..sp.start]) && EndsWith(EmphasisPass(s, e), s[sp.end..])
              && |EmphasisPass(s, e)| >= |s|
  {
    if Truthy(e.company) && e.highlight.Some? && ParagraphContent(s, e.company.value).Some? {
      var sp := ParagraphContent(s, e.company.value).value;
      var h := HighlightAll(s[sp.start..sp.end], e.highlight.value);
      HighlightGrows(s[sp.start..sp.end], e.highlight.value);
      PrefixOfAppend(s[..sp.start], h + s[sp.end..]);
      assert s[..sp.start] + h + s[sp.end..] == s[..sp.start] + (h + s[sp.end..]);
      SuffixOfAppend(s[..sp.start] + h, s[sp.end..]);
    }
  }

  /** `sp` starts at the first `<section` of the document, in any case. */
  predicate OpensAtFirstTag(s: string, sp: Span)
    requires Within(s, sp)
  {
    MatchAt(s, sp.start, Exactly(SectionTag), true).Some?
    && forall k :: 0 <= k < sp.start ==> MatchAt(s, k, Exactly(SectionTag), true).None?
  }

  /** After the opening tag, the first match of `heading` follows, and `sp`
      ends with the first match of `close` after it, which starts at `z`. */
  predicate HeadingThenClose(s: string, heading: Pattern, close: Pattern, z: int, sp: Span)
    requires Within(s, sp)
  {
    0 <= sp.start + |SectionTag| <= z <= sp.end
    && MatchAt(s, z, close, true) == Some(sp.end)
    && Search(s, sp.start + |SectionTag|, heading, true).Some?
    && var h := Search(s, sp.start + |SectionTag|, heading, true).value;
       MatchAt(s, h.start, heading, true) == Some(h.end)
       && (forall k :: sp.start + |SectionTag| <= k < h.start ==> MatchAt(s, k, heading, true).None?)
       && h.end <= z
       && (forall k :: h.end <= k < z ==> MatchAt(s, k, close, true).None?)
  }

  /** The span removed for a name opens at the first `<section` of the
      document, holds the first `# name` heading after it, and ends with
      the first `</section>` after the heading. */
  lemma RemovalSpanShape(s: string, name: string, sp: Span)
    requires RemovalSpan(s, name) == Some(sp)
    ensures Within(s, sp) && OpensAtFirstTag(s, sp)
    ensures HeadingThenClose(s, Heading(name), Exactly(SectionClose), sp.end - |SectionClose|, sp)
    ensures SameText(s[sp.end - |SectionClose|..sp.end], SectionClose, true)
  {
    var z := SectionShape(s, Heading(name), Exactly(SectionClose), sp);
    ClosingLiteral(s, Heading(name), z, SectionClose, sp);
  }

  /** The REFERENCES block that is replaced opens at the first `<section`
      of the document, holds the first `# REFERENCES` after it (in any
      case), and ends with the first closing triple
      `</section>\s*</div>\s*</section>` after that. */
  lemma ReferencesSpanShape(s: string, sp: Span)
    requires ReferencesSpan(s) == Some(sp)
    ensures Within(s, sp) && OpensAtFirstTag(s, sp)
    ensures exists z :: HeadingThenClose(s, Exactly(ReferencesMarker), SectionEnd(), z, sp)
  {
    var z := SectionShape(s, Exactly(ReferencesMarker), SectionEnd(), sp);
  }

  /** A span found by `<section[\s\S]*?H[\s\S]*?C`, case-insensitive. */
  lemma SectionShape(s: string, heading: Pattern, close: Pattern, sp: Span) returns (z: nat)
    requires Extend(s, Extend(s, First(s, Exactly(SectionTag), true), heading, true), close, true) == Some(sp)
    ensures Within(s, sp) && OpensAtFirstTag(s, sp) && HeadingThenClose(s, heading, close, z, sp)
  {
    var a, b, c := ChainParts(s, Exactly(SectionTag), heading, close, true, sp);
    SearchLeftmost(s, 0, Exactly(SectionTag), true);
    LiteralFound(s, 0, SectionTag, true, a);
    ChainTail(s, heading, close, a, b, c, sp);
    z := c.start;
  }

  /** A literal closing match ends the span with that literal. */
  lemma ClosingLiteral(s: string, heading: Pattern, z: int, t: string, sp: Span)
    requires Within(s, sp) && HeadingThenClose(s, heading, Exactly(t), z, sp)
    ensures HeadingThenClose(s, heading, Exactly(t), sp.end - |t|, sp)
    ensures SameText(s[sp.end - |t|..sp.end], t, true)
  {
    LiteralMatch(s, z, t, true);
  }

  /** `HeadingThenClose` from the three matches the span is made of. */
  lemma ChainTail(s: string, heading: Pattern, close: Pattern, a: Span, b: Span, z: Span, sp: Span)
    requires a.start <= a.end == a.start + |SectionTag| <= |s|
    requires Search(s, a.end, heading, true) == Some(b)
    requires Search(s, b.end, close, true) == Some(z)
    requires sp == Span(a.start, z.end)
    ensures Within(s, sp) && HeadingThenClose(s, heading, close, z.start, sp)
  {
    SearchLeftmost(s, b.end, close, true);
    FirstBefore(s, heading, close, sp.start + |SectionTag|, b, z.start);
  }

  /** The first match of `heading` from `from` on, followed by no match of
      `close` up to `z`. */
  lemma FirstBefore(s: string, heading: Pattern, close: Pattern, from: nat, b: Span, z: nat)
    requires from <= |s| && Search(s, from, heading, true) == Some(b) && b.end <= z <= |s|
    requires forall k :: b.end <= k < z ==> MatchAt(s, k, close, true).None?
    ensures var h := Search(s, from, heading, true).value;
            MatchAt(s, h.start, heading, true) == Some(h.end)
            && (forall k :: from <= k < h.start ==> MatchAt(s, k, heading, true).None?)
            && h.end <= z
            && (forall k :: h.end <= k < z ==> MatchAt(s, k, close, true).None?)
  {
    SearchLeftmost(s, from, heading, true);
  }

  /** The three matches behind a span found by `A[\s\S]*?B[\s\S]*?C`. */
  lemma ChainParts(s: string, p: Pattern, q: Pattern, t: Pattern, ci: bool, sp: Span) returns (a: Span, b: Span, z: Span)
    requires Extend(s, Extend(s, First(s, p, ci), q, ci), t, ci) == Some(sp)
    ensures First(s, p, ci) == Some(a) && Search(s, a.end, q, ci) == Some(b) && Search(s, b.end, t, ci) == Some(z)
    ensures sp == Span(a.start, z.end)
  {
    a := First(s, p, ci).value;
    b := Search(s, a.end, q, ci).value;
    z := Search(s, b.end, t, ci).value;
  }

  /** Removing a section deletes exactly the first matching section and
      keeps everything around it, later matches included; with no match
      nothing changes. */
  lemma RemoveFirstOnly(s: string, name: string)
    ensures RemovalSpan(s, name).None? ==> RemovePass(s, name) == s
    ensures RemovalSpan(s, name).Some? ==>
              var sp := RemovalSpan(s, name).value;
              |RemovePass(s, name)| == |s| - (sp.end - sp.start)
              && StartsWith(RemovePass(s, name), s[..sp.start]) && EndsWith(RemovePass(s, name), s[sp.end..])
  {
    if RemovalSpan(s, name).Some? {
      var sp := RemovalSpan(s, name).value;
      PrefixOfAppend(s[..sp.start], s[sp.end..]);
      SuffixOfAppend(s[..sp.start], s[sp.end..]);
    }
  }

  /** The generated references section replaces the page's REFERENCES
      block when there is one (when the section has no `$`, which the
      replacement rules would expand). */
  lemma ReferencesReplaced(m: Markup, s: string, r: References, sp: Span)
    requires Serialisable(r) && '$' !in SectionText(m, r)
    requires ReferencesSpan(s) == Some(sp)
    ensures ReferencesPass(m, s, r) == s[..sp.start] + SectionText(m, r) + s[sp.end..]
  {
    ReplacePlain(s, sp, SectionText(m, r));
  }

  /** Without a REFERENCES block, the section goes before the fork link,
      followed by a blank line and the link's indentation. */
  lemma ReferencesBeforeFork(m: Markup, s: string, r: References, f: Span)
    requires Serialisable(r) && '$' !in SectionText(m, r)
    requires ReferencesSpan(s).None? && First(s, ForkLink(), true) == Some(f)
    ensures ReferencesPass(m, s, r) == s[..f.start] + (SectionText(m, r) + ForkIndent) + s[f.start..]
  {
    assert '$' !in ForkIndent;
    InsertBeforeMatch(s, f, SectionText(m, r) + ForkIndent);
  }

  /** With neither anchor the references are dropped. */
  lemma ReferencesDropped(m: Markup, s: string, r: References)
    requires Serialisable(r)
    requires ReferencesSpan(s).None? && First(s, ForkLink(), true).None?
    ensures ReferencesPass(m, s, r) == s
  {
  }
}

=== FILE: live_references.dfy ===
/**
 * The string-building half of the in-page references path
 * (`applyCustomizationsToLivePage`): the HTML that replaces the page's
 * REFERENCES section. It follows other rules than the static serialiser:
 * it renders the `internal` list under a "References at <company>" header,
 * renders every category that is present (even when empty), has no academic
 * category and no contact paragraph, and opens every portfolio link in a
 * new tab.
 */
module LiveReferences {
  import opened Wrappers
  import opened Text
  import opened Markup
  import opened References

  /** `${x ? `<open>${x}</span>` : ""}`. */
  function Spanned(o: Option<string>, open: string): (r: string)
    ensures Truthy(o) ==> r == open + o.value + "</span>"
    ensures !Truthy(o) ==> r == ""
  {
    if Truthy(o) then open + o.value + "</span>" else ""
  }

  function LinkedinSpan(o: Option<string>): string {
    if Truthy(o) then "<span>🔗 <a href=\"" + o.value + "\" class=\"main-link\">" + o.value + "</a></span>" else ""
  }

  /** The card of a "person" entry. The internal and the professional list
      use two copies of the template that differ in layout whitespace and
      in the class of the note. */
  function PersonCardParts(m: Markup, e: Reference, internal: bool): seq<string> {
    [if internal then m.liveInternalLead else m.liveProfessionalLead,
     Interpolate(e.name), m.liveNameBreak,
     Spanned(e.title, "<span class=\"text-position font-bold\">| "), m.liveSpanBreak,
     Spanned(e.company, "<span class=\"text-position font-bold\">at "), m.liveSpanClose,
     Spanned(e.note, if internal then "<span class=\"text-sm text-gray-600 mb-2\">" else "<span class=\"text-sm text-gray-600 mt-1\">"),
     m.liveNoteClose,
     Spanned(e.email, "<span class=\"text-terminal-black\">📧 "), m.liveLineClose,
     Spanned(e.phone, "<span class=\"text-terminal-black\">📞 "), m.liveLineClose,
     LinkedinSpan(e.linkedin),
     if internal then m.liveInternalTail else m.liveProfessionalTail]
  }

  function PersonCard(m: Markup, e: Reference, internal: bool): string {
    Concat(PersonCardParts(m, e, internal))
  }

  /** An "available" entry: its message, or the list's default text. */
  function AvailableLine(m: Markup, e: Reference, default: string): string {
    m.liveAvailableLead + OrElse(e.message, default) + "</p>"
  }

  function InternalEntry(m: Markup, e: Reference): string {
    if e.kind == "person" then PersonCard(m, e, true)
    else if e.kind == "available" then AvailableLine(m, e, m.liveInternalAvailableDefault)
    else ""
  }

  function ProfessionalLiveEntry(m: Markup, e: Reference): string {
    if e.kind == "person" then PersonCard(m, e, false)
    else if e.kind == "available" then AvailableLine(m, e, m.liveProfessionalAvailableDefault)
    else ""
  }

  /** The head of a portfolio link: a new-tab anchor whatever the url, then
      the name, with a folder mark for "github" entries. */
  function LiveLinkHead(m: Markup, e: Reference): string {
    NewTabAnchor(Interpolate(e.url)) + m.liveLinkNameBreak + (if e.kind == "github" then "📂 " else "") + Interpolate(e.name)
  }

  function LiveLinkParts(m: Markup, e: Reference): seq<string> {
    [m.liveLinkLead, LiveLinkHead(m, e), m.liveLinkTail,
     Field(e.description, " - "), m.liveLinkBreak, StarsNote(e), m.liveLinkEnd]
  }

  function PortfolioLiveEntry(m: Markup, e: Reference): string {
    if e.kind == "github" || e.kind == "page" then Concat(LiveLinkParts(m, e)) else ""
  }

  function InternalHeader(m: Markup, companyName: Option<string>): string {
    m.liveInternalHeaderLead + Interpolate(companyName) + m.liveHeaderEnd
  }

  /** Each category is rendered whenever its list is present. */
  function InternalLivePart(m: Markup, r: References, companyName: Option<string>): string {
    if r.internal.Some? then
      m.liveCategoryOpen + InternalHeader(m, companyName) + Join(r.internal.value, e => InternalEntry(m, e)) + "</section>"
    else ""
  }

  function ProfessionalLivePart(m: Markup, r: References): string {
    if r.professional.Some? then
      m.liveCategoryOpen + m.liveProfessionalHeader + Join(r.professional.value, e => ProfessionalLiveEntry(m, e)) + "</section>"
    else ""
  }

  function PortfolioLivePart(m: Markup, r: References): string {
    if r.portfolio.Some? then
      m.liveCategoryOpen + m.livePortfolioHeader + Join(r.portfolio.value, e => PortfolioLiveEntry(m, e)) + "</section>"
    else ""
  }

  /** The text that replaces the page's REFERENCES section. */
  function LiveText(m: Markup, r: References, companyName: Option<string>): string {
    m.liveOpen + InternalLivePart(m, r, companyName) + ProfessionalLivePart(m, r) + PortfolioLivePart(m, r) + "</div>"
  }

  /** The loop over the internal list, with its section and header. */
  method BuildInternal(m: Markup, refs: seq<Reference>, companyName: Option<string>) returns (html: string)
    ensures html == m.liveCategoryOpen + InternalHeader(m, companyName) + Join(refs, e => InternalEntry(m, e)) + "</section>"
  {
    html := m.liveCategoryOpen + InternalHeader(m, companyName);
    ghost var start := html;
    for i := 0 to |refs|
      invariant html == start + Join(refs[..i], e => InternalEntry(m, e))
    {
      JoinStepAfter(start, refs, i, e => InternalEntry(m, e));
      html := html + InternalEntry(m, refs[i]);
    }
    assert refs[..|refs|] == refs;
    html := html + "</section>";
  }

  /** The loop over the professional list. */
  method BuildProfessional(m: Markup, refs: seq<Reference>) returns (html: string)
    ensures html == m.liveCategoryOpen + m.liveProfessionalHeader + Join(refs, e => ProfessionalLiveEntry(m, e)) + "</section>"
  {
    html := m.liveCategoryOpen + m.liveProfessionalHeader;
    ghost var start := html;
    for i := 0 to |refs|
      invariant html == start + Join(refs[..i], e => ProfessionalLiveEntry(m, e))
    {
      JoinStepAfter(start, refs, i, e => ProfessionalLiveEntry(m, e));
      html := html + ProfessionalLiveEntry(m, refs[i]);
    }
    assert refs[..|refs|] == refs;
    html := html + "</section>";
  }

  /** The loop over the portfolio list. */
  method BuildPortfolio(m: Markup, refs: seq<Reference>) returns (html: string)
    ensures html == m.liveCategoryOpen + m.livePortfolioHeader + Join(refs, e => PortfolioLiveEntry(m, e)) + "</section>"
  {
    html := m.liveCategoryOpen + m.livePortfolioHeader;
    ghost var start := html;
    for i := 0 to |refs|
      invariant html == start + Join(refs[..i], e => PortfolioLiveEntry(m, e))
    {
      JoinStepAfter(start, refs, i, e => PortfolioLiveEntry(m, e));
      html := html + PortfolioLiveEntry(m, refs[i]);
    }
    assert refs[..|refs|] == refs;
    html := html + "</section>";
  }

  /** The builder: one accumulator, a block per present category. */
  method BuildLiveReferences(m: Markup, r: References, companyName: Option<string>) returns (html: string)
    ensures html == LiveText(m, r, companyName)
  {
    html := m.liveOpen;
    if r.internal.Some? {
      var block := BuildInternal(m, r.internal.value, companyName);
      html := html + block;
    }
    assert html == m.liveOpen + InternalLivePart(m, r, companyName);
    if r.professional.Some? {
      var block := BuildProfessional(m, r.professional.value);
      html := html + block;
    }
    assert html == m.liveOpen + InternalLivePart(m, r, companyName) + ProfessionalLivePart(m, r);
    if r.portfolio.Some? {
      var block := BuildPortfolio(m, r.portfolio.value);
      html := html + block;
    }
    assert html == m.liveOpen + InternalLivePart(m, r, companyName) + ProfessionalLivePart(m, r) + PortfolioLivePart(m, r);
    html := html + "</div>";
  }

  /** A person card shows the name and each truthy field of the person in
      its span. */
  lemma LiveCardShows(m: Markup, e: Reference, internal: bool)
    ensures IsInfix(Interpolate(e.name), PersonCard(m, e, internal))
    ensures Truthy(e.title) ==> IsInfix("<span class=\"text-position font-bold\">| " + e.title.value + "</span>", PersonCard(m, e, internal))
    ensures Truthy(e.company) ==> IsInfix("<span class=\"text-position font-bold\">at " + e.company.value + "</span>", PersonCard(m, e, internal))
    ensures Truthy(e.linkedin) ==> IsInfix(LinkedinSpan(e.linkedin), PersonCard(m, e, internal))
  {
    var parts := PersonCardParts(m, e, internal);
    ConcatHas(parts, 1); ConcatHas(parts, 3); ConcatHas(parts, 5); ConcatHas(parts, 13);
  }

  /** The note and the contact lines of a person card; the note's spacing
      class depends on the list. */
  lemma LiveCardContacts(m: Markup, e: Reference, internal: bool)
    ensures Truthy(e.note) && internal ==> IsInfix("<span class=\"text-sm text-gray-600 mb-2\">" + e.note.value + "</span>", PersonCard(m, e, internal))
    ensures Truthy(e.note) && !internal ==> IsInfix("<span class=\"text-sm text-gray-600 mt-1\">" + e.note.value + "</span>", PersonCard(m, e, internal))
    ensures Truthy(e.email) ==> IsInfix("<span class=\"text-terminal-black\">📧 " + e.email.value + "</span>", PersonCard(m, e, internal))
    ensures Truthy(e.phone) ==> IsInfix("<span class=\"text-terminal-black\">📞 " + e.phone.value + "</span>", PersonCard(m, e, internal))
  {
    var parts := PersonCardParts(m, e, internal);
    ConcatHas(parts, 7); ConcatHas(parts, 9); ConcatHas(parts, 11);
  }

  /** A portfolio link always opens a new tab, "page" entries included,
      and shows the description and a truthy star count of either kind. */
  lemma LiveLinkShows(m: Markup, e: Reference)
    requires e.kind == "page" || e.kind == "github"
    ensures StartsWith(LiveLinkHead(m, e), NewTabAnchor(Interpolate(e.url)))
    ensures IsInfix(LiveLinkHead(m, e), PortfolioLiveEntry(m, e))
    ensures Truthy(e.description) ==> IsInfix(" - " + e.description.value, PortfolioLiveEntry(m, e))
    ensures HasStars(e) ==> IsInfix(" (⭐ " + Decimal(e.stars.value) + " stars)", PortfolioLiveEntry(m, e))
  {
    var anchor := NewTabAnchor(Interpolate(e.url));
    var rest := m.liveLinkNameBreak + (if e.kind == "github" then "📂 " else "") + Interpolate(e.name);
    PrefixOfAppend(anchor, rest);
    assert LiveLinkHead(m, e) == anchor + rest;
    var parts := LiveLinkParts(m, e);
    ConcatHas(parts, 1); ConcatHas(parts, 3); ConcatHas(parts, 5);
  }

  /** The replacement opens with the section heading and ends by closing its
      container. */
  lemma LiveFrame(m: Markup, r: References, companyName: Option<string>)
    ensures StartsWith(LiveText(m, r, companyName), m.liveOpen)
    ensures EndsWith(LiveText(m, r, companyName), "</div>")
  {
    var s1 := m.liveOpen + InternalLivePart(m, r, companyName);
    var s2 := s1 + ProfessionalLivePart(m, r);
    var s3 := s2 + PortfolioLivePart(m, r);
    PrefixOfAppend(m.liveOpen, InternalLivePart(m, r, companyName));
    PrefixExtend(s1, m.liveOpen, ProfessionalLivePart(m, r));
    PrefixExtend(s2, m.liveOpen, PortfolioLivePart(m, r));
    PrefixExtend(s3, m.liveOpen, "</div>");
    SuffixOfAppend(s3, "</div>");
  }

  /** The academic list and the contact flag play no part in the in-page
      replacement. */
  lemma LiveIgnores(m: Markup, r: References, companyName: Option<string>,
                    academic: Option<seq<Reference>>, hideContactSection: bool)
    ensures LiveText(m, r.(academic := academic, hideContactSection := hideContactSection), companyName)
         == LiveText(m, r, companyName)
  {
  }

  /** A list that is present but empty still gets its block: the section,
      its header and nothing else. */
  lemma PresentEmptyRendered(m: Markup, r: References, companyName: Option<string>)
    ensures r.internal == Some([]) ==>
              InternalLivePart(m, r, companyName) == m.liveCategoryOpen + InternalHeader(m, companyName) + "</section>"
    ensures r.professional == Some([]) ==>
              ProfessionalLivePart(m, r) == m.liveCategoryOpen + m.liveProfessionalHeader + "</section>"
    ensures r.portfolio == Some([]) ==>
              PortfolioLivePart(m, r) == m.liveCategoryOpen + m.livePortfolioHeader + "</section>"
  {
  }

  /** An empty professional list is where the two paths part: the static
      serialiser leaves the category out, the in-page builder renders an
      empty block. */
  lemma EmptyListDiverges(m: Markup, r: References)
    requires r.professional == Some([])
    ensures ProfessionalPart(m, r) == ""
    ensures ProfessionalLivePart(m, r) != ""
    ensures EndsWith(ProfessionalLivePart(m, r), "</section>")
  {
    SuffixOfAppend(m.liveCategoryOpen + m.liveProfessionalHeader + Join(r.professional.value, e => ProfessionalLiveEntry(m, e)), "</section>");
  }

  /** The blocks come right after the heading in the fixed order internal,
      professional, portfolio. */
  lemma LiveCategoryOrder(m: Markup, r: References, companyName: Option<string>)
    ensures OccursAt(LiveText(m, r, companyName), InternalLivePart(m, r, companyName), |m.liveOpen|)
    ensures OccursAt(LiveText(m, r, companyName), ProfessionalLivePart(m, r),
                     |m.liveOpen| + |InternalLivePart(m, r, companyName)|)
    ensures OccursAt(LiveText(m, r, companyName), PortfolioLivePart(m, r),
                     |m.liveOpen| + |InternalLivePart(m, r, companyName)| + |ProfessionalLivePart(m, r)|)
  {
    PiecesAt(m.liveOpen, InternalLivePart(m, r, companyName), ProfessionalLivePart(m, r), PortfolioLivePart(m, r), "</div>");
  }

  /** The internal block shows the header naming the company and every
      entry of the list. */
  lemma InternalListed(m: Markup, r: References, companyName: Option<string>, e: Reference)
    requires r.internal.Some?
    ensures IsInfix(InternalHeader(m, companyName), LiveText(m, r, companyName))
    ensures e in r.internal.value ==> IsInfix(InternalEntry(m, e), LiveText(m, r, companyName))
  {
    LiveCategoryOrder(m, r, companyName);
    var text := LiveText(m, r, companyName);
    var xs := r.internal.value;
    var part := InternalLivePart(m, r, companyName);
    var entries := Join(xs, x => InternalEntry(m, x));
    InfixOfFour(m.liveCategoryOpen, InternalHeader(m, companyName), entries, "</section>");
    InfixTransitive(InternalHeader(m, companyName), part, text);
    if e in xs {
      JoinContains(xs, e, x => InternalEntry(m, x));
      InfixInThird(InternalEntry(m, e), m.liveCategoryOpen, InternalHeader(m, companyName), entries, "</section>");
      InfixTransitive(InternalEntry(m, e), part, text);
    }
  }

  /** Every entry of a present professional list appears in the replacement. */
  lemma ProfessionalLiveListed(m: Markup, r: References, companyName: Option<string>, e: Reference)
    requires r.professional.Some? && e in r.professional.value
    ensures IsInfix(ProfessionalLiveEntry(m, e), LiveText(m, r, companyName))
  {
    LiveCategoryOrder(m, r, companyName);
    var xs := r.professional.value;
    JoinContains(xs, e, x => ProfessionalLiveEntry(m, x));
    InfixWiden(ProfessionalLiveEntry(m, e), Join(xs, x => ProfessionalLiveEntry(m, x)), m.liveCategoryOpen + m.liveProfessionalHeader, "</section>");
    InfixTransitive(ProfessionalLiveEntry(m, e), ProfessionalLivePart(m, r), LiveText(m, r, companyName));
  }

  /** Every entry of a present portfolio list appears in the replacement. */
  lemma PortfolioLiveListed(m: Markup, r: References, companyName: Option<string>, e: Reference)
    requires r.portfolio.Some? && e in r.portfolio.value
    ensures IsInfix(PortfolioLiveEntry(m, e), LiveText(m, r, companyName))
  {
    LiveCategoryOrder(m, r, companyName);
    var xs := r.portfolio.value;
    JoinContains(xs, e, x => PortfolioLiveEntry(m, x));
    InfixWiden(PortfolioLiveEntry(m, e), Join(xs, x => PortfolioLiveEntry(m, x)), m.liveCategoryOpen + m.livePortfolioHeader, "</section>");
    InfixTransitive(PortfolioLiveEntry(m, e), PortfolioLivePart(m, r), LiveText(m, r, companyName));
  }

  /** Every portfolio link of the replacement opens in a new tab. */
  lemma LiveLinkListed(m: Markup, r: References, companyName: Option<string>, e: Reference)
    requires r.portfolio.Some? && e in r.portfolio.value
    requires e.kind == "page" || e.kind == "github"
    ensures IsInfix(LiveLinkHead(m, e), LiveText(m, r, companyName))
    ensures StartsWith(LiveLinkHead(m, e), NewTabAnchor(Interpolate(e.url)))
  {
    PortfolioLiveListed(m, r, companyName, e);
    LiveLinkShows(m, e);
    InfixTransitive(LiveLinkHead(m, e), PortfolioLiveEntry(m, e), LiveText(m, r, companyName));
  }

  /** Every person of the internal or professional list is named in the
      replacement. */
  lemma LivePersonListed(m: Markup, r: References, companyName: Option<string>, e: Reference)
    requires e.kind == "person"
    requires (r.internal.Some? && e in r.internal.value) || (r.professional.Some? && e in r.professional.value)
    ensures IsInfix(Interpolate(e.name), LiveText(m, r, companyName))
  {
    if r.internal.Some? && e in r.internal.value {
      InternalListed(m, r, companyName, e);
      LiveCardShows(m, e, true);
      InfixTransitive(Interpolate(e.name), InternalEntry(m, e), LiveText(m, r, companyName));
    } else {
      ProfessionalLiveListed(m, r, companyName, e);
      LiveCardShows(m, e, false);
      InfixTransitive(Interpolate(e.name), ProfessionalLiveEntry(m, e), LiveText(m, r, companyName));
    }
  }
}

=== FILE: markup.dfy ===
/**
 * The fixed texts of the generator's HTML templates: headings, wrappers and
 * the layout whitespace around the interpolated fields, character for
 * character. Every builder takes them as a parameter `m`, so what is proved
 * about a builder holds whatever these texts are; `Html` holds the
 * generator's own.
 */
module Markup {
  datatype Markup = Markup(
    // the static references serialiser, scripts/generate-resume-pdf.js:217-427
    sectionOpen: string,
    professionalOpen: string,
    portfolioOpen: string,
    academicOpen: string,
    categoryClose: string,
    contactBlock: string,
    sectionClose: string,
    cardLead: string,
    fieldBreak: string,
    cardParagraphEnd: string,
    cardEnd: string,
    availableLead: string,
    availableEnd: string,
    availableDefault: string,
    linkLead: string,
    nameBreak: string,
    linkTail: string,
    linkEnd: string,
    // the in-page references builder, scripts/generate-resume-pdf.js:667-829
    liveInternalLead: string,
    liveProfessionalLead: string,
    liveNameBreak: string,
    liveSpanBreak: string,
    liveSpanClose: string,
    liveNoteClose: string,
    liveLineClose: string,
    liveInternalTail: string,
    liveProfessionalTail: string,
    liveLinkLead: string,
    liveLinkNameBreak: string,
    liveLinkTail: string,
    liveLinkBreak: string,
    liveLinkEnd: string,
    liveOpen: string,
    liveCategoryOpen: string,
    liveProfessionalHeader: string,
    livePortfolioHeader: string,
    liveInternalHeaderLead: string,
    liveHeaderEnd: string,
    liveAvailableLead: string,
    liveInternalAvailableDefault: string,
    liveProfessionalAvailableDefault: string,
    // the objective texts, scripts/generate-resume-pdf.js:106-123 and 591-647
    objectiveLead: string,
    objectiveMiddle: string,
    objectiveTail: string,
    defaultObjective: string,
    whyLead: string,
    whyMiddle: string,
    whyTail: string)

  /** The default objective of the in-page path, between its three
      placeholders. */
  const ObjectiveOpening := "\n            " + "I'm excited about the "
  const ObjectiveRole := " role at "
  const ObjectiveBring := ". I'd love to bring " + "my experience with \n" + "            "
  const ObjectiveClosing := " to help tackle challenges and " + "contribute to the team's " + "success.\n          "

  /** A placeholder as the default objective writes it, `{{key}}`. */
  function Token(key: string): string {
    "{{" + key + "}}"
  }

  const DefaultObjective :=
    ObjectiveOpening + Token("jobTitle") + ObjectiveRole + Token("companyName") + ObjectiveBring + Token("keySkills") + ObjectiveClosing

  const Html: Markup := Markup(
    sectionOpen :=
      "\n"
      + "        <section class=\"mt-8 first:mt-0\">\n"
      + "          <div class=\"break-inside-avoid\">\n"
      + "            <h2\n"
      + "              class=\"mb-4 font-bold tracking-widest "
      + "text-sm2 text-terminal-yellow italic print:font-normal\"\n"
      + "            >\n"
      + "              # REFERENCES\n"
      + "            </h2>\n"
      + "    ",
    professionalOpen :=
      "\n"
      + "            <section class=\"mb-4.5 break-inside-avoid\">\n"
      + "              <header>\n"
      + "                <h3\n"
      + "                  class=\"text-lg font-bold "
      + "text-terminal-cyan leading-snugish\"\n"
      + "                >\n"
      + "                  Professional References\n"
      + "                </h3>\n"
      + "              </header>\n"
      + "    ",
    portfolioOpen :=
      "\n"
      + "            <section class=\"mb-4.5 break-inside-avoid\">\n"
      + "              <header>\n"
      + "                <h3\n"
      + "                  class=\"text-lg font-bold "
      + "text-terminal-cyan leading-snugish\"\n"
      + "                >\n"
      + "                  Portfolio & Code Samples\n"
      + "                </h3>\n"
      + "              </header>\n"
      + "    ",
    academicOpen :=
      "\n"
      + "            <section class=\"mb-4.5 break-inside-avoid\">\n"
      + "              <header>\n"
      + "                <h3\n"
      + "                  class=\"text-lg font-bold "
      + "text-terminal-cyan leading-snugish\"\n"
      + "                >\n"
      + "                  Academic References\n"
      + "                </h3>\n"
      + "              </header>\n"
      + "    ",
    categoryClose := "\n            </section>\n    ",
    contactBlock :=
      "\n"
      + "            <section class=\"mb-4.5 break-inside-avoid\">\n"
      + "              <header>\n"
      + "                <h3\n"
      + "                  class=\"text-lg font-bold "
      + "text-terminal-cyan leading-snugish\"\n"
      + "                >\n"
      + "                  Contact for References\n"
      + "                </h3>\n"
      + "              </header>\n"
      + "              <p class=\"leading-normal text-md "
      + "text-terminal-white mt-2.1\">\n"
      + "                Please feel free to reach out via email or "
      + "LinkedIn to request\n"
      + "                additional references tailored to the role "
      + "and responsibilities\n"
      + "                you're considering me for.\n"
      + "              </p>\n"
      + "            </section>\n"
      + "      ",
    sectionClose := "\n          </div>\n        </section>\n    ",
    cardLead :=
      "\n"
      + "              <div class=\"mt-2.1 mb-3\">\n"
      + "                <p class=\"leading-normal text-md "
      + "text-terminal-white\">\n"
      + "                  ",
    fieldBreak := "\n                  ",
    cardParagraphEnd := "\n                </p>\n                ",
    cardEnd := "\n              </div>\n        ",
    availableLead :=
      "\n"
      + "              <p class=\"leading-normal text-md "
      + "text-terminal-white mt-2.1\">\n"
      + "                ",
    availableEnd := "\n              </p>\n        ",
    availableDefault :=
      "Professional references are available upon request. I can "
      + "provide contacts from current and previous employers, "
      + "colleagues, and project stakeholders who can speak to my "
      + "technical abilities, work ethic, and collaborative skills.",
    linkLead :=
      "\n"
      + "              <div class=\"mt-2.1\">\n"
      + "                <p class=\"leading-normal text-md main-link\">\n"
      + "                  ",
    nameBreak := "\n                    ",
    linkTail :=
      "\n"
      + "                    <span\n"
      + "                      class=\"inline-block "
      + "text-terminal-green print:text-black font-normal "
      + "group-hover:text-terminal-white transition duration-100 ease-in\"\n"
      + "                    >\n"
      + "                      ↗\n"
      + "                    </span>\n"
      + "                  </a>\n"
      + "                  ",
    linkEnd := "\n                </p>\n              </div>\n        ",
    liveInternalLead :=
      "\n"
      + "                    <div class=\"mt-2.1 mb-3\">\n"
      + "                      <p class=\"leading-normal text-md "
      + "text-gray-650\">\n"
      + "                        ",
    liveProfessionalLead :=
      "\n"
      + "                    <div class=\"mt-2.1 mb-3\">\n"
      + "                     <p class=\"leading-normal text-md text-gray-650\">\n"
      + "                        ",
    liveNameBreak := "\n                        <span>\n                          ",
    liveSpanBreak := "\n                          ",
    liveSpanClose :=
      "\n"
      + "                         </span>\n"
      + "                        </p>\n"
      + "                        <p>\n"
      + "                          ",
    liveNoteClose :=
      "\n"
      + "                        </p>\n"
      + "                        <p>\n"
      + "                        ",
    liveLineClose :=
      "\n"
      + "                      </p>\n"
      + "                      <p>\n"
      + "                        ",
    liveInternalTail :=
      "\n"
      + "                      </p>\n"
      + "                   \n"
      + "                    </div>\n"
      + "                  ",
    liveProfessionalTail :=
      "\n"
      + "                      </p>\n"
      + "                   \n"
      + "\n"
      + "                    </div>\n"
      + "                  ",
    liveLinkLead :=
      "\n"
      + "                    <div class=\"mt-2.1\">\n"
      + "                      <p class=\"leading-normal text-md main-link\">\n"
      + "                        ",
    liveLinkNameBreak := "\n                          ",
    liveLinkTail :=
      "\n"
      + "                          <span class=\"inline-block "
      + "text-terminal-green print:text-black font-normal\">↗</span>\n"
      + "                        </a>\n"
      + "                        ",
    liveLinkBreak := "\n                        ",
    liveLinkEnd :=
      "\n"
      + "                      </p>\n"
      + "                    </div>\n"
      + "                  ",
    liveOpen :=
      "<div class=\"break-inside-avoid\"><h2 class=\"mb-4 font-bold "
      + "tracking-widest text-sm2 text-terminal-yellow italic "
      + "print:font-normal\"># REFERENCES</h2>",
    liveCategoryOpen := "<section class=\"mb-4.5 break-inside-avoid\">",
    liveProfessionalHeader :=
      "<header><h3 class=\"text-lg font-bold text-terminal-cyan "
      + "leading-snugish\">Professional References</h3></header>",
    livePortfolioHeader :=
      "<header><h3 class=\"text-lg font-bold text-terminal-cyan "
      + "leading-snugish\">Portfolio & Code Samples</h3></header>",
    liveInternalHeaderLead :=
      "<header><h3 class=\"text-lg font-bold text-terminal-cyan "
      + "leading-snugish\">References at ",
    liveHeaderEnd := "</h3></header>",
    liveAvailableLead :=
      "<p class=\"leading-normal text-md text-terminal-white mt-2.1\">",
    liveInternalAvailableDefault := "Additional internal contacts are available upon request.",
    liveProfessionalAvailableDefault := "Professional references are available upon request.",
    objectiveLead :=
      "\n"
      + "        <section class=\"mb-4.5 break-inside-avoid\">\n"
      + "          <header>\n"
      + "            <h3 class=\"text-lg font-bold text-terminal-cyan "
      + "leading-snugish\">\n"
      + "              Objective\n"
      + "            </h3>\n"
      + "          </header>\n"
      + "          <p class=\"mt-2.1\">\n"
      + "            Seeking a Software Engineer position at ",
    objectiveMiddle := " where I can leverage my expertise in \n            ",
    objectiveTail :=
      " \n"
      + "            to contribute to innovative projects and drive "
      + "technical excellence.\n"
      + "          </p>\n"
      + "        </section>\n"
      + "      ",
    defaultObjective := DefaultObjective,
    whyLead :=
      "\n"
      + "            <section class=\"mb-4.5 break-inside-avoid\">\n"
      + "              <header>\n"
      + "                <h3 class=\"text-lg font-bold "
      + "text-terminal-cyan leading-snugish\">\n"
      + "                  Why I'm applying to ",
    whyMiddle :=
      "\n"
      + "                </h3>\n"
      + "              </header>\n"
      + "              <p class=\"mt-2.1\">\n"
      + "                ",
    whyTail := "\n              </p>\n            </section>\n          ")
}

=== FILE: objective.dfy ===
/**
 * The objective paragraph the in-page path inserts after ABOUT ME: the
 * objective text (the config's own or a default), its `{{ key }}`
 * placeholders filled in, trimmed, inside the "Why I'm applying" section.
 * A placeholder is the regular expression `\{\{\s*key\s*\}\}` with the `g`
 * flag; the key is spliced in as it is, so the `.` of `internal.0.name`
 * is a wildcard.
 */
module Objective {
  import opened Wrappers
  import opened Text
  import opened Pattern
  import opened Substitution
  import opened Rewrite
  import opened Markup
  import opened References
  import opened Customizations

  const DefaultJobTitle := "Software Engineer"
  const DefaultSkills := "cloud infrastructure, full-stack development, and DevOps"

  /** `createRegexFromTemplate(key)`. */
  function TokenPattern(key: string): Pattern {
    [Lit("{{"), Spaces] + TermPattern(key) + [Spaces, Lit("}}")]
  }

  /** `text.replace(createRegexFromTemplate(key), value)`: every placeholder
      of `key`, left to right; `value` is a replacement string, so a `$` in
      it is expanded. */
  function ReplaceToken(text: string, key: string, value: string): string {
    ReplaceAll(text, TokenPattern(key), false, value, false)
  }

  /** The three headline placeholders, in the order the source fills them. */
  function HeadlineText(text: string, jobTitle: Option<string>, companyName: string, keySkills: Option<string>): string {
    var t1 := ReplaceToken(text, "jobTitle", OrElse(jobTitle, DefaultJobTitle));
    var t2 := ReplaceToken(t1, "companyName", companyName);
    ReplaceToken(t2, "keySkills", OrElse(keySkills, DefaultSkills))
  }

  /** The key of one field of the `i`-th internal reference. */
  function InternalKey(i: nat, field: string): string {
    "internal." + Decimal(i) + "." + field
  }

  /** The three placeholders of the `i`-th internal reference; a missing or
      empty field is replaced by "". */
  function EntryText(text: string, i: nat, e: Reference): string {
    var t1 := ReplaceToken(text, InternalKey(i, "name"), OrElse(e.name, ""));
    var t2 := ReplaceToken(t1, InternalKey(i, "title"), OrElse(e.title, ""));
    ReplaceToken(t2, InternalKey(i, "company"), OrElse(e.company, ""))
  }

  /** The internal references filled in by index, first to last. */
  function InternalText(text: string, refs: seq<Reference>): string
    decreases |refs|
  {
    if refs == [] then text
    else EntryText(InternalText(text, refs[..|refs| - 1]), |refs| - 1, refs[|refs| - 1])
  }

  /** The internal references, when the config has a `references.internal`
      list; none otherwise. */
  function InternalRefs(c: Customizations): seq<Reference> {
    if c.references.Some? && c.references.value.internal.Some? then c.references.value.internal.value else []
  }

  /** The objective text once every placeholder pass has run. */
  function ObjectiveText(m: Markup, c: Customizations, companyName: string): string {
    InternalText(HeadlineText(OrElse(c.customObjective, m.defaultObjective), c.jobTitle, companyName, c.keySkills), InternalRefs(c))
  }

  /** The section inserted after ABOUT ME, when there is a truthy company
      name; without one the in-page path inserts nothing. */
  function WhyHtml(m: Markup, c: Customizations): (r: Option<string>)
    ensures r.Some? <==> Truthy(c.companyName)
  {
    if Truthy(c.companyName) then
      Some(m.whyLead + c.companyName.value + m.whyMiddle + Trim(ObjectiveText(m, c, c.companyName.value)) + m.whyTail)
    else None
  }

  /** The `forEach` over the internal references. */
  method FillInternal(text0: string, refs: seq<Reference>) returns (text: string)
    ensures text == InternalText(text0, refs)
  {
    text := text0;
    for i := 0 to |refs|
      invariant text == InternalText(text0, refs[..i])
    {
      assert refs[..i + 1][..i] == refs[..i];
      text := ReplaceToken(text, InternalKey(i, "name"), OrElse(refs[i].name, ""));
      text := ReplaceToken(text, InternalKey(i, "title"), OrElse(refs[i].title, ""));
      text := ReplaceToken(text, InternalKey(i, "company"), OrElse(refs[i].company, ""));
    }
    assert refs[..|refs|] == refs;
  }

  /** The objective text as the in-page path computes it. */
  method ComposeObjective(m: Markup, c: Customizations, companyName: string) returns (text: string)
    ensures text == ObjectiveText(m, c, companyName)
  {
    text := OrElse(c.customObjective, m.defaultObjective);
    text := ReplaceToken(text, "jobTitle", OrElse(c.jobTitle, DefaultJobTitle));
    text := ReplaceToken(text, "companyName", companyName);
    text := ReplaceToken(text, "keySkills", OrElse(c.keySkills, DefaultSkills));
    if c.references.Some? && c.references.value.internal.Some? {
      text := FillInternal(text, c.references.value.internal.value);
    }
  }

  /** A run of `\s` characters. */
  predicate AllSpaces(w: string) {
    forall k :: 0 <= k < |w| ==> IsSpace(w[k])
  }

  /** A key as it stands between the braces: not empty, no space at either
      end. */
  predicate Key(key: string) {
    key != [] && !IsSpace(key[0]) && !IsSpace(key[|key| - 1])
  }

  /** A placeholder as written in an objective, with any padding inside the
      braces. */
  function Placeholder(pad1: string, key: string, pad2: string): string {
    "{{" + pad1 + key + pad2 + "}}"
  }

  /** A placeholder match opens with two braces, so it is never empty. */
  lemma TokenHead(s: string, i: nat, key: string)
    requires i <= |s|
    requires MatchAt(s, i, TokenPattern(key), false).Some?
    ensures i + 2 <= |s| && s[i] == '{' && s[i + 1] == '{'
    ensures MatchAt(s, i, TokenPattern(key), false).value >= i + 2
  {
    var head: Pattern := [Lit("{{"), Spaces];
    var tail := TermPattern(key) + [Spaces, Lit("}}")];
    assert TokenPattern(key) == head + tail;
    MatchConcat(s, i, head, tail, false);
    assert head[1..] == [Spaces] && head[1..][1..] == [];
    assert i + 2 <= |s| && SameText(s[i..i + 2], "{{", false);
    assert s[i..i + 2][0] == s[i] && s[i..i + 2][1] == s[i + 1];
  }

  /** Text without a placeholder of `key` is left as it is. */
  lemma NoToken(text: string, key: string, value: string)
    requires Search(text, 0, TokenPattern(key), false).None?
    ensures ReplaceToken(text, key, value) == text
  {
    assert text[0..] == text;
  }

  /** Text without a brace has no placeholder at all. */
  lemma BraceFree(text: string, key: string, value: string)
    requires '{' !in text
    ensures ReplaceToken(text, key, value) == text
  {
    var r := Search(text, 0, TokenPattern(key), false);
    SearchLeftmost(text, 0, TokenPattern(key), false);
    if r.Some? {
      TokenHead(text, r.value.start, key);
      assert false;
    }
    NoToken(text, key, value);
  }

  /** The first placeholder is replaced by the value (taken literally when it
      has no `$`), the text before it is kept, and the scan goes on right
      after it. */
  lemma FirstTokenReplaced(text: string, key: string, value: string, sp: Span)
    requires Search(text, 0, TokenPattern(key), false) == Some(sp)
    requires '$' !in value
    ensures sp.start + 2 <= sp.end <= |text|
    ensures ReplaceToken(text, key, value)
         == text[..sp.start] + value + ReplaceAllFrom(text, sp.end, TokenPattern(key), false, value, false)
  {
    SearchLeftmost(text, 0, TokenPattern(key), false);
    TokenHead(text, sp.start, key);
    ExpandPlain(value, text[sp.start..sp.end], [], text[..sp.start], text[sp.end..]);
    assert ReplaceRest(text, sp, TokenPattern(key), false, value, false)
        == ReplaceAllFrom(text, sp.end, TokenPattern(key), false, value, false);
    assert text[0..sp.start] == text[..sp.start];
  }

  /** A key matches its own text, wildcards included. */
  lemma KeyMatchesItself(s: string, i: nat, key: string)
    requires i + |key| <= |s| && s[i..i + |key|] == key
    ensures MatchAt(s, i, TermPattern(key), false) == Some(i + |key|)
  {
    forall k | 0 <= k < |key| ensures CharFits(key[k], key[k], false) {
    }
    TermMatch(s, i, key, false);
  }

  /** Where the pieces of a placeholder sit. */
  lemma PlaceholderLayout(pad1: string, key: string, pad2: string)
    ensures var s := Placeholder(pad1, key, pad2);
      var i := 2 + |pad1|;
      var j := i + |key|;
      |s| == j + |pad2| + 2 && s[0] == '{' && s[1] == '{'
      && (forall k :: 2 <= k < i ==> s[k] == pad1[k - 2])
      && s[i..j] == key
      && (forall k :: i <= k < j ==> s[k] == key[k - i])
      && (forall k :: j <= k < j + |pad2| ==> s[k] == pad2[k - j])
      && s[j + |pad2|] == '}' && s[j + |pad2| + 1] == '}'
  {
    var s := Placeholder(pad1, key, pad2);
    var i := 2 + |pad1|;
    var j := i + |key|;
    assert s == "{{" + pad1 + key + pad2 + "}}";
    assert s[i..j] == key;
  }

  /** The opening `\{\{\s*` of a placeholder pattern over two braces and
      `n` spaces. */
  lemma OpeningMatch(s: string, n: nat)
    requires 2 + n <= |s| && s[0] == '{' && s[1] == '{'
    requires forall k :: 2 <= k < 2 + n ==> IsSpace(s[k])
    requires 2 + n < |s| ==> !IsSpace(s[2 + n])
    ensures MatchAt(s, 0, [Lit("{{"), Spaces], false) == Some(2 + n)
  {
    var head: Pattern := [Lit("{{"), Spaces];
    SkipSpacesOver(s, 2, n);
    assert SameText(s[0..2], "{{", false);
    assert head[1..] == [Spaces] && head[1..][1..] == [];
  }

  /** The closing `\s*\}\}` of a placeholder pattern over spaces and two
      braces, whatever follows them. */
  lemma ClosingMatch(t: string, pad: string, b: string)
    requires AllSpaces(pad)
    ensures MatchAt(t + pad + "}}" + b, |t|, [Spaces, Lit("}}")], false) == Some(|t| + |pad| + 2)
  {
    var s := t + pad + "}}" + b;
    var n := |t| + |pad|;
    assert forall k :: |t| <= k < n ==> s[k] == pad[k - |t|];
    assert s[n] == '}' && s[n..n + 2] == "}}";
    SkipSpacesOver(s, |t|, |pad|);
    assert SameText(s[n..n + 2], "}}", false);
    var tail: Pattern := [Spaces, Lit("}}")];
    assert tail[1..] == [Lit("}}")] && tail[1..][1..] == [];
  }

  /** After the opening, the key and the closing match up to the end of the
      placeholder, whatever follows it. */
  lemma KeyThenClosing(pad1: string, key: string, pad2: string, b: string)
    requires AllSpaces(pad2)
    ensures 2 + |pad1| <= |Placeholder(pad1, key, pad2)|
    ensures MatchAt(Placeholder(pad1, key, pad2) + b, 2 + |pad1|, TermPattern(key) + [Spaces, Lit("}}")], false)
            == Some(|Placeholder(pad1, key, pad2)|)
  {
    var h := "{{" + pad1;
    var t := h + key;
    var s := t + pad2 + "}}" + b;
    assert s == Placeholder(pad1, key, pad2) + b;
    var closing: Pattern := [Spaces, Lit("}}")];
    assert s[|h|..|t|] == key;
    KeyMatchesItself(s, |h|, key);
    ClosingMatch(t, pad2, b);
    MatchThen(s, |h|, |t|, |t| + |pad2| + 2, TermPattern(key), closing, false);
  }

  /** A padded placeholder of `key` is one match of the pattern, end to
      end, whatever follows it. */
  lemma PlaceholderMatches(pad1: string, key: string, pad2: string, b: string)
    requires AllSpaces(pad1) && AllSpaces(pad2) && Key(key)
    ensures MatchAt(Placeholder(pad1, key, pad2) + b, 0, TokenPattern(key), false) == Some(|Placeholder(pad1, key, pad2)|)
  {
    var s := Placeholder(pad1, key, pad2) + b;
    var rest := TermPattern(key) + [Spaces, Lit("}}")];
    assert TokenPattern(key) == [Lit("{{"), Spaces] + rest;
    PlaceholderLayout(pad1, key, pad2);
    assert s[2 + |pad1|] == key[0];
    OpeningMatch(s, |pad1|);
    KeyThenClosing(pad1, key, pad2, b);
    MatchConcat(s, 0, [Lit("{{"), Spaces], rest, false);
  }

  /** Brace-free text in front is kept, and the replacement goes on after
      it. */
  lemma PlainKept(a: string, b: string, key: string, value: string)
    requires '{' !in a && '$' !in value
    ensures ReplaceToken(a + b, key, value) == a + ReplaceToken(b, key, value)
  {
    forall j | 0 <= j < |a| ensures MatchAt(a + b, j, TokenPattern(key), false).None? {
      assert (a + b)[j] == a[j] && a[j] in a;
      if MatchAt(a + b, j, TokenPattern(key), false).Some? {
        TokenHead(a + b, j, key);
        assert false;
      }
    }
    ReplacePrefixKept(a, b, TokenPattern(key), false, value, false);
  }

  /** A placeholder of `key` at the front becomes the value, and the
      replacement goes on after it. */
  lemma LeadingPlaceholder(pad1: string, key: string, pad2: string, b: string, value: string)
    requires AllSpaces(pad1) && AllSpaces(pad2) && Key(key) && '$' !in value
    ensures ReplaceToken(Placeholder(pad1, key, pad2) + b, key, value) == value + ReplaceToken(b, key, value)
  {
    PlaceholderMatches(pad1, key, pad2, b);
    ReplaceLeadingMatch(Placeholder(pad1, key, pad2), b, TokenPattern(key), false, value, false);
  }

  /** Inside any text, a placeholder of `key` after brace-free text becomes
      the value (taken literally, having no `$`); the text before is kept
      and the rest is replaced on its own. */
  lemma PlaceholderReplaced(a: string, pad1: string, key: string, pad2: string, b: string, value: string)
    requires '{' !in a && AllSpaces(pad1) && AllSpaces(pad2) && Key(key) && '$' !in value
    ensures ReplaceToken(a + Placeholder(pad1, key, pad2) + b, key, value) == a + value + ReplaceToken(b, key, value)
  {
    var p := Placeholder(pad1, key, pad2);
    assert a + p + b == a + (p + b);
    PlainKept(a, p + b, key, value);
    LeadingPlaceholder(pad1, key, pad2, b, value);
  }

  /** A placeholder of another key does not match `key` where it starts. */
  lemma OtherKeyMisses(pad1: string, other: string, pad2: string, b: string, key: string, d: nat)
    requires AllSpaces(pad1) && Key(other)
    requires d < |key| && d < |other| && key[d] != '.' && key[d] != other[d]
    ensures MatchAt(Placeholder(pad1, other, pad2) + b, 0, TokenPattern(key), false).None?
  {
    var s := Placeholder(pad1, other, pad2) + b;
    var i := 2 + |pad1|;
    PlaceholderLayout(pad1, other, pad2);
    assert s[i] == other[0];
    assert s[i..i + |other|] == other;
    OpeningThen(s, |pad1|, key);
    TermMisses(s, i, key, other, d);
  }

  /** Over two braces and `n` spaces, the placeholder pattern of `key`
      matches as its key and closing match after them. */
  lemma OpeningThen(s: string, n: nat, key: string)
    requires 2 + n <= |s| && s[0] == '{' && s[1] == '{'
    requires forall k :: 2 <= k < 2 + n ==> IsSpace(s[k])
    requires 2 + n < |s| ==> !IsSpace(s[2 + n])
    ensures MatchAt(s, 0, TokenPattern(key), false) == MatchAt(s, 2 + n, TermPattern(key) + [Spaces, Lit("}}")], false)
  {
    var tail: Pattern := TermPattern(key) + [Spaces, Lit("}}")];
    assert TokenPattern(key) == [Lit("{{"), Spaces] + tail;
    OpeningMatch(s, n);
    MatchConcat(s, 0, [Lit("{{"), Spaces], tail, false);
  }

  /** Where `other` stands, the key and closing of `key` do not match when
      the two differ at a position where `key` has no wildcard. */
  lemma TermMisses(s: string, i: nat, key: string, other: string, d: nat)
    requires i + |other| <= |s| && s[i..i + |other|] == other
    requires d < |key| && d < |other| && key[d] != '.' && key[d] != other[d]
    ensures MatchAt(s, i, TermPattern(key) + [Spaces, Lit("}}")], false).None?
  {
    MatchConcat(s, i, TermPattern(key), [Spaces, Lit("}}")], false);
    TermMatch(s, i, key, false);
    if i + |key| <= |s| {
      assert s[i..i + |key|][d] == s[i + d] == other[d];
    }
  }

  /** A placeholder of another key at the front is kept, and the
      replacement goes on after it. */
  lemma LeadingOtherPlaceholder(pad1: string, other: string, pad2: string, b: string, key: string, value: string, d: nat)
    requires AllSpaces(pad1) && AllSpaces(pad2) && Key(other) && '{' !in other && '$' !in value
    requires d < |key| && d < |other| && key[d] != '.' && key[d] != other[d]
    ensures ReplaceToken(Placeholder(pad1, other, pad2) + b, key, value)
            == Placeholder(pad1, other, pad2) + ReplaceToken(b, key, value)
  {
    var p := Placeholder(pad1, other, pad2);
    var s := p + b;
    var i := 2 + |pad1|;
    var j := i + |other|;
    PlaceholderLayout(pad1, other, pad2);
    assert forall k :: 2 <= k < |p| ==> s[k] != '{' by {
      forall k | 2 <= k < |p| ensures s[k] != '{' {
        if i <= k < j {
          assert other[k - i] in other;
        }
      }
    }
    OtherKeyMisses(pad1, other, pad2, b, key, d);
    forall k | 0 <= k < |p| ensures MatchAt(s, k, TokenPattern(key), false).None? {
      if k > 0 && MatchAt(s, k, TokenPattern(key), false).Some? {
        TokenHead(s, k, key);
        assert false;
      }
    }
    ReplacePrefixKept(p, b, TokenPattern(key), false, value, false);
  }

  /** Inside any text, a placeholder whose key differs from `key` at a
      position where `key` has no wildcard is kept. */
  lemma OtherPlaceholderKept(a: string, pad1: string, other: string, pad2: string, b: string, key: string, value: string, d: nat)
    requires '{' !in a && AllSpaces(pad1) && AllSpaces(pad2) && Key(other) && '{' !in other && '$' !in value
    requires d < |key| && d < |other| && key[d] != '.' && key[d] != other[d]
    ensures ReplaceToken(a + Placeholder(pad1, other, pad2) + b, key, value)
            == a + Placeholder(pad1, other, pad2) + ReplaceToken(b, key, value)
  {
    var p := Placeholder(pad1, other, pad2);
    assert a + p + b == a + (p + b);
    PlainKept(a, p + b, key, value);
    LeadingOtherPlaceholder(pad1, other, pad2, b, key, value, d);
  }

  /** An objective read as a sequence of pieces: plain text and
      placeholders. */
  datatype Piece =
    | Plain(text: string)
    | Slot(pad1: string, key: string, pad2: string)

  function PieceText(q: Piece): string {
    match q
    case Plain(t) => t
    case Slot(pad1, key, pad2) => Placeholder(pad1, key, pad2)
  }

  /** The text the pieces spell, first to last. */
  function Render(ps: seq<Piece>): string
    decreases |ps|
  {
    if ps == [] then "" else PieceText(ps[0]) + Render(ps[1..])
  }

  /** Plain text without a brace, and placeholders as a writer pads them. */
  predicate PieceOk(q: Piece) {
    match q
    case Plain(t) => '{' !in t
    case Slot(pad1, key, pad2) => AllSpaces(pad1) && AllSpaces(pad2) && Key(key) && '{' !in key
  }

  predicate WellFormed(ps: seq<Piece>) {
    forall i :: 0 <= i < |ps| ==> PieceOk(ps[i])
  }

  /** The pattern of `key` cannot match the key `other`: they differ at a
      position where `key` has no wildcard. */
  predicate Differs(key: string, other: string) {
    exists d :: 0 <= d < |key| && d < |other| && key[d] != '.' && key[d] != other[d]
  }

  /** Every placeholder is either one of `key` or one its pattern cannot
      match. */
  predicate Separated(ps: seq<Piece>, key: string) {
    forall i :: 0 <= i < |ps| && ps[i].Slot? ==> ps[i].key == key || Differs(key, ps[i].key)
  }

  /** A value that is taken literally and brings no placeholder with it. */
  predicate Clean(v: string) {
    '$' !in v && '{' !in v
  }

  function FillPiece(q: Piece, key: string, value: string): Piece {
    if q.Slot? && q.key == key then Plain(value) else q
  }

  /** Every placeholder of `key` turned into the value. */
  function Fill(ps: seq<Piece>, key: string, value: string): (r: seq<Piece>)
    ensures |r| == |ps| && forall i :: 0 <= i < |ps| ==> r[i] == FillPiece(ps[i], key, value)
    decreases |ps|
  {
    if ps == [] then [] else [FillPiece(ps[0], key, value)] + Fill(ps[1..], key, value)
  }

  /** Filling keeps the pieces well formed when the value is brace-free,
      and keeps them separated from any other key. */
  lemma FillKeeps(ps: seq<Piece>, key: string, value: string, other: string)
    requires WellFormed(ps) && '{' !in value
    ensures WellFormed(Fill(ps, key, value))
    ensures Separated(ps, other) ==> Separated(Fill(ps, key, value), other)
  {
    var r := Fill(ps, key, value);
    forall i | 0 <= i < |r| ensures PieceOk(r[i]) {
      assert PieceOk(ps[i]);
    }
  }

  /** What holds of the pieces holds of all but the first. */
  lemma WellFormedTail(ps: seq<Piece>, key: string)
    requires ps != [] && WellFormed(ps) && Separated(ps, key)
    ensures PieceOk(ps[0]) && WellFormed(ps[1..]) && Separated(ps[1..], key)
  {
    forall i | 0 <= i < |ps[1..]| ensures PieceOk(ps[1..][i]) {
      assert ps[1..][i] == ps[i + 1];
    }
    forall i | 0 <= i < |ps[1..]| && ps[1..][i].Slot?
      ensures ps[1..][i].key == key || Differs(key, ps[1..][i].key)
    {
      assert ps[1..][i] == ps[i + 1];
    }
  }

  /** The global replacement of `key` over a whole objective: every
      placeholder of `key`, wherever it is and however it is padded,
      becomes the value; plain text and the other placeholders are kept. */
  lemma {:induction false} SlotsFilled(ps: seq<Piece>, key: string, value: string)
    requires WellFormed(ps) && Separated(ps, key) && '$' !in value
    ensures ReplaceToken(Render(ps), key, value) == Render(Fill(ps, key, value))
    decreases |ps|
  {
    if ps == [] {
      BraceFree("", key, value);
    } else {
      WellFormedTail(ps, key);
      var rest := Render(ps[1..]);
      SlotsFilled(ps[1..], key, value);
      assert Fill(ps, key, value)[1..] == Fill(ps[1..], key, value);
      match ps[0]
      case Plain(t) =>
        PlainKept(t, rest, key, value);
      case Slot(pad1, other, pad2) =>
        if other == key {
          LeadingPlaceholder(pad1, key, pad2, rest, value);
        } else {
          assert ps[0].Slot? && ps[0].key == other;
          var d :| 0 <= d < |key| && d < |other| && key[d] != '.' && key[d] != other[d];
          LeadingOtherPlaceholder(pad1, other, pad2, rest, key, value, d);
        }
    }
  }

  /** The three headline keys, each of which its own pattern alone
      matches in the pieces. */
  predicate HeadlineSeparated(ps: seq<Piece>) {
    Separated(ps, "jobTitle") && Separated(ps, "companyName") && Separated(ps, "keySkills")
  }

  /** The headline placeholders filled in, in the order the source fills
      them. */
  function FillHeadline(ps: seq<Piece>, jobTitle: Option<string>, companyName: string, keySkills: Option<string>): seq<Piece> {
    var p1 := Fill(ps, "jobTitle", OrElse(jobTitle, DefaultJobTitle));
    var p2 := Fill(p1, "companyName", companyName);
    Fill(p2, "keySkills", OrElse(keySkills, DefaultSkills))
  }

  /** The headline filling keeps the pieces well formed and separated from
      any other key. */
  lemma HeadlineKeeps(ps: seq<Piece>, jobTitle: Option<string>, companyName: string, keySkills: Option<string>, other: string)
    requires WellFormed(ps)
    requires Clean(OrElse(jobTitle, DefaultJobTitle)) && Clean(companyName) && Clean(OrElse(keySkills, DefaultSkills))
    ensures WellFormed(FillHeadline(ps, jobTitle, companyName, keySkills))
    ensures Separated(ps, other) ==> Separated(FillHeadline(ps, jobTitle, companyName, keySkills), other)
  {
    var p1 := Fill(ps, "jobTitle", OrElse(jobTitle, DefaultJobTitle));
    var p2 := Fill(p1, "companyName", companyName);
    FillKeeps(ps, "jobTitle", OrElse(jobTitle, DefaultJobTitle), other);
    FillKeeps(p1, "companyName", companyName, other);
    FillKeeps(p2, "keySkills", OrElse(keySkills, DefaultSkills), other);
  }

  lemma HeadlineKeepsEntry(ps: seq<Piece>, jobTitle: Option<string>, companyName: string, keySkills: Option<string>, j: nat)
    requires WellFormed(ps) && EntrySeparated(ps, j)
    requires Clean(OrElse(jobTitle, DefaultJobTitle)) && Clean(companyName) && Clean(OrElse(keySkills, DefaultSkills))
    ensures EntrySeparated(FillHeadline(ps, jobTitle, companyName, keySkills), j)
  {
    HeadlineKeeps(ps, jobTitle, companyName, keySkills, InternalKey(j, "name"));
    HeadlineKeeps(ps, jobTitle, companyName, keySkills, InternalKey(j, "title"));
    HeadlineKeeps(ps, jobTitle, companyName, keySkills, InternalKey(j, "company"));
  }

  /** The three headline passes over a whole objective: every `{{ jobTitle }}`
      becomes the job title (or "Software Engineer" when it is missing or
      empty), every `{{ companyName }}` the company name, every
      `{{ keySkills }}` the skills (or the default skill list), wherever
      they are and however they are padded; everything else is kept. */
  lemma HeadlineFilled(ps: seq<Piece>, jobTitle: Option<string>, companyName: string, keySkills: Option<string>)
    requires WellFormed(ps) && HeadlineSeparated(ps)
    requires Clean(OrElse(jobTitle, DefaultJobTitle)) && Clean(companyName) && '$' !in OrElse(keySkills, DefaultSkills)
    ensures HeadlineText(Render(ps), jobTitle, companyName, keySkills) == Render(FillHeadline(ps, jobTitle, companyName, keySkills))
  {
    var v1 := OrElse(jobTitle, DefaultJobTitle);
    var v3 := OrElse(keySkills, DefaultSkills);
    var p1 := Fill(ps, "jobTitle", v1);
    var p2 := Fill(p1, "companyName", companyName);
    SlotsFilled(ps, "jobTitle", v1);
    FillKeeps(ps, "jobTitle", v1, "companyName");
    FillKeeps(ps, "jobTitle", v1, "keySkills");
    SlotsFilled(p1, "companyName", companyName);
    FillKeeps(p1, "companyName", companyName, "keySkills");
    SlotsFilled(p2, "keySkills", v3);
  }

  /** The three keys of the `i`-th internal reference, each of which its
      own pattern alone matches in the pieces. */
  predicate EntrySeparated(ps: seq<Piece>, i: nat) {
    Separated(ps, InternalKey(i, "name")) && Separated(ps, InternalKey(i, "title")) && Separated(ps, InternalKey(i, "company"))
  }

  /** The three values a reference brings, each taken literally and without
      a placeholder. */
  predicate CleanEntry(e: Reference) {
    Clean(OrElse(e.name, "")) && Clean(OrElse(e.title, "")) && Clean(OrElse(e.company, ""))
  }

  /** The placeholders of the `i`-th internal reference filled in. */
  function FillEntry(ps: seq<Piece>, i: nat, e: Reference): seq<Piece> {
    var p1 := Fill(ps, InternalKey(i, "name"), OrElse(e.name, ""));
    var p2 := Fill(p1, InternalKey(i, "title"), OrElse(e.title, ""));
    Fill(p2, InternalKey(i, "company"), OrElse(e.company, ""))
  }

  lemma EntryKeeps(ps: seq<Piece>, i: nat, e: Reference, other: string)
    requires WellFormed(ps) && CleanEntry(e)
    ensures WellFormed(FillEntry(ps, i, e))
    ensures Separated(ps, other) ==> Separated(FillEntry(ps, i, e), other)
  {
    var p1 := Fill(ps, InternalKey(i, "name"), OrElse(e.name, ""));
    var p2 := Fill(p1, InternalKey(i, "title"), OrElse(e.title, ""));
    FillKeeps(ps, InternalKey(i, "name"), OrElse(e.name, ""), other);
    FillKeeps(p1, InternalKey(i, "title"), OrElse(e.title, ""), other);
    FillKeeps(p2, InternalKey(i, "company"), OrElse(e.company, ""), other);
  }

  /** The three passes of one internal reference over a whole objective:
      every `{{ internal.<i>.name }}`, `{{ internal.<i>.title }}` and
      `{{ internal.<i>.company }}` becomes that field of the reference, or ""
      when it is missing or empty; everything else is kept. */
  lemma EntryFilled(ps: seq<Piece>, i: nat, e: Reference)
    requires WellFormed(ps) && EntrySeparated(ps, i)
    requires Clean(OrElse(e.name, "")) && Clean(OrElse(e.title, "")) && '$' !in OrElse(e.company, "")
    ensures EntryText(Render(ps), i, e) == Render(FillEntry(ps, i, e))
  {
    var k1 := InternalKey(i, "name");
    var k2 := InternalKey(i, "title");
    var k3 := InternalKey(i, "company");
    var p1 := Fill(ps, k1, OrElse(e.name, ""));
    var p2 := Fill(p1, k2, OrElse(e.title, ""));
    SlotsFilled(ps, k1, OrElse(e.name, ""));
    FillKeeps(ps, k1, OrElse(e.name, ""), k2);
    FillKeeps(ps, k1, OrElse(e.name, ""), k3);
    SlotsFilled(p1, k2, OrElse(e.title, ""));
    FillKeeps(p1, k2, OrElse(e.title, ""), k3);
    SlotsFilled(p2, k3, OrElse(e.company, ""));
  }

  /** The internal references filled in by index, first to last. */
  function FillRefs(ps: seq<Piece>, refs: seq<Reference>): seq<Piece>
    decreases |refs|
  {
    if refs == [] then ps
    else FillEntry(FillRefs(ps, refs[..|refs| - 1]), |refs| - 1, refs[|refs| - 1])
  }

  lemma {:induction false} RefsKeep(ps: seq<Piece>, refs: seq<Reference>, other: string)
    requires WellFormed(ps) && forall j :: 0 <= j < |refs| ==> CleanEntry(refs[j])
    ensures WellFormed(FillRefs(ps, refs))
    ensures Separated(ps, other) ==> Separated(FillRefs(ps, refs), other)
    decreases |refs|
  {
    if refs != [] {
      var n := |refs| - 1;
      RefsKeep(ps, refs[..n], other);
      EntryKeeps(FillRefs(ps, refs[..n]), n, refs[n], other);
    }
  }

  /** The internal passes over a whole objective: the placeholders of every
      internal reference become its fields. */
  lemma {:induction false} InternalFilled(ps: seq<Piece>, refs: seq<Reference>)
    requires WellFormed(ps)
    requires forall j :: 0 <= j < |refs| ==> EntrySeparated(ps, j) && CleanEntry(refs[j])
    ensures InternalText(Render(ps), refs) == Render(FillRefs(ps, refs))
    decreases |refs|
  {
    if refs != [] {
      var n := |refs| - 1;
      var prefix := refs[..n];
      InternalFilled(ps, prefix);
      var q := FillRefs(ps, prefix);
      RefsKeep(ps, prefix, InternalKey(n, "name"));
      RefsKeep(ps, prefix, InternalKey(n, "title"));
      RefsKeep(ps, prefix, InternalKey(n, "company"));
      EntryFilled(q, n, refs[n]);
    }
  }

  /** The objective text as a whole: the config's objective (or the
      default), its headline placeholders and then those of every internal
      reference filled in. */
  lemma ObjectiveFilled(m: Markup, c: Customizations, companyName: string, ps: seq<Piece>)
    requires Render(ps) == OrElse(c.customObjective, m.defaultObjective)
    requires WellFormed(ps) && HeadlineSeparated(ps)
    requires forall j :: 0 <= j < |InternalRefs(c)| ==> EntrySeparated(ps, j) && CleanEntry(InternalRefs(c)[j])
    requires Clean(OrElse(c.jobTitle, DefaultJobTitle)) && Clean(companyName) && Clean(OrElse(c.keySkills, DefaultSkills))
    ensures ObjectiveText(m, c, companyName)
            == Render(FillRefs(FillHeadline(ps, c.jobTitle, companyName, c.keySkills), InternalRefs(c)))
  {
    var refs := InternalRefs(c);
    var h := FillHeadline(ps, c.jobTitle, companyName, c.keySkills);
    HeadlineFilled(ps, c.jobTitle, companyName, c.keySkills);
    HeadlineKeeps(ps, c.jobTitle, companyName, c.keySkills, "");
    forall j | 0 <= j < |refs| ensures EntrySeparated(h, j) && CleanEntry(refs[j]) {
      assert EntrySeparated(ps, j) && CleanEntry(refs[j]);
      HeadlineKeepsEntry(ps, c.jobTitle, companyName, c.keySkills, j);
    }
    InternalFilled(h, refs);
  }

  /** Text without a brace goes through the internal passes unchanged. */
  lemma {:induction false} InternalBraceFree(text: string, refs: seq<Reference>)
    requires '{' !in text
    ensures InternalText(text, refs) == text
    decreases |refs|
  {
    if refs != [] {
      var n := |refs| - 1;
      var e := refs[n];
      InternalBraceFree(text, refs[..n]);
      BraceFree(text, InternalKey(n, "name"), OrElse(e.name, ""));
      BraceFree(text, InternalKey(n, "title"), OrElse(e.title, ""));
      BraceFree(text, InternalKey(n, "company"), OrElse(e.company, ""));
    }
  }

  lemma RenderAppend(ps: seq<Piece>, qs: seq<Piece>)
    ensures Render(ps + qs) == Render(ps) + Render(qs)
    decreases |ps|
  {
    if ps == [] {
      assert ps + qs == qs;
    } else {
      assert (ps + qs)[1..] == ps[1..] + qs;
      RenderAppend(ps[1..], qs);
    }
  }

  lemma RenderSnoc(ps: seq<Piece>, q: Piece)
    ensures Render(ps + [q]) == Render(ps) + PieceText(q)
  {
    RenderAppend(ps, [q]);
    assert [q][1..] == [];
  }

  /** The default objective, piece by piece. */
  function DefaultPieces(): seq<Piece> {
    [Plain(ObjectiveOpening)] + [Slot("", "jobTitle", "")] + [Plain(ObjectiveRole)] + [Slot("", "companyName", "")]
    + [Plain(ObjectiveBring)] + [Slot("", "keySkills", "")] + [Plain(ObjectiveClosing)]
  }

  /** Seven pieces spell their texts one after the other. */
  lemma RenderSeven(a: Piece, b: Piece, c: Piece, d: Piece, e: Piece, f: Piece, g: Piece)
    ensures Render([a] + [b] + [c] + [d] + [e] + [f] + [g])
            == PieceText(a) + PieceText(b) + PieceText(c) + PieceText(d) + PieceText(e) + PieceText(f) + PieceText(g)
  {
    var t1 := PieceText(a);
    assert Render([a]) == t1 by {
      assert [a][1..] == [];
    }
    var t2 := RenderNext([a], t1, b);
    var t3 := RenderNext([a] + [b], t2, c);
    var t4 := RenderNext([a] + [b] + [c], t3, d);
    var t5 := RenderNext([a] + [b] + [c] + [d], t4, e);
    var t6 := RenderNext([a] + [b] + [c] + [d] + [e], t5, f);
    var t7 := RenderNext([a] + [b] + [c] + [d] + [e] + [f], t6, g);
  }

  /** One more piece spells one more text. */
  lemma RenderNext(ps: seq<Piece>, t: string, q: Piece) returns (u: string)
    requires Render(ps) == t
    ensures u == t + PieceText(q) && Render(ps + [q]) == u
  {
    RenderSnoc(ps, q);
    u := t + PieceText(q);
  }

  lemma LeadingTextsBraceFree()
    ensures '{' !in ObjectiveOpening && '{' !in ObjectiveRole && '{' !in ObjectiveBring
  {
    assert '{' !in "\n            " && '{' !in "I'm excited about the ";
    assert '{' !in ". I'd love to bring " && '{' !in "my experience with \n" && '{' !in "            ";
  }

  lemma ClosingTextBraceFree()
    ensures '{' !in ObjectiveClosing
  {
    assert '{' !in " to help tackle challenges and ";
    assert '{' !in "contribute to the team's " && '{' !in "success.\n          ";
  }

  /** The pieces of the default objective spell it. */
  lemma DefaultPiecesRender()
    ensures Render(DefaultPieces()) == DefaultObjective
  {
    RenderSeven(Plain(ObjectiveOpening), Slot("", "jobTitle", ""), Plain(ObjectiveRole), Slot("", "companyName", ""),
                Plain(ObjectiveBring), Slot("", "keySkills", ""), Plain(ObjectiveClosing));
    BareToken("jobTitle");
    BareToken("companyName");
    BareToken("keySkills");
  }

  /** A placeholder without padding. */
  lemma BareToken(key: string)
    ensures Placeholder("", key, "") == Token(key)
  {
    assert "{{" + "" + key + "" == "{{" + key;
  }

  /** The pieces of the default objective, one by one. */
  lemma DefaultPiecesAt()
    ensures |DefaultPieces()| == 7
    ensures DefaultPieces()[0] == Plain(ObjectiveOpening) && DefaultPieces()[1] == Slot("", "jobTitle", "")
    ensures DefaultPieces()[2] == Plain(ObjectiveRole) && DefaultPieces()[3] == Slot("", "companyName", "")
    ensures DefaultPieces()[4] == Plain(ObjectiveBring) && DefaultPieces()[5] == Slot("", "keySkills", "")
    ensures DefaultPieces()[6] == Plain(ObjectiveClosing)
  {
  }

  /** The default objective is well formed. */
  lemma DefaultPiecesWellFormed()
    ensures WellFormed(DefaultPieces())
  {
    DefaultPiecesAt();
    LeadingTextsBraceFree();
    ClosingTextBraceFree();
    assert Key("jobTitle") && Key("companyName") && Key("keySkills");
  }

  /** In the default objective each headline key matches only its own
      placeholder. */
  lemma DefaultPiecesSeparated()
    ensures HeadlineSeparated(DefaultPieces())
  {
    DefaultSeparatedFrom("jobTitle");
    DefaultSeparatedFrom("companyName");
    DefaultSeparatedFrom("keySkills");
  }

  predicate HeadlineKey(key: string) {
    key == "jobTitle" || key == "companyName" || key == "keySkills"
  }

  /** Two different headline keys differ in their first letter. */
  lemma HeadlineKeysDiffer(key: string, other: string)
    requires HeadlineKey(key) && HeadlineKey(other) && key != other
    ensures Differs(key, other)
  {
    assert key[0] != '.' && key[0] != other[0];
  }

  /** Every placeholder of the default objective is a headline key. */
  lemma DefaultSlotKeys()
    ensures forall i :: 0 <= i < |DefaultPieces()| && DefaultPieces()[i].Slot? ==> HeadlineKey(DefaultPieces()[i].key)
  {
    DefaultPiecesAt();
    forall i | 0 <= i < |DefaultPieces()| && DefaultPieces()[i].Slot?
      ensures HeadlineKey(DefaultPieces()[i].key)
    {
      assert i == 1 || i == 3 || i == 5;
    }
  }

  lemma DefaultSeparatedFrom(key: string)
    requires HeadlineKey(key)
    ensures Separated(DefaultPieces(), key)
  {
    var ps := DefaultPieces();
    DefaultSlotKeys();
    forall i | 0 <= i < |ps| && ps[i].Slot?
      ensures ps[i].key == key || Differs(key, ps[i].key)
    {
      if ps[i].key != key {
        HeadlineKeysDiffer(key, ps[i].key);
      }
    }
  }

  /** The headline passes turn the three placeholders of the default
      objective into plain text. */
  lemma DefaultHeadlinePieces(jobTitle: Option<string>, companyName: string, keySkills: Option<string>)
    ensures FillHeadline(DefaultPieces(), jobTitle, companyName, keySkills)
         == [Plain(ObjectiveOpening)] + [Plain(OrElse(jobTitle, DefaultJobTitle))] + [Plain(ObjectiveRole)] + [Plain(companyName)]
            + [Plain(ObjectiveBring)] + [Plain(OrElse(keySkills, DefaultSkills))] + [Plain(ObjectiveClosing)]
  {
    DefaultPiecesAt();
    var h := FillHeadline(DefaultPieces(), jobTitle, companyName, keySkills);
    var r := [Plain(ObjectiveOpening)] + [Plain(OrElse(jobTitle, DefaultJobTitle))] + [Plain(ObjectiveRole)] + [Plain(companyName)]
            + [Plain(ObjectiveBring)] + [Plain(OrElse(keySkills, DefaultSkills))] + [Plain(ObjectiveClosing)];
    assert r[0] == h[0] && r[1] == h[1] && r[2] == h[2] && r[3] == h[3];
    assert r[4] == h[4] && r[5] == h[5] && r[6] == h[6];
  }

  /** The headline passes over the default objective. */
  lemma DefaultHeadline(jobTitle: Option<string>, companyName: string, keySkills: Option<string>)
    requires Clean(OrElse(jobTitle, DefaultJobTitle)) && Clean(companyName) && '$' !in OrElse(keySkills, DefaultSkills)
    ensures HeadlineText(DefaultObjective, jobTitle, companyName, keySkills)
            == ObjectiveOpening + OrElse(jobTitle, DefaultJobTitle) + ObjectiveRole + companyName
               + ObjectiveBring + OrElse(keySkills, DefaultSkills) + ObjectiveClosing
  {
    DefaultPiecesRender();
    DefaultPiecesWellFormed();
    DefaultPiecesSeparated();
    HeadlineFilled(DefaultPieces(), jobTitle, companyName, keySkills);
    DefaultHeadlinePieces(jobTitle, companyName, keySkills);
    RenderSeven(Plain(ObjectiveOpening), Plain(OrElse(jobTitle, DefaultJobTitle)), Plain(ObjectiveRole), Plain(companyName),
                Plain(ObjectiveBring), Plain(OrElse(keySkills, DefaultSkills)), Plain(ObjectiveClosing));
  }

  /** The in-page path's default objective is the one above. */
  lemma HtmlObjective()
    ensures Html.defaultObjective == DefaultObjective
  {
  }

  /** Without an objective of its own, a config gets the default objective
      (`HtmlObjective`: the one of the in-page path) with the job title, the
      company name and the skills in its three places, and no internal
      reference changes it. */
  lemma DefaultObjectiveFilled(m: Markup, c: Customizations, companyName: string)
    requires m.defaultObjective == DefaultObjective && !Truthy(c.customObjective)
    requires Clean(OrElse(c.jobTitle, DefaultJobTitle)) && Clean(companyName) && Clean(OrElse(c.keySkills, DefaultSkills))
    ensures ObjectiveText(m, c, companyName)
            == ObjectiveOpening + OrElse(c.jobTitle, DefaultJobTitle) + ObjectiveRole + companyName
               + ObjectiveBring + OrElse(c.keySkills, DefaultSkills) + ObjectiveClosing
  {
    var text := ObjectiveOpening + OrElse(c.jobTitle, DefaultJobTitle) + ObjectiveRole + companyName
                + ObjectiveBring + OrElse(c.keySkills, DefaultSkills) + ObjectiveClosing;
    DefaultHeadline(c.jobTitle, companyName, c.keySkills);
    LeadingTextsBraceFree();
    ClosingTextBraceFree();
    InternalBraceFree(text, InternalRefs(c));
  }

  /** The inserted section names the company and holds the trimmed
      objective text. */
  lemma WhyShows(m: Markup, c: Customizations)
    requires Truthy(c.companyName)
    ensures IsInfix(c.companyName.value, WhyHtml(m, c).value)
    ensures IsInfix(Trim(ObjectiveText(m, c, c.companyName.value)), WhyHtml(m, c).value)
  {
    var name := c.companyName.value;
    var text := Trim(ObjectiveText(m, c, name));
    TwoInfixes(m.whyLead, name, m.whyMiddle, text, m.whyTail);
  }
}

=== FILE: output_name.dfy ===
/**
 * The name of the PDF `generateTailoredResume` writes: the configured
 * `filename` when it is set, otherwise `resume-<job title>-<date>.pdf`,
 * where a missing job title reads "tailored" and the date is the first ten
 * characters (`YYYY-MM-DD`) of the ISO timestamp of the current time. The
 * clock is not modelled: the timestamp is a parameter.
 */
module OutputName {
  import opened Wrappers
  import opened Text

  const NamePrefix := "resume-"
  const NameSuffix := ".pdf"
  const DefaultTitle := "tailored"
  /** `YYYY-MM-DD`. */
  const DateLength := 10

  /** `toISOString().slice(0, 10)`. */
  function DatePart(iso: string): (d: string)
    ensures |d| == if |iso| < DateLength then |iso| else DateLength
    ensures StartsWith(iso, d)
  {
    iso[..if |iso| < DateLength then |iso| else DateLength]
  }

  /** `resume-${title}-${date}.pdf`. */
  function DefaultName(title: string, date: string): string {
    NamePrefix + title + "-" + date + NameSuffix
  }

  /** `config.filename || \`resume-${config.jobTitle || "tailored"}-${timestamp}.pdf\``. */
  function OutputFilename(filename: Option<string>, jobTitle: Option<string>, iso: string): (r: string)
    ensures r != ""
    ensures Truthy(filename) ==> r == filename.value
    ensures !Truthy(filename) ==> StartsWith(r, NamePrefix) && EndsWith(r, NameSuffix)
  {
    if Truthy(filename) then filename.value
    else
      var r := DefaultName(OrElse(jobTitle, DefaultTitle), DatePart(iso));
      PrefixOfAppend(NamePrefix, OrElse(jobTitle, DefaultTitle) + "-" + DatePart(iso) + NameSuffix);
      assert r == NamePrefix + (OrElse(jobTitle, DefaultTitle) + "-" + DatePart(iso) + NameSuffix);
      SuffixOfAppend(NamePrefix + OrElse(jobTitle, DefaultTitle) + "-" + DatePart(iso), NameSuffix);
      r
  }

  /** Reads a default name back into its job title and date; the title is
      whatever lies between the prefix and the last eleven characters before
      the suffix, so a title with dashes reads back whole. */
  function ParseDefaultName(r: string): Option<(string, string)> {
    var n := |NamePrefix| + 1 + DateLength + |NameSuffix|;
    if |r| >= n && r[..|NamePrefix|] == NamePrefix && r[|r| - |NameSuffix|..] == NameSuffix
       && r[|r| - |NameSuffix| - DateLength - 1] == '-'
    then Some((r[|NamePrefix|..|r| - |NameSuffix| - DateLength - 1], r[|r| - |NameSuffix| - DateLength..|r| - |NameSuffix|]))
    else None
  }

  /** A default name determines the job title and the date it was made
      from. */
  lemma DefaultNameRoundTrip(title: string, date: string)
    requires |date| == DateLength
    ensures ParseDefaultName(DefaultName(title, date)) == Some((title, date))
  {
    var r := DefaultName(title, date);
    var p := |NamePrefix|;
    var e := |r| - |NameSuffix|;
    assert r == NamePrefix + title + "-" + date + NameSuffix;
    assert r[..p] == NamePrefix;
    assert r[e..] == NameSuffix;
    assert r[e - DateLength - 1] == '-';
    assert r[p..e - DateLength - 1] == title;
    assert r[e - DateLength..e] == date;
  }

  /** Without a configured filename, the name carries the job title, or
      "tailored", and the date of the timestamp. */
  lemma DefaultFilenameReadsBack(filename: Option<string>, jobTitle: Option<string>, iso: string)
    requires !Truthy(filename) && |iso| >= DateLength
    ensures ParseDefaultName(OutputFilename(filename, jobTitle, iso)) == Some((OrElse(jobTitle, DefaultTitle), iso[..DateLength]))
  {
    DefaultNameRoundTrip(OrElse(jobTitle, DefaultTitle), DatePart(iso));
  }
}

=== FILE: pattern.dfy ===
/**
 * The regular expressions the generator builds, restricted to what it
 * actually uses: literal text (compared case-insensitively under the `i`
 * flag), the `.` wildcard, and greedy `\s*`. A lazy `[\s\S]*?` between two
 * patterns is modelled by searching for the second pattern from the end of
 * the first match (see `Search`).
 */
module Pattern {
  import opened Wrappers
  import opened Text

  datatype Atom =
    | Lit(text: string)  // literal characters
    | AnyChar            // `.`: any character but a line terminator
    | Spaces             // `\s*`, greedy

  type Pattern = seq<Atom>

  /** A half-open range `[start, end)` of a string. */
  datatype Span = Span(start: nat, end: nat)

  /** Greedy `\s*` from index `i`: the end of the run of whitespace. */
  function SkipSpaces(s: string, i: nat): (j: nat)
    requires i <= |s|
    ensures i <= j <= |s|
    ensures forall k :: i <= k < j ==> IsSpace(s[k])
    ensures j < |s| ==> !IsSpace(s[j])
    decreases |s| - i
  {
    if i < |s| && IsSpace(s[i]) then SkipSpaces(s, i + 1) else i
  }

  /** Anchored match of `p` at index `i`: the index where the match ends. */
  function MatchAt(s: string, i: nat, p: Pattern, ci: bool): (r: Option<nat>)
    requires i <= |s|
    ensures r.Some? ==> i <= r.value <= |s|
    decreases |p|
  {
    if p == [] then Some(i)
    else
      match p[0]
      case Lit(t) =>
        if i + |t| <= |s| && SameText(s[i..i + |t|], t, ci) then MatchAt(s, i + |t|, p[1..], ci) else None
      case AnyChar =>
        if i < |s| && !IsLineTerminator(s[i]) then MatchAt(s, i + 1, p[1..], ci) else None
      case Spaces =>
        MatchAt(s, SkipSpaces(s, i), p[1..], ci)
  }

  /** The leftmost match of `p` that starts at or after `from`. */
  function Search(s: string, from: nat, p: Pattern, ci: bool): (r: Option<Span>)
    requires from <= |s|
    ensures r.Some? ==> from <= r.value.start <= r.value.end <= |s|
    decreases |s| - from
  {
    match MatchAt(s, from, p, ci)
    case Some(e) => Some(Span(from, e))
    case None => if from == |s| then None else Search(s, from + 1, p, ci)
  }

  /** `Search` finds a match, and no match starts before it; it finds
      nothing only when no match starts anywhere from `from` on. */
  lemma {:induction false} SearchLeftmost(s: string, from: nat, p: Pattern, ci: bool)
    requires from <= |s|
    ensures Search(s, from, p, ci).Some? ==>
              MatchAt(s, Search(s, from, p, ci).value.start, p, ci) == Some(Search(s, from, p, ci).value.end)
    ensures Search(s, from, p, ci).Some? ==>
              forall k :: from <= k < Search(s, from, p, ci).value.start ==> MatchAt(s, k, p, ci).None?
    ensures Search(s, from, p, ci).None? ==> forall k :: from <= k <= |s| ==> MatchAt(s, k, p, ci).None?
    decreases |s| - from
  {
    if MatchAt(s, from, p, ci).None? && from < |s| {
      SearchLeftmost(s, from + 1, p, ci);
    }
  }

  /** Scanning never looks back: `\s*` inside `y` behaves the same behind
      any prefix `x`. */
  lemma {:induction false} SkipSpacesShift(x: string, y: string, i: nat)
    requires i <= |y|
    ensures SkipSpaces(x + y, |x| + i) == |x| + SkipSpaces(y, i)
    decreases |y| - i
  {
    if i < |y| {
      assert (x + y)[|x| + i] == y[i];
      if IsSpace(y[i]) {
        SkipSpacesShift(x, y, i + 1);
      }
    }
  }

  /** A match inside `y` is the same match, shifted, behind any prefix:
      the regular expressions here have no look-behind. */
  lemma {:induction false} MatchShift(x: string, y: string, i: nat, p: Pattern, ci: bool)
    requires i <= |y|
    ensures MatchAt(x + y, |x| + i, p, ci).Some? == MatchAt(y, i, p, ci).Some?
    ensures MatchAt(y, i, p, ci).Some? ==> MatchAt(x + y, |x| + i, p, ci).value == |x| + MatchAt(y, i, p, ci).value
    decreases |p|
  {
    if p != [] {
      var n := AtomStepShift(x, y, i, p, ci);
      if n.Some? {
        MatchShift(x, y, n.value, p[1..], ci);
      }
    }
  }

  /** One atom of `p` steps the same way inside `y` and behind `x`. */
  lemma AtomStepShift(x: string, y: string, i: nat, p: Pattern, ci: bool) returns (n: Option<nat>)
    requires i <= |y| && p != []
    ensures n.Some? ==> n.value <= |y|
    ensures n.Some? ==> MatchAt(y, i, p, ci) == MatchAt(y, n.value, p[1..], ci)
    ensures n.Some? ==> MatchAt(x + y, |x| + i, p, ci) == MatchAt(x + y, |x| + n.value, p[1..], ci)
    ensures n.None? ==> MatchAt(y, i, p, ci).None? && MatchAt(x + y, |x| + i, p, ci).None?
  {
    match p[0]
    case Lit(t) => n := LitStepShift(x, y, i, p, ci, t);
    case AnyChar => n := AnyStepShift(x, y, i, p, ci);
    case Spaces =>
      SkipSpacesShift(x, y, i);
      n := Some(SkipSpaces(y, i));
  }

  /** `AtomStepShift` for a literal. */
  lemma LitStepShift(x: string, y: string, i: nat, p: Pattern, ci: bool, t: string) returns (n: Option<nat>)
    requires i <= |y| && p != [] && p[0] == Lit(t)
    ensures n.Some? ==> n.value <= |y|
    ensures n.Some? ==> MatchAt(y, i, p, ci) == MatchAt(y, n.value, p[1..], ci)
    ensures n.Some? ==> MatchAt(x + y, |x| + i, p, ci) == MatchAt(x + y, |x| + n.value, p[1..], ci)
    ensures n.None? ==> MatchAt(y, i, p, ci).None? && MatchAt(x + y, |x| + i, p, ci).None?
  {
    if i + |t| <= |y| {
      assert (x + y)[|x| + i..|x| + i + |t|] == y[i..i + |t|];
    }
    n := if i + |t| <= |y| && SameText(y[i..i + |t|], t, ci) then Some(i + |t|) else None;
  }

  /** `AtomStepShift` for the `.` wildcard. */
  lemma AnyStepShift(x: string, y: string, i: nat, p: Pattern, ci: bool) returns (n: Option<nat>)
    requires i <= |y| && p != [] && p[0] == AnyChar
    ensures n.Some? ==> n.value <= |y|
    ensures n.Some? ==> MatchAt(y, i, p, ci) == MatchAt(y, n.value, p[1..], ci)
    ensures n.Some? ==> MatchAt(x + y, |x| + i, p, ci) == MatchAt(x + y, |x| + n.value, p[1..], ci)
    ensures n.None? ==> MatchAt(y, i, p, ci).None? && MatchAt(x + y, |x| + i, p, ci).None?
  {
    if i < |y| {
      assert (x + y)[|x| + i] == y[i];
    }
    n := if i < |y| && !IsLineTerminator(y[i]) then Some(i + 1) else None;
  }

  /** The leftmost match inside `y`, shifted, is the leftmost match behind
      any prefix. */
  lemma {:induction false} SearchShift(x: string, y: string, i: nat, p: Pattern, ci: bool)
    requires i <= |y|
    ensures Search(x + y, |x| + i, p, ci)
            == if Search(y, i, p, ci).Some?
               then Some(Span(|x| + Search(y, i, p, ci).value.start, |x| + Search(y, i, p, ci).value.end))
               else None
    decreases |y| - i
  {
    MatchShift(x, y, i, p, ci);
    if MatchAt(y, i, p, ci).None? && i < |y| {
      SearchShift(x, y, i + 1, p, ci);
    }
  }

  /** `SearchShift` for a search that finds a match. */
  lemma SearchShifted(x: string, y: string, i: nat, p: Pattern, ci: bool, m: Span)
    requires i <= |y| && Search(y, i, p, ci) == Some(m)
    ensures Search(x + y, |x| + i, p, ci) == Some(Span(|x| + m.start, |x| + m.end))
  {
    SearchShift(x, y, i, p, ci);
  }

  /** Positions where nothing matches are skipped over by the search. */
  lemma {:induction false} SearchSkip(s: string, from: nat, k: nat, p: Pattern, ci: bool)
    requires from <= k <= |s|
    requires forall j :: from <= j < k ==> MatchAt(s, j, p, ci).None?
    ensures Search(s, from, p, ci) == Search(s, k, p, ci)
    decreases k - from
  {
    if from < k {
      SearchSkip(s, from + 1, k, p, ci);
    }
  }

  /** Greedy `\s*` from `i` stops after exactly the `n` spaces that
      follow `i`. */
  lemma {:induction false} SkipSpacesOver(s: string, i: nat, n: nat)
    requires i + n <= |s|
    requires forall k :: i <= k < i + n ==> IsSpace(s[k])
    requires i + n < |s| ==> !IsSpace(s[i + n])
    ensures SkipSpaces(s, i) == i + n
    decreases n
  {
    if n > 0 {
      SkipSpacesOver(s, i + 1, n - 1);
    }
  }

  /** Matching a concatenation of patterns is matching the first part, then
      the second from where the first ended. */
  lemma {:induction false} MatchConcat(s: string, i: nat, p: Pattern, q: Pattern, ci: bool)
    requires i <= |s|
    ensures MatchAt(s, i, p, ci).None? ==> MatchAt(s, i, p + q, ci).None?
    ensures MatchAt(s, i, p, ci).Some? ==> MatchAt(s, i, p + q, ci) == MatchAt(s, MatchAt(s, i, p, ci).value, q, ci)
    decreases |p|
  {
    if p == [] {
      assert p + q == q;
    } else {
      assert (p + q)[0] == p[0] && (p + q)[1..] == p[1..] + q;
      match p[0]
      case Lit(t) =>
        if i + |t| <= |s| && SameText(s[i..i + |t|], t, ci) {
          MatchConcat(s, i + |t|, p[1..], q, ci);
        }
      case AnyChar =>
        if i < |s| && !IsLineTerminator(s[i]) {
          MatchConcat(s, i + 1, p[1..], q, ci);
        }
      case Spaces =>
        MatchConcat(s, SkipSpaces(s, i), p[1..], q, ci);
    }
  }

  /** Two patterns that match one after the other match as one. */
  lemma MatchThen(s: string, i: nat, j: nat, k: nat, p: Pattern, q: Pattern, ci: bool)
    requires i <= j <= |s|
    requires MatchAt(s, i, p, ci) == Some(j) && MatchAt(s, j, q, ci) == Some(k)
    ensures MatchAt(s, i, p + q, ci) == Some(k)
  {
    MatchConcat(s, i, p, q, ci);
  }

  /** A literal, as a pattern. */
  function Exactly(t: string): Pattern {
    [Lit(t)]
  }

  /** The characters that would make a spliced term a regular expression
      other than a plain word: every metacharacter except `.`. */
  predicate IsMeta(c: char) {
    c in "\\^$|?*+()[]{}"
  }

  /** A user string the source splices into a regular expression, and that
      this model can read: no metacharacter but `.`. */
  predicate PlainTerm(t: string) {
    forall k :: 0 <= k < |t| ==> !IsMeta(t[k])
  }

  /** A user string spliced unescaped into a regular expression: `.` is the
      wildcard, every other character stands for itself. */
  function TermPattern(t: string): (p: Pattern)
    ensures |p| == |t|
    ensures forall k :: 0 <= k < |t| ==> p[k] == if t[k] == '.' then AnyChar else Lit([t[k]])
  {
    if t == [] then [] else [if t[0] == '.' then AnyChar else Lit([t[0]])] + TermPattern(t[1..])
  }

  /** Character `c` is matched by the term character `t`. */
  predicate CharFits(c: char, t: char, ci: bool) {
    if t == '.' then !IsLineTerminator(c) else SameChar(c, t, ci)
  }

  /** Window `w` is matched by term `t`, character by character. */
  predicate TermFits(w: string, t: string, ci: bool) {
    |w| == |t| && forall k :: 0 <= k < |t| ==> CharFits(w[k], t[k], ci)
  }

  lemma TermFitsSplit(w: string, t: string, ci: bool)
    requires |w| == |t| > 0
    ensures TermFits(w, t, ci) <==> CharFits(w[0], t[0], ci) && TermFits(w[1..], t[1..], ci)
  {
    if CharFits(w[0], t[0], ci) && TermFits(w[1..], t[1..], ci) {
      forall k | 0 <= k < |t| ensures CharFits(w[k], t[k], ci) {
        if k > 0 {
          assert w[k] == w[1..][k - 1] && t[k] == t[1..][k - 1];
        }
      }
    }
  }

  lemma TermStep(s: string, i: nat, t: string, ci: bool)
    requires i <= |s| && t != []
    ensures MatchAt(s, i, TermPattern(t), ci)
            == if i < |s| && CharFits(s[i], t[0], ci) then MatchAt(s, i + 1, TermPattern(t[1..]), ci) else None
  {
    var p := TermPattern(t);
    assert p[1..] == TermPattern(t[1..]);
    if t[0] != '.' && i < |s| {
      assert s[i..i + 1] == [s[i]];
    }
  }

  /** A term matches at `i` exactly when the `|t|` characters from `i` fit it;
      the match then covers those characters and nothing more. */
  lemma {:induction false} TermMatch(s: string, i: nat, t: string, ci: bool)
    requires i <= |s|
    ensures MatchAt(s, i, TermPattern(t), ci)
            == if i + |t| <= |s| && TermFits(s[i..i + |t|], t, ci) then Some(i + |t|) else None
    decreases |t|
  {
    if t != [] {
      TermStep(s, i, t, ci);
      if i + |t| <= |s| {
        var w := s[i..i + |t|];
        TermFitsSplit(w, t, ci);
        assert w[0] == s[i] && w[1..] == s[i + 1..i + 1 + |t[1..]|];
      }
      if i < |s| && CharFits(s[i], t[0], ci) {
        TermMatch(s, i + 1, t[1..], ci);
      }
    }
  }

  /** A literal matches at `i` exactly when the next `|t|` characters are
      the same text; the match covers them. */
  lemma LiteralMatch(s: string, i: nat, t: string, ci: bool)
    requires i <= |s|
    ensures MatchAt(s, i, Exactly(t), ci)
            == if i + |t| <= |s| && SameText(s[i..i + |t|], t, ci) then Some(i + |t|) else None
  {
    assert Exactly(t)[1..] == [];
  }

  /** A found literal ends `|t|` characters after it starts, on the same
      text. */
  lemma LiteralFound(s: string, from: nat, t: string, ci: bool, b: Span)
    requires from <= |s| && Search(s, from, Exactly(t), ci) == Some(b)
    ensures b.end == b.start + |t| && b.end <= |s| && SameText(s[b.end - |t|..b.end], t, ci)
  {
    SearchLeftmost(s, from, Exactly(t), ci);
    LiteralMatch(s, b.start, t, ci);
  }

  /** A match of a literal under case-sensitive comparison is an occurrence. */
  lemma ExactlyMatch(s: string, i: nat, t: string)
    requires i <= |s|
    ensures MatchAt(s, i, Exactly(t), false) == if OccursAt(s, t, i) then Some(i + |t|) else None
  {
    assert Exactly(t)[1..] == [];
    if i + |t| <= |s| {
      if SameText(s[i..i + |t|], t, false) {
        assert s[i..i + |t|] == t;
      }
    }
  }
}

=== FILE: references.dfy ===
/**
 * The references record of a configuration and the static serialiser of
 * the generator, `generateReferencesSection` with its three per-category
 * helpers: a fixed heading, one block per non-empty category (professional,
 * portfolio, academic, in that order), an optional "Contact for References"
 * paragraph and a fixed closing.
 */
module References {
  import opened Wrappers
  import opened Text
  import opened Markup

  /** One entry of a reference list. Configurations are YAML, so an entry is
      an open record in which every field may be missing. `kind` is the
      `type` field; a missing type reads as "", which no rule selects. */
  datatype Reference = Reference(
    kind: string,
    name: Option<string>,
    title: Option<string>,
    company: Option<string>,
    institution: Option<string>,
    email: Option<string>,
    phone: Option<string>,
    linkedin: Option<string>,
    note: Option<string>,
    message: Option<string>,
    url: Option<string>,
    description: Option<string>,
    stars: Option<nat>)

  /** `customizations.references`: a list per category, each of which may be
      missing, and the flag that hides the contact paragraph (a missing flag
      reads as false). */
  datatype References = References(
    professional: Option<seq<Reference>>,
    portfolio: Option<seq<Reference>>,
    academic: Option<seq<Reference>>,
    internal: Option<seq<Reference>>,
    hideContactSection: bool)

  /** `list && list.length > 0`. */
  predicate NonEmpty(list: Option<seq<Reference>>) {
    list.Some? && |list.value| > 0
  }

  /** The serialiser calls `ref.url.startsWith` on every "page" entry of the
      portfolio, which throws when the url is missing. */
  predicate PageUrlsPresent(refs: seq<Reference>) {
    forall k :: 0 <= k < |refs| && refs[k].kind == "page" ==> refs[k].url.Some?
  }

  predicate Serialisable(r: References) {
    r.portfolio.Some? ==> PageUrlsPresent(r.portfolio.value)
  }

  /** A star count in a boolean context: absent or 0 is falsy. */
  predicate HasStars(e: Reference) {
    e.stars.Some? && e.stars.value != 0
  }

  /** `${x ? `<prefix>${x}` : ""}`. */
  function Field(o: Option<string>, prefix: string): (r: string)
    ensures Truthy(o) ==> r == prefix + o.value
    ensures !Truthy(o) ==> r == ""
  {
    if Truthy(o) then prefix + o.value else ""
  }

  /** The name on a person card, in bold. */
  function StrongName(name: string): string {
    "<strong class=\"text-terminal-cyan\">" + name + "</strong>"
  }

  function LinkedinLine(o: Option<string>): string {
    if Truthy(o) then "<br />🔗 <a href=\"" + o.value + "\" class=\"main-link\">" + o.value + "</a>" else ""
  }

  function NoteParagraph(o: Option<string>): string {
    if Truthy(o) then "<p class=\"text-sm text-gray-600 mt-1\">" + o.value + "</p>" else ""
  }

  /** The card of a "person" entry of the professional list: the name in
      bold, then each truthy field after its line break. */
  function ProfessionalCard(m: Markup, e: Reference): string {
    Concat(ProfessionalCardParts(m, e))
  }

  function ProfessionalCardParts(m: Markup, e: Reference): seq<string> {
    [m.cardLead, StrongName(Interpolate(e.name)), m.fieldBreak,
     Field(e.title, "<br />"), m.fieldBreak,
     Field(e.company, "<br />"), m.fieldBreak,
     Field(e.email, "<br />📧 "), m.fieldBreak,
     Field(e.phone, "<br />📞 "), m.fieldBreak,
     LinkedinLine(e.linkedin), m.cardParagraphEnd,
     NoteParagraph(e.note), m.cardEnd]
  }

  /** The card of a "person" entry of the academic list: as the professional
      card, with the institution in place of the company and no LinkedIn
      line. */
  function AcademicCard(m: Markup, e: Reference): string {
    Concat(AcademicCardParts(m, e))
  }

  function AcademicCardParts(m: Markup, e: Reference): seq<string> {
    [m.cardLead, StrongName(Interpolate(e.name)), m.fieldBreak,
     Field(e.title, "<br />"), m.fieldBreak,
     Field(e.institution, "<br />"), m.fieldBreak,
     Field(e.email, "<br />📧 "), m.fieldBreak,
     Field(e.phone, "<br />📞 "), m.cardParagraphEnd,
     NoteParagraph(e.note), m.cardEnd]
  }

  /** The paragraph of an "available" entry: its message, or the default
      text when the message is falsy. */
  function AvailableParagraph(m: Markup, e: Reference): string {
    m.availableLead + OrElse(e.message, m.availableDefault) + m.availableEnd
  }

  /** One entry of the professional list: "person" and "available" entries
      have a rendering, every other kind contributes nothing. */
  function ProfessionalEntry(m: Markup, e: Reference): string {
    if e.kind == "person" then ProfessionalCard(m, e)
    else if e.kind == "available" then AvailableParagraph(m, e)
    else ""
  }

  /** One entry of the academic list: only "person" entries are rendered. */
  function AcademicEntry(m: Markup, e: Reference): string {
    if e.kind == "person" then AcademicCard(m, e) else ""
  }

  /** The opening tag of the link of a "page" entry: it opens a new tab
      exactly when the url starts with "http". */
  function PageAnchor(url: string): string {
    "<a href=\"" + url + "\" class=\"group\" " + (if StartsWith(url, "http") then "target=\"_blank\"" else "") + ">"
  }

  /** The opening tag of a link that always opens a new tab: every "github"
      entry here, and every portfolio entry of the in-page builder. */
  function NewTabAnchor(url: string): string {
    "<a href=\"" + url + "\" class=\"group\" target=\"_blank\">"
  }

  function StarsNote(e: Reference): string {
    if HasStars(e) then " (⭐ " + Decimal(e.stars.value) + " stars)" else ""
  }

  /** The head of a portfolio link: the opening tag, then the name, which a
      "github" entry prefixes with a folder mark. */
  function LinkHead(m: Markup, e: Reference): string {
    if e.kind == "page" then PageAnchor(Interpolate(e.url)) + m.nameBreak + Interpolate(e.name)
    else NewTabAnchor(Interpolate(e.url)) + m.nameBreak + "📂 " + Interpolate(e.name)
  }

  function PortfolioParts(m: Markup, e: Reference): seq<string> {
    if e.kind == "page" then
      [m.linkLead, LinkHead(m, e), m.linkTail, Field(e.description, " - "), m.linkEnd]
    else
      [m.linkLead, LinkHead(m, e), m.linkTail, Field(e.description, " - "), m.fieldBreak, StarsNote(e), m.linkEnd]
  }

  /** One entry of the portfolio list: "page" and "github" entries are
      links, every other kind contributes nothing. */
  function PortfolioEntry(m: Markup, e: Reference): string {
    if e.kind == "page" || e.kind == "github" then Concat(PortfolioParts(m, e)) else ""
  }

  /** The rendered entries of one list, in list order. */
  function ProfessionalEntries(m: Markup, refs: seq<Reference>): string {
    Join(refs, e => ProfessionalEntry(m, e))
  }

  function PortfolioEntries(m: Markup, refs: seq<Reference>): string {
    Join(refs, e => PortfolioEntry(m, e))
  }

  function AcademicEntries(m: Markup, refs: seq<Reference>): string {
    Join(refs, e => AcademicEntry(m, e))
  }

  function ProfessionalBlock(m: Markup, refs: seq<Reference>): string {
    m.professionalOpen + ProfessionalEntries(m, refs) + m.categoryClose
  }

  function PortfolioBlock(m: Markup, refs: seq<Reference>): string {
    m.portfolioOpen + PortfolioEntries(m, refs) + m.categoryClose
  }

  function AcademicBlock(m: Markup, refs: seq<Reference>): string {
    m.academicOpen + AcademicEntries(m, refs) + m.categoryClose
  }

  /** Each category block is present only when its list is present and
      non-empty. */
  function ProfessionalPart(m: Markup, r: References): string {
    if NonEmpty(r.professional) then ProfessionalBlock(m, r.professional.value) else ""
  }

  function PortfolioPart(m: Markup, r: References): string {
    if NonEmpty(r.portfolio) then PortfolioBlock(m, r.portfolio.value) else ""
  }

  function AcademicPart(m: Markup, r: References): string {
    if NonEmpty(r.academic) then AcademicBlock(m, r.academic.value) else ""
  }

  function ContactPart(m: Markup, r: References): string {
    if r.hideContactSection then "" else m.contactBlock
  }

  /** The text `generateReferencesSection` returns. */
  function SectionText(m: Markup, r: References): string
    requires Serialisable(r)
  {
    m.sectionOpen + ProfessionalPart(m, r) + PortfolioPart(m, r) + AcademicPart(m, r) + ContactPart(m, r) + m.sectionClose
  }

  /** One more entry extends the rendered list by that entry. */
  lemma ProfessionalEntriesStep(m: Markup, head: string, refs: seq<Reference>, i: nat)
    requires i < |refs|
    ensures head + ProfessionalEntries(m, refs[..i + 1]) == head + ProfessionalEntries(m, refs[..i]) + ProfessionalEntry(m, refs[i])
  {
    JoinStepAfter(head, refs, i, e => ProfessionalEntry(m, e));
  }

  lemma PortfolioEntriesStep(m: Markup, head: string, refs: seq<Reference>, i: nat)
    requires i < |refs|
    ensures head + PortfolioEntries(m, refs[..i + 1]) == head + PortfolioEntries(m, refs[..i]) + PortfolioEntry(m, refs[i])
  {
    JoinStepAfter(head, refs, i, e => PortfolioEntry(m, e));
  }

  lemma AcademicEntriesStep(m: Markup, head: string, refs: seq<Reference>, i: nat)
    requires i < |refs|
    ensures head + AcademicEntries(m, refs[..i + 1]) == head + AcademicEntries(m, refs[..i]) + AcademicEntry(m, refs[i])
  {
    JoinStepAfter(head, refs, i, e => AcademicEntry(m, e));
  }

  /** `generateProfessionalReferences`. */
  method GenerateProfessionalReferences(m: Markup, refs: seq<Reference>) returns (html: string)
    ensures html == ProfessionalBlock(m, refs)
  {
    html := m.professionalOpen;
    for i := 0 to |refs|
      invariant html == m.professionalOpen + ProfessionalEntries(m, refs[..i])
    {
      ProfessionalEntriesStep(m, m.professionalOpen, refs, i);
      html := html + ProfessionalEntry(m, refs[i]);
    }
    assert refs[..|refs|] == refs;
    html := html + m.categoryClose;
  }

  /** `generatePortfolioReferences`. */
  method GeneratePortfolioReferences(m: Markup, refs: seq<Reference>) returns (html: string)
    requires PageUrlsPresent(refs)
    ensures html == PortfolioBlock(m, refs)
  {
    html := m.portfolioOpen;
    for i := 0 to |refs|
      invariant html == m.portfolioOpen + PortfolioEntries(m, refs[..i])
    {
      PortfolioEntriesStep(m, m.portfolioOpen, refs, i);
      html := html + PortfolioEntry(m, refs[i]);
    }
    assert refs[..|refs|] == refs;
    html := html + m.categoryClose;
  }

  /** `generateAcademicReferences`. */
  method GenerateAcademicReferences(m: Markup, refs: seq<Reference>) returns (html: string)
    ensures html == AcademicBlock(m, refs)
  {
    html := m.academicOpen;
    for i := 0 to |refs|
      invariant html == m.academicOpen + AcademicEntries(m, refs[..i])
    {
      AcademicEntriesStep(m, m.academicOpen, refs, i);
      html := html + AcademicEntry(m, refs[i]);
    }
    assert refs[..|refs|] == refs;
    html := html + m.categoryClose;
  }

  /** `generateReferencesSection`. */
  method GenerateReferencesSection(m: Markup, r: References) returns (html: string)
    requires Serialisable(r)
    ensures html == SectionText(m, r)
  {
    html := m.sectionOpen;
    if NonEmpty(r.professional) {
      var block := GenerateProfessionalReferences(m, r.professional.value);
      html := html + block;
    }
    assert html == m.sectionOpen + ProfessionalPart(m, r);
    if NonEmpty(r.portfolio) {
      var block := GeneratePortfolioReferences(m, r.portfolio.value);
      html := html + block;
    }
    assert html == m.sectionOpen + ProfessionalPart(m, r) + PortfolioPart(m, r);
    if NonEmpty(r.academic) {
      var block := GenerateAcademicReferences(m, r.academic.value);
      html := html + block;
    }
    assert html == m.sectionOpen + ProfessionalPart(m, r) + PortfolioPart(m, r) + AcademicPart(m, r);
    if !r.hideContactSection {
      html := html + m.contactBlock;
    }
    html := html + m.sectionClose;
  }

  /** A person card shows the name in bold and each truthy field. */
  lemma ProfessionalCardShows(m: Markup, e: Reference)
    ensures IsInfix(StrongName(Interpolate(e.name)), ProfessionalCard(m, e))
    ensures Truthy(e.title) ==> IsInfix("<br />" + e.title.value, ProfessionalCard(m, e))
    ensures Truthy(e.company) ==> IsInfix("<br />" + e.company.value, ProfessionalCard(m, e))
    ensures Truthy(e.email) ==> IsInfix("<br />📧 " + e.email.value, ProfessionalCard(m, e))
    ensures Truthy(e.phone) ==> IsInfix("<br />📞 " + e.phone.value, ProfessionalCard(m, e))
    ensures Truthy(e.linkedin) ==> IsInfix(LinkedinLine(e.linkedin), ProfessionalCard(m, e))
    ensures Truthy(e.note) ==> IsInfix("<p class=\"text-sm text-gray-600 mt-1\">" + e.note.value + "</p>", ProfessionalCard(m, e))
  {
    var parts := ProfessionalCardParts(m, e);
    ConcatHas(parts, 1); ConcatHas(parts, 3); ConcatHas(parts, 5); ConcatHas(parts, 7);
    ConcatHas(parts, 9); ConcatHas(parts, 11); ConcatHas(parts, 13);
  }

  /** Falsy fields leave no trace: the card is the same as with the field
      missing. */
  lemma ProfessionalCardOmits(m: Markup, e: Reference)
    ensures !Truthy(e.title) ==> ProfessionalCard(m, e) == ProfessionalCard(m, e.(title := None))
    ensures !Truthy(e.company) ==> ProfessionalCard(m, e) == ProfessionalCard(m, e.(company := None))
    ensures !Truthy(e.email) ==> ProfessionalCard(m, e) == ProfessionalCard(m, e.(email := None))
    ensures !Truthy(e.phone) ==> ProfessionalCard(m, e) == ProfessionalCard(m, e.(phone := None))
    ensures !Truthy(e.linkedin) ==> ProfessionalCard(m, e) == ProfessionalCard(m, e.(linkedin := None))
    ensures !Truthy(e.note) ==> ProfessionalCard(m, e) == ProfessionalCard(m, e.(note := None))
  {
  }

  /** An academic card shows the name in bold and each truthy field. */
  lemma AcademicCardShows(m: Markup, e: Reference)
    ensures IsInfix(StrongName(Interpolate(e.name)), AcademicCard(m, e))
    ensures Truthy(e.title) ==> IsInfix("<br />" + e.title.value, AcademicCard(m, e))
    ensures Truthy(e.institution) ==> IsInfix("<br />" + e.institution.value, AcademicCard(m, e))
    ensures Truthy(e.email) ==> IsInfix("<br />📧 " + e.email.value, AcademicCard(m, e))
    ensures Truthy(e.phone) ==> IsInfix("<br />📞 " + e.phone.value, AcademicCard(m, e))
    ensures Truthy(e.note) ==> IsInfix("<p class=\"text-sm text-gray-600 mt-1\">" + e.note.value + "</p>", AcademicCard(m, e))
  {
    var parts := AcademicCardParts(m, e);
    ConcatHas(parts, 1); ConcatHas(parts, 3); ConcatHas(parts, 5); ConcatHas(parts, 7);
    ConcatHas(parts, 9); ConcatHas(parts, 11);
  }

  /** An "available" entry shows its message, or the default text when the
      message is falsy. */
  lemma AvailableShows(m: Markup, e: Reference)
    ensures Truthy(e.message) ==> IsInfix(e.message.value, AvailableParagraph(m, e))
    ensures !Truthy(e.message) ==> AvailableParagraph(m, e) == m.availableLead + m.availableDefault + m.availableEnd
  {
    InfixOfConcat(m.availableLead, OrElse(e.message, m.availableDefault), m.availableEnd);
  }

  /** A "page" or "github" entry shows its link head, its description when
      truthy and, for "github", its star count when truthy. */
  lemma PortfolioEntryShows(m: Markup, e: Reference)
    requires e.kind == "page" || e.kind == "github"
    ensures IsInfix(LinkHead(m, e), PortfolioEntry(m, e))
    ensures Truthy(e.description) ==> IsInfix(" - " + e.description.value, PortfolioEntry(m, e))
    ensures e.kind == "github" && HasStars(e) ==> IsInfix(" (⭐ " + Decimal(e.stars.value) + " stars)", PortfolioEntry(m, e))
  {
    var parts := PortfolioParts(m, e);
    ConcatHas(parts, 1); ConcatHas(parts, 3);
    if e.kind == "github" {
      ConcatHas(parts, 5);
    }
  }

  /** The new-tab rule of portfolio links: a "page" link carries
      `target="_blank"` exactly when its url starts with "http"; a
      "github" link always does. */
  lemma LinkTarget(m: Markup, e: Reference)
    ensures e.kind == "page" && StartsWith(Interpolate(e.url), "http") ==>
              StartsWith(LinkHead(m, e), "<a href=\"" + Interpolate(e.url) + "\" class=\"group\" target=\"_blank\">")
    ensures e.kind == "page" && !StartsWith(Interpolate(e.url), "http") ==>
              StartsWith(LinkHead(m, e), "<a href=\"" + Interpolate(e.url) + "\" class=\"group\" >")
    ensures e.kind == "github" ==>
              StartsWith(LinkHead(m, e), "<a href=\"" + Interpolate(e.url) + "\" class=\"group\" target=\"_blank\">")
  {
    var url := Interpolate(e.url);
    if e.kind == "page" {
      PrefixOfAppend(PageAnchor(url), m.nameBreak + Interpolate(e.name));
      assert LinkHead(m, e) == PageAnchor(url) + (m.nameBreak + Interpolate(e.name));
    } else if e.kind == "github" {
      PrefixOfAppend(NewTabAnchor(url), m.nameBreak + "📂 " + Interpolate(e.name));
      assert LinkHead(m, e) == NewTabAnchor(url) + (m.nameBreak + "📂 " + Interpolate(e.name));
    }
  }

  /** Kinds other than the rendered ones contribute nothing. */
  lemma UnknownKindsSilent(m: Markup, e: Reference)
    ensures e.kind != "person" && e.kind != "available" ==> ProfessionalEntry(m, e) == ""
    ensures e.kind != "person" ==> AcademicEntry(m, e) == ""
    ensures e.kind != "page" && e.kind != "github" ==> PortfolioEntry(m, e) == ""
  {
  }

  /** The section always opens with the REFERENCES heading and ends by
      closing its `div` and `section`. */
  lemma SectionFrame(m: Markup, r: References)
    requires Serialisable(r)
    ensures StartsWith(SectionText(m, r), m.sectionOpen)
    ensures EndsWith(SectionText(m, r), m.sectionClose)
  {
    var s1 := m.sectionOpen + ProfessionalPart(m, r);
    var s2 := s1 + PortfolioPart(m, r);
    var s3 := s2 + AcademicPart(m, r);
    var s4 := s3 + ContactPart(m, r);
    PrefixOfAppend(m.sectionOpen, ProfessionalPart(m, r));
    PrefixExtend(s1, m.sectionOpen, PortfolioPart(m, r));
    PrefixExtend(s2, m.sectionOpen, AcademicPart(m, r));
    PrefixExtend(s3, m.sectionOpen, ContactPart(m, r));
    PrefixExtend(s4, m.sectionOpen, m.sectionClose);
    SuffixOfAppend(s4, m.sectionClose);
  }

  /** The contact paragraph is there unless hidden, and hiding it removes
      exactly that paragraph, just before the closing tags. */
  lemma ContactParagraph(m: Markup, r: References)
    requires Serialisable(r)
    ensures !r.hideContactSection ==> IsInfix(m.contactBlock, SectionText(m, r))
    ensures var shown := SectionText(m, r.(hideContactSection := false));
            var hidden := SectionText(m, r.(hideContactSection := true));
            var n := |hidden| - |m.sectionClose|;
            0 <= n && shown == hidden[..n] + m.contactBlock + hidden[n..]
  {
    var head := m.sectionOpen + ProfessionalPart(m, r) + PortfolioPart(m, r) + AcademicPart(m, r);
    var shown := r.(hideContactSection := false);
    var hidden := r.(hideContactSection := true);
    assert SectionText(m, shown) == head + m.contactBlock + m.sectionClose;
    assert SectionText(m, hidden) == head + m.sectionClose;
    InsertBeforeSuffix(head, m.contactBlock, m.sectionClose);
    if !r.hideContactSection {
      InfixOfConcat(head, m.contactBlock, m.sectionClose);
    }
  }

  /** Category blocks come right after the heading, in the fixed order
      professional, portfolio, academic, each only when its list is
      non-empty; with no non-empty list only the contact paragraph is left
      between heading and closing. */
  lemma CategoryOrder(m: Markup, r: References)
    requires Serialisable(r)
    ensures OccursAt(SectionText(m, r), ProfessionalPart(m, r), |m.sectionOpen|)
    ensures OccursAt(SectionText(m, r), PortfolioPart(m, r), |m.sectionOpen| + |ProfessionalPart(m, r)|)
    ensures OccursAt(SectionText(m, r), AcademicPart(m, r), |m.sectionOpen| + |ProfessionalPart(m, r)| + |PortfolioPart(m, r)|)
    ensures !NonEmpty(r.professional) && !NonEmpty(r.portfolio) && !NonEmpty(r.academic) ==>
              SectionText(m, r) == m.sectionOpen + ContactPart(m, r) + m.sectionClose
  {
    FramedPiecesAt(m.sectionOpen, ProfessionalPart(m, r), PortfolioPart(m, r), AcademicPart(m, r), ContactPart(m, r), m.sectionClose);
  }

  /** An empty list is rendered as a missing one. */
  lemma EmptyCategoriesVanish(m: Markup, r: References)
    requires Serialisable(r)
    ensures SectionText(m, r.(professional := Some([]))) == SectionText(m, r.(professional := None))
    ensures SectionText(m, r.(portfolio := Some([]))) == SectionText(m, r.(portfolio := None))
    ensures SectionText(m, r.(academic := Some([]))) == SectionText(m, r.(academic := None))
  {
  }

  /** The `internal` list is never rendered by the static serialiser. */
  lemma InternalIgnored(m: Markup, r: References, internal: Option<seq<Reference>>)
    requires Serialisable(r)
    ensures SectionText(m, r.(internal := internal)) == SectionText(m, r)
  {
  }

  /** Every entry of a present list appears, rendered, in its block. */
  lemma EntryInBlock(m: Markup, r: References, e: Reference)
    requires Serialisable(r)
    ensures r.professional.Some? && e in r.professional.value ==> IsInfix(ProfessionalEntry(m, e), SectionText(m, r))
    ensures r.portfolio.Some? && e in r.portfolio.value ==> IsInfix(PortfolioEntry(m, e), SectionText(m, r))
    ensures r.academic.Some? && e in r.academic.value ==> IsInfix(AcademicEntry(m, e), SectionText(m, r))
  {
    CategoryOrder(m, r);
    var text := SectionText(m, r);
    if r.professional.Some? && e in r.professional.value {
      var xs := r.professional.value;
      JoinContains(xs, e, x => ProfessionalEntry(m, x));
      InfixWiden(ProfessionalEntry(m, e), ProfessionalEntries(m, xs), m.professionalOpen, m.categoryClose);
      assert OccursAt(text, ProfessionalPart(m, r), |m.sectionOpen|);
      InfixTransitive(ProfessionalEntry(m, e), ProfessionalPart(m, r), text);
    }
    if r.portfolio.Some? && e in r.portfolio.value {
      var xs := r.portfolio.value;
      JoinContains(xs, e, x => PortfolioEntry(m, x));
      InfixWiden(PortfolioEntry(m, e), PortfolioEntries(m, xs), m.portfolioOpen, m.categoryClose);
      assert OccursAt(text, PortfolioPart(m, r), |m.sectionOpen| + |ProfessionalPart(m, r)|);
      InfixTransitive(PortfolioEntry(m, e), PortfolioPart(m, r), text);
    }
    if r.academic.Some? && e in r.academic.value {
      var xs := r.academic.value;
      JoinContains(xs, e, x => AcademicEntry(m, x));
      InfixWiden(AcademicEntry(m, e), AcademicEntries(m, xs), m.academicOpen, m.categoryClose);
      assert OccursAt(text, AcademicPart(m, r), |m.sectionOpen| + |ProfessionalPart(m, r)| + |PortfolioPart(m, r)|);
      InfixTransitive(AcademicEntry(m, e), AcademicPart(m, r), text);
    }
  }

  /** Every "person" of the professional or academic list appears, with its
      name in bold, in the section. */
  lemma PersonListed(m: Markup, r: References, e: Reference)
    requires Serialisable(r)
    requires e.kind == "person"
    requires (r.professional.Some? && e in r.professional.value) || (r.academic.Some? && e in r.academic.value)
    ensures IsInfix(StrongName(Interpolate(e.name)), SectionText(m, r))
  {
    EntryInBlock(m, r, e);
    if r.professional.Some? && e in r.professional.value {
      ProfessionalCardShows(m, e);
      InfixTransitive(StrongName(Interpolate(e.name)), ProfessionalEntry(m, e), SectionText(m, r));
    } else {
      AcademicCardShows(m, e);
      InfixTransitive(StrongName(Interpolate(e.name)), AcademicEntry(m, e), SectionText(m, r));
    }
  }

  /** Every "page" and "github" entry of the portfolio appears as a link in
      the section. */
  lemma LinkListed(m: Markup, r: References, e: Reference)
    requires Serialisable(r)
    requires r.portfolio.Some? && e in r.portfolio.value
    requires e.kind == "page" || e.kind == "github"
    ensures IsInfix(LinkHead(m, e), SectionText(m, r))
  {
    EntryInBlock(m, r, e);
    PortfolioEntryShows(m, e);
    InfixTransitive(LinkHead(m, e), PortfolioEntry(m, e), SectionText(m, r));
  }
}

=== FILE: rewrite.dfy ===
/**
 * `String.prototype.replace` with a regular expression and a replacement
 * string, in its two forms: the first match only, and every match left to
 * right (the `g` flag). The highlight passes of the generator are built on
 * the second form with the template `EmphasisTemplate`.
 */
module Rewrite {
  import opened Wrappers
  import opened Text
  import opened Pattern
  import opened Substitution

  /** Replaces the text of `m` in `s` by the expansion of `template`. */
  function ReplaceSpan(s: string, m: Span, template: string, captures: seq<string>): (r: string)
    requires m.start <= m.end <= |s|
    ensures StartsWith(r, s[..m.start]) && EndsWith(r, s[m.end..])
  {
    var r := s[..m.start] + Expand(template, s[m.start..m.end], captures, s[..m.start], s[m.end..]) + s[m.end..];
    assert r[..m.start] == s[..m.start];
    assert r[|r| - |s[m.end..]|..] == s[m.end..];
    r
  }

  /** A template without `$` replaces the span by itself. */
  lemma ReplacePlain(s: string, m: Span, t: string)
    requires m.start <= m.end <= |s| && '$' !in t
    ensures ReplaceSpan(s, m, t, []) == s[..m.start] + t + s[m.end..]
  {
    ExpandPlain(t, s[m.start..m.end], [], s[..m.start], s[m.end..]);
  }

  /** `$1` then `b`, with the match as its only capture, inserts `b` right
      after the match. */
  lemma InsertAfterMatch(s: string, m: Span, b: string)
    requires m.start <= m.end <= |s| && '$' !in b
    ensures ReplaceSpan(s, m, "$1" + b, [s[m.start..m.end]]) == s[..m.end] + b + s[m.end..]
  {
    var w := s[m.start..m.end];
    FirstCaptureThen(b, w, [w], s[..m.start], s[m.end..]);
    assert s[..m.start] + w == s[..m.end];
  }

  /** `a` then `$1`, with the match as its only capture, inserts `a` right
      before the match. */
  lemma InsertBeforeMatch(s: string, m: Span, a: string)
    requires m.start <= m.end <= |s| && '$' !in a
    ensures ReplaceSpan(s, m, a + "$1", [s[m.start..m.end]]) == s[..m.start] + a + s[m.start..]
  {
    var w := s[m.start..m.end];
    ExpandPlainPrefix(a, "$1", w, [w], s[..m.start], s[m.end..]);
    FirstCaptureThen("", w, [w], s[..m.start], s[m.end..]);
    assert "$1" + "" == "$1";
    assert w + s[m.end..] == s[m.start..];
  }

  /** The global replacement from index `from` on: each match in turn is
      replaced, the text between matches is copied, and the scan goes on
      (`ReplaceRest`). */
  function ReplaceAllFrom(s: string, from: nat, p: Pattern, ci: bool, template: string, grouped: bool): string
    requires from <= |s|
    decreases |s| - from, 1
  {
    match Search(s, from, p, ci)
    case None => s[from..]
    case Some(m) =>
      var matched := s[m.start..m.end];
      s[from..m.start] + Expand(template, matched, if grouped then [matched] else [], s[..m.start], s[m.end..])
      + ReplaceRest(s, m, p, ci, template, grouped)
  }

  /** What the global replacement writes after the match `m`: the scan from
      the end of the match or, for an empty match, one copied character and
      the scan from the next index. */
  function ReplaceRest(s: string, m: Span, p: Pattern, ci: bool, template: string, grouped: bool): string
    requires m.start <= m.end <= |s|
    decreases |s| - m.start, 0
  {
    if m.end > m.start then ReplaceAllFrom(s, m.end, p, ci, template, grouped)
    else if m.start < |s| then [s[m.start]] + ReplaceAllFrom(s, m.start + 1, p, ci, template, grouped)
    else []
  }

  function ReplaceAll(s: string, p: Pattern, ci: bool, template: string, grouped: bool): string {
    ReplaceAllFrom(s, 0, p, ci, template, grouped)
  }

  /** One step of the global replacement with a `$`-free template: the
      text up to the first match, the template, and the rest. */
  lemma ReplaceAtMatch(s: string, from: nat, m: Span, p: Pattern, ci: bool, template: string, grouped: bool)
    requires from <= |s| && '$' !in template && Search(s, from, p, ci) == Some(m)
    ensures ReplaceAllFrom(s, from, p, ci, template, grouped)
            == s[from..m.start] + template + ReplaceRest(s, m, p, ci, template, grouped)
  {
    var w := s[m.start..m.end];
    ExpandPlain(template, w, if grouped then [w] else [], s[..m.start], s[m.end..]);
  }

  /** Without a match from `from` on, the rest of the text is copied. */
  lemma ReplaceNoMatch(s: string, from: nat, p: Pattern, ci: bool, template: string, grouped: bool)
    requires from <= |s| && Search(s, from, p, ci).None?
    ensures ReplaceAllFrom(s, from, p, ci, template, grouped) == s[from..]
  {
  }

  /** With a `$`-free template, the global replacement inside `y` is the
      same behind any prefix `x`: the scan, the matches and what replaces
      them do not depend on the text before. */
  lemma {:induction false} ReplaceShift(x: string, y: string, i: nat, p: Pattern, ci: bool, template: string, grouped: bool)
    requires i <= |y| && '$' !in template
    ensures ReplaceAllFrom(x + y, |x| + i, p, ci, template, grouped) == ReplaceAllFrom(y, i, p, ci, template, grouped)
    decreases |y| - i, 2
  {
    SearchShift(x, y, i, p, ci);
    if Search(y, i, p, ci).None? {
      ReplaceNoMatch(x + y, |x| + i, p, ci, template, grouped);
      ReplaceNoMatch(y, i, p, ci, template, grouped);
      assert (x + y)[|x| + i..] == y[i..];
    } else {
      MatchedShift(x, y, i, p, ci, template, grouped);
    }
  }

  /** `ReplaceShift` when there is a match inside `y`. */
  lemma {:induction false} MatchedShift(x: string, y: string, i: nat, p: Pattern, ci: bool, template: string, grouped: bool)
    requires i <= |y| && '$' !in template && Search(y, i, p, ci).Some?
    ensures ReplaceAllFrom(x + y, |x| + i, p, ci, template, grouped) == ReplaceAllFrom(y, i, p, ci, template, grouped)
    decreases |y| - i, 1
  {
    var m := Search(y, i, p, ci).value;
    ShiftedStep(x, y, i, m, p, ci, template, grouped);
    ReplaceAtMatch(y, i, m, p, ci, template, grouped);
    RestShift(x, y, m, p, ci, template, grouped);
  }

  /** The first step of the replacement behind `x`, in terms of `y`. */
  lemma ShiftedStep(x: string, y: string, i: nat, m: Span, p: Pattern, ci: bool, template: string, grouped: bool)
    requires i <= |y| && '$' !in template && Search(y, i, p, ci) == Some(m)
    ensures ReplaceAllFrom(x + y, |x| + i, p, ci, template, grouped)
            == y[i..m.start] + template + ReplaceRest(x + y, Span(|x| + m.start, |x| + m.end), p, ci, template, grouped)
  {
    SearchShifted(x, y, i, p, ci, m);
    SliceShift(x, y, i, m.start);
    ReplaceAtSlice(x + y, |x| + i, Span(|x| + m.start, |x| + m.end), y[i..m.start], p, ci, template, grouped);
  }

  /** `ReplaceAtMatch` with the copied text given as `u`. */
  lemma ReplaceAtSlice(s: string, from: nat, m: Span, u: string, p: Pattern, ci: bool, template: string, grouped: bool)
    requires from <= |s| && '$' !in template && Search(s, from, p, ci) == Some(m)
    requires s[from..m.start] == u
    ensures ReplaceAllFrom(s, from, p, ci, template, grouped) == u + template + ReplaceRest(s, m, p, ci, template, grouped)
  {
    ReplaceAtMatch(s, from, m, p, ci, template, grouped);
  }

  /** The rest of the scan after a match inside `y` is the same behind any
      prefix. */
  lemma {:induction false} RestShift(x: string, y: string, m: Span, p: Pattern, ci: bool, template: string, grouped: bool)
    requires m.start <= m.end <= |y| && '$' !in template
    ensures ReplaceRest(x + y, Span(|x| + m.start, |x| + m.end), p, ci, template, grouped)
            == ReplaceRest(y, m, p, ci, template, grouped)
    decreases |y| - m.start, 0
  {
    if m.end > m.start {
      RestAfterMatch(x + y, Span(|x| + m.start, |x| + m.end), p, ci, template, grouped);
      RestAfterMatch(y, m, p, ci, template, grouped);
      ReplaceShift(x, y, m.end, p, ci, template, grouped);
    } else if m.start < |y| {
      RestAfterEmpty(x + y, Span(|x| + m.start, |x| + m.end), p, ci, template, grouped);
      RestAfterEmpty(y, m, p, ci, template, grouped);
      assert (x + y)[|x| + m.start] == y[m.start];
      ReplaceShift(x, y, m.start + 1, p, ci, template, grouped);
    }
  }

  /** After a non-empty match, the scan resumes at its end. */
  lemma RestAfterMatch(s: string, m: Span, p: Pattern, ci: bool, template: string, grouped: bool)
    requires m.start < m.end <= |s|
    ensures ReplaceRest(s, m, p, ci, template, grouped) == ReplaceAllFrom(s, m.end, p, ci, template, grouped)
  {
  }

  /** After an empty match, one character is copied and the scan resumes
      at the next index. */
  lemma RestAfterEmpty(s: string, m: Span, p: Pattern, ci: bool, template: string, grouped: bool)
    requires m.start == m.end < |s|
    ensures ReplaceRest(s, m, p, ci, template, grouped) == [s[m.start]] + ReplaceAllFrom(s, m.start + 1, p, ci, template, grouped)
  {
  }

  /** Text before the first position where `p` matches is copied as it
      is. */
  lemma ReplaceSkip(s: string, from: nat, k: nat, p: Pattern, ci: bool, template: string, grouped: bool)
    requires from <= k <= |s|
    requires forall j :: from <= j < k ==> MatchAt(s, j, p, ci).None?
    ensures ReplaceAllFrom(s, from, p, ci, template, grouped) == s[from..k] + ReplaceAllFrom(s, k, p, ci, template, grouped)
  {
    SearchSkip(s, from, k, p, ci);
    if Search(s, k, p, ci).None? {
      ReplaceNoMatch(s, from, p, ci, template, grouped);
      ReplaceNoMatch(s, k, p, ci, template, grouped);
      assert s[from..] == s[from..k] + s[k..];
    } else {
      var m := Search(s, k, p, ci).value;
      SkipBeforeMatch(s, from, k, m, p, ci, template, grouped);
    }
  }

  /** `ReplaceSkip` when there is a match after `k`. */
  lemma SkipBeforeMatch(s: string, from: nat, k: nat, m: Span, p: Pattern, ci: bool, template: string, grouped: bool)
    requires from <= k <= m.start <= m.end <= |s|
    requires Search(s, from, p, ci) == Some(m) && Search(s, k, p, ci) == Some(m)
    ensures ReplaceAllFrom(s, from, p, ci, template, grouped) == s[from..k] + ReplaceAllFrom(s, k, p, ci, template, grouped)
  {
    var w := s[m.start..m.end];
    var e := Expand(template, w, if grouped then [w] else [], s[..m.start], s[m.end..]);
    var rest := ReplaceRest(s, m, p, ci, template, grouped);
    assert ReplaceAllFrom(s, from, p, ci, template, grouped) == s[from..m.start] + e + rest;
    assert ReplaceAllFrom(s, k, p, ci, template, grouped) == s[k..m.start] + e + rest;
    assert s[from..m.start] == s[from..k] + s[k..m.start];
    SplitHead(s[from..k], s[k..m.start], e, rest);
  }

  /** A prefix where `p` never starts a match passes through the global
      replacement unchanged. */
  lemma ReplacePrefixKept(x: string, y: string, p: Pattern, ci: bool, template: string, grouped: bool)
    requires '$' !in template
    requires forall j :: 0 <= j < |x| ==> MatchAt(x + y, j, p, ci).None?
    ensures ReplaceAll(x + y, p, ci, template, grouped) == x + ReplaceAll(y, p, ci, template, grouped)
  {
    ReplaceSkip(x + y, 0, |x|, p, ci, template, grouped);
    ReplaceShift(x, y, 0, p, ci, template, grouped);
    assert (x + y)[0..|x|] == x;
  }

  /** A non-empty match at index `from` is replaced by the `$`-free
      template, and the scan goes on after it. */
  lemma ReplaceMatchAt(s: string, from: nat, e: nat, p: Pattern, ci: bool, template: string, grouped: bool)
    requires '$' !in template && from < e <= |s|
    requires MatchAt(s, from, p, ci) == Some(e)
    ensures ReplaceAllFrom(s, from, p, ci, template, grouped) == template + ReplaceAllFrom(s, e, p, ci, template, grouped)
  {
    var m := Span(from, e);
    assert Search(s, from, p, ci) == Some(m);
    ReplaceAtMatch(s, from, m, p, ci, template, grouped);
    assert s[from..from] == [];
  }

  /** A non-empty match at the very start is replaced by the `$`-free
      template, and the replacement goes on in the rest. */
  lemma ReplaceLeadingMatch(x: string, y: string, p: Pattern, ci: bool, template: string, grouped: bool)
    requires '$' !in template && x != []
    requires MatchAt(x + y, 0, p, ci) == Some(|x|)
    ensures ReplaceAll(x + y, p, ci, template, grouped) == template + ReplaceAll(y, p, ci, template, grouped)
  {
    ReplaceMatchAt(x + y, 0, |x|, p, ci, template, grouped);
    ReplaceShift(x, y, 0, p, ci, template, grouped);
    assert |x| + 0 == |x|;
  }

  const EmphasisOpen := "<strong class=\"text-terminal-yellow\">"
  const EmphasisClose := "</strong>"

  /** The replacement string of both highlight passes: the matched text
      (capture group 1) inside the yellow emphasis tag. */
  const EmphasisTemplate := EmphasisOpen + "$1" + EmphasisClose

  /** The text `w` as a highlight pass writes it. */
  function Emphasized(w: string): string {
    EmphasisOpen + w + EmphasisClose
  }

  /** `s.replace(new RegExp(`(${term})`, "gi"), EmphasisTemplate)`. */
  function EmphasizeAll(s: string, term: string): string {
    ReplaceAll(s, TermPattern(term), true, EmphasisTemplate, true)
  }

  /** The highlight template is the wrapper around capture group 1. */
  lemma EmphasisTemplateParts()
    ensures EmphasisTemplate == EmphasisOpen + "$1" + EmphasisClose
    ensures '$' !in EmphasisOpen && '$' !in EmphasisClose && EmphasisOpen != []
  {
  }

  /** Where the pattern does not occur from `from` on, the rest is copied. */
  lemma EmphasizeNoMatch(s: string, from: nat, p: Pattern)
    requires from <= |s|
    requires forall k :: from <= k <= |s| ==> MatchAt(s, k, p, true).None?
    ensures ReplaceAllFrom(s, from, p, true, EmphasisTemplate, true) == s[from..]
  {
    SearchLeftmost(s, from, p, true);
  }

  /** The template `a$1b` with the match as its only capture wraps the
      match in `a` and `b`. */
  lemma WrapExpand(a: string, b: string, w: string, before: string, after: string)
    requires '$' !in a && '$' !in b
    ensures Expand(a + "$1" + b, w, [w], before, after) == a + w + b
  {
    ExpandPlainPrefix(a, "$1" + b, w, [w], before, after);
    FirstCaptureThen(b, w, [w], before, after);
    assert a + "$1" + b == a + ("$1" + b);
  }

  /** With a template `a$1b`, the first match from `from` on is wrapped in
      `a` and `b` with its own characters (so their case is kept), the text
      before it is copied, and the scan goes on after it. */
  lemma WrapFirst(s: string, from: nat, p: Pattern, a: string, b: string, m: Span)
    requires from <= |s| && '$' !in a && '$' !in b
    requires Search(s, from, p, true) == Some(m)
    ensures m.end <= |s|
    ensures ReplaceAllFrom(s, from, p, true, a + "$1" + b, true)
            == s[from..m.start] + (a + s[m.start..m.end] + b) + ReplaceRest(s, m, p, true, a + "$1" + b, true)
  {
    WrapExpand(a, b, s[m.start..m.end], s[..m.start], s[m.end..]);
  }

  /** A wrapping pass never shortens the text, and lengthens it as soon as
      there is a match to wrap. */
  lemma {:induction false} WrapGrows(s: string, from: nat, p: Pattern, a: string, b: string)
    requires from <= |s| && '$' !in a && '$' !in b && a != []
    ensures |ReplaceAllFrom(s, from, p, true, a + "$1" + b, true)| >= |s| - from
    ensures Search(s, from, p, true).Some? ==> |ReplaceAllFrom(s, from, p, true, a + "$1" + b, true)| > |s| - from
    decreases |s| - from, 1
  {
    match Search(s, from, p, true)
    case None =>
    case Some(m) =>
      WrapFirst(s, from, p, a, b, m);
      WrapRestGrows(s, m, p, a, b);
  }

  /** What a wrapping pass writes after a match is at least as long as the
      text after it. */
  lemma {:induction false} WrapRestGrows(s: string, m: Span, p: Pattern, a: string, b: string)
    requires m.start <= m.end <= |s| && '$' !in a && '$' !in b && a != []
    ensures |ReplaceRest(s, m, p, true, a + "$1" + b, true)| >= |s| - m.end
    decreases |s| - m.start, 0
  {
    if m.end > m.start {
      WrapGrows(s, m.end, p, a, b);
    } else if m.start < |s| {
      WrapGrows(s, m.start + 1, p, a, b);
    }
  }

  /** Wrapping every occurrence of a non-empty term twice differs from
      wrapping once, as soon as the term occurs. */
  lemma WrapTwiceDiffers(s: string, term: string, a: string, b: string)
    requires term != [] && '$' !in a && '$' !in b && a != []
    requires Search(s, 0, TermPattern(term), true).Some?
    ensures ReplaceAll(ReplaceAll(s, TermPattern(term), true, a + "$1" + b, true), TermPattern(term), true, a + "$1" + b, true)
            != ReplaceAll(s, TermPattern(term), true, a + "$1" + b, true)
  {
    var p := TermPattern(term);
    var m := Search(s, 0, p, true).value;
    var r := ReplaceAll(s, p, true, a + "$1" + b, true);
    SearchLeftmost(s, 0, p, true);
    TermMatch(s, m.start, term, true);
    WrapFirst(s, 0, p, a, b, m);
    var w := s[m.start..m.end];
    WrappedAt(s[0..m.start], a, w, b, ReplaceRest(s, m, p, true, a + "$1" + b, true));
    var at := m.start + |a|;
    assert r[at..at + |term|] == w;
    TermMatch(r, at, term, true);
    SearchLeftmost(r, 0, p, true);
    WrapGrows(r, 0, p, a, b);
  }

  /** A highlight pass never shortens the text, and lengthens it when the
      term occurs. */
  lemma EmphasizeGrows(s: string, term: string)
    ensures |EmphasizeAll(s, term)| >= |s|
    ensures Search(s, 0, TermPattern(term), true).Some? ==> |EmphasizeAll(s, term)| > |s|
  {
    EmphasisTemplateParts();
    WrapGrows(s, 0, TermPattern(term), EmphasisOpen, EmphasisClose);
  }

  /** Emphasis is not idempotent: when a non-empty term occurs, a second pass
      wraps the already wrapped text again. */
  lemma EmphasizeTwiceDiffers(s: string, term: string)
    requires term != []
    requires Search(s, 0, TermPattern(term), true).Some?
    ensures EmphasizeAll(EmphasizeAll(s, term), term) != EmphasizeAll(s, term)
  {
    EmphasisTemplateParts();
    WrapTwiceDiffers(s, term, EmphasisOpen, EmphasisClose);
  }
}

=== FILE: substitution.dfy ===
/**
 * The replacement-string rules of JavaScript's `String.prototype.replace`
 * when the replacement is a string (GetSubstitution, section 22.1.3.19.1 of
 * ECMA-262): `$$`, `$&`, `` $` ``, `$'`, `$n` and `$nn`. The generator passes
 * user text (company names, skill lists, the generated references section)
 * as replacement strings, so any `$` in that text goes through these rules.
 */
module Substitution {
  import opened Text

  /** Expands `template` for one match: `matched` is the matched text,
      `captures` the capture groups, `before`/`after` the text around the
      match. */
  function Expand(template: string, matched: string, captures: seq<string>, before: string, after: string): string
    decreases |template|
  {
    if template == [] then ""
    else if template[0] != '$' || |template| == 1 then
      [template[0]] + Expand(template[1..], matched, captures, before, after)
    else
      var c := template[1];
      if c == '$' then "$" + Expand(template[2..], matched, captures, before, after)
      else if c == '&' then matched + Expand(template[2..], matched, captures, before, after)
      else if c == '`' then before + Expand(template[2..], matched, captures, before, after)
      else if c == '\'' then after + Expand(template[2..], matched, captures, before, after)
      else if IsDigit(c) && |template| >= 3 && IsDigit(template[2])
              && 1 <= 10 * DigitValue(c) + DigitValue(template[2]) <= |captures| then
        captures[10 * DigitValue(c) + DigitValue(template[2]) - 1]
        + Expand(template[3..], matched, captures, before, after)
      else if IsDigit(c) && 1 <= DigitValue(c) <= |captures| then
        captures[DigitValue(c) - 1] + Expand(template[2..], matched, captures, before, after)
      else
        "$" + Expand(template[1..], matched, captures, before, after)
  }

  /** Text without `$` is inserted as it is. */
  lemma {:induction false} ExpandPlain(t: string, matched: string, captures: seq<string>, before: string, after: string)
    requires '$' !in t
    ensures Expand(t, matched, captures, before, after) == t
    decreases |t|
  {
    if t != [] {
      assert t[0] != '$';
      assert '$' !in t[1..] by {
        forall k | 0 <= k < |t[1..]| ensures t[1..][k] != '$' {
          assert t[1..][k] == t[k + 1];
        }
      }
      ExpandPlain(t[1..], matched, captures, before, after);
    }
  }

  /** A `$`-free prefix of the template passes through unchanged and the
      rest is expanded on its own. */
  lemma {:induction false} ExpandPlainPrefix(a: string, b: string, matched: string, captures: seq<string>, before: string, after: string)
    requires '$' !in a
    ensures Expand(a + b, matched, captures, before, after) == a + Expand(b, matched, captures, before, after)
    decreases |a|
  {
    if a == [] {
      assert a + b == b;
    } else {
      assert (a + b)[0] == a[0] && (a + b)[1..] == a[1..] + b;
      assert '$' !in a[1..] by {
        forall k | 0 <= k < |a[1..]| ensures a[1..][k] != '$' {
          assert a[1..][k] == a[k + 1];
        }
      }
      var rest := Expand(b, matched, captures, before, after);
      calc {
        Expand(a + b, matched, captures, before, after);
        [a[0]] + Expand(a[1..] + b, matched, captures, before, after);
        { ExpandPlainPrefix(a[1..], b, matched, captures, before, after); }
        [a[0]] + (a[1..] + rest);
        { assert [a[0]] + a[1..] == a; }
        a + rest;
      }
    }
  }

  /** `$1` followed by text without `$` gives the first capture followed by
      that text. */
  lemma FirstCaptureThen(b: string, matched: string, captures: seq<string>, before: string, after: string)
    requires |captures| == 1 && '$' !in b
    ensures Expand("$1" + b, matched, captures, before, after) == captures[0] + b
  {
    var t := "$1" + b;
    assert t[0] == '$' && t[1] == '1' && t[2..] == b;
    if |t| >= 3 {
      assert t[2] == b[0];
      assert IsDigit(t[2]) ==> 10 * DigitValue('1') + DigitValue(t[2]) >= 10;
    }
    ExpandPlain(b, matched, captures, before, after);
  }
}

=== FILE: text.dfy ===
/**
 * Strings as JavaScript sees them in the generator: truthiness of optional
 * fields, `${x}` interpolation, whitespace as matched by `\s`, ASCII case
 * folding for the `i` regular-expression flag, and a small theory of
 * occurrences (infixes, prefixes, suffixes) used by every other module.
 */
module Text {
  import opened Wrappers

  /** A JavaScript string in a boolean context: absent or "" is falsy. */
  predicate Truthy(o: Option<string>) {
    o.Some? && o.value != ""
  }

  /** `a || b` where `a` is an optional string and `b` a string. */
  function OrElse(o: Option<string>, default: string): (r: string)
    ensures Truthy(o) ==> r == o.value
    ensures !Truthy(o) ==> r == default
  {
    if Truthy(o) then o.value else default
  }

  /** `${x}` of an optional string: a missing value prints as "undefined". */
  function Interpolate(o: Option<string>): (r: string)
    ensures o.Some? ==> r == o.value
    ensures o.None? ==> r == "undefined"
  {
    match o
    case Some(s) => s
    case None => "undefined"
  }

  /** Decimal text of a natural number, as `${n}` prints it: the digits
      spell `n`, with no leading zero. */
  function Decimal(n: nat): (r: string)
    ensures |r| >= 1
    ensures forall k :: 0 <= k < |r| ==> IsDigit(r[k])
    ensures DecimalValue(r) == n
    ensures |r| > 1 ==> r[0] != '0'
    decreases n
  {
    if n < 10 then [DigitChar(n)]
    else
      var r := Decimal(n / 10) + [DigitChar(n % 10)];
      assert r[..|r| - 1] == Decimal(n / 10);
      r
  }

  function DigitChar(d: nat): (c: char)
    requires d < 10
    ensures IsDigit(c) && DigitValue(c) == d
  {
    ('0' as int + d) as char
  }

  predicate IsDigit(c: char) {
    '0' <= c <= '9'
  }

  function DigitValue(c: char): (d: nat)
    requires IsDigit(c)
    ensures d < 10
  {
    (c as int - '0' as int) as nat
  }

  /** The number a string of decimal digits denotes, most significant
      digit first. */
  function DecimalValue(r: string): nat
    requires forall k :: 0 <= k < |r| ==> IsDigit(r[k])
  {
    if r == [] then 0 else 10 * DecimalValue(r[..|r| - 1]) + DigitValue(r[|r| - 1])
  }

  /** The characters JavaScript's `\s` class matches. */
  predicate IsSpace(c: char) {
    c == ' ' || c == '\t' || c == '\n' || c == '\r' || c == '\U{000B}' || c == '\U{000C}'
    || c == '\U{00A0}' || c == '\U{1680}' || ('\U{2000}' <= c <= '\U{200A}')
    || c == '\U{2028}' || c == '\U{2029}' || c == '\U{202F}' || c == '\U{205F}'
    || c == '\U{3000}' || c == '\U{FEFF}'
  }

  /** The characters a regular-expression `.` does not match. */
  predicate IsLineTerminator(c: char) {
    c == '\n' || c == '\r' || c == '\U{2028}' || c == '\U{2029}'
  }

  /** ASCII case folding, the model of the `i` flag. */
  function FoldCase(c: char): (d: char)
    ensures !('A' <= d <= 'Z')
    ensures !('A' <= c <= 'Z') ==> d == c
  {
    if 'A' <= c <= 'Z' then (c as int + 32) as char else c
  }

  /** Character equality, case-insensitive when `ci` holds. */
  predicate SameChar(a: char, b: char, ci: bool) {
    if ci then FoldCase(a) == FoldCase(b) else a == b
  }

  /** `a` and `b` agree character by character under `SameChar`. */
  predicate SameText(a: string, b: string, ci: bool) {
    |a| == |b| && forall k :: 0 <= k < |a| ==> SameChar(a[k], b[k], ci)
  }

  /** `r` is `s[i..j]`, and `s` holds only white space before `i` and from
      `j` on. */
  predicate SliceBetweenSpaces(s: string, r: string, i: int, j: int) {
    0 <= i <= j <= |s| && r == s[i..j]
    && (forall k :: 0 <= k < i ==> IsSpace(s[k]))
    && (forall k :: j <= k < |s| ==> IsSpace(s[k]))
  }

  /** JavaScript `String.prototype.trim`: the slice of `s` left once the
      whitespace at both ends is removed. */
  function Trim(s: string): (r: string)
    ensures |r| <= |s|
    ensures r != [] ==> !IsSpace(r[0]) && !IsSpace(r[|r| - 1])
    ensures exists i, j :: SliceBetweenSpaces(s, r, i, j)
  {
    var t := TrimStart(s);
    TrimEnds(t, TrimEnd(t));
    TrimBounds(s, t, TrimEnd(t), |s| - |t|);
    TrimEnd(t)
  }

  /** A prefix `r` of `t` that keeps its first character and ends in no
      white space has white space at neither end. */
  lemma TrimEnds(t: string, r: string)
    requires |r| <= |t| && r == t[..|r|]
    requires t != [] ==> !IsSpace(t[0])
    requires r != [] ==> !IsSpace(r[|r| - 1])
    ensures r != [] ==> !IsSpace(r[0]) && !IsSpace(r[|r| - 1])
  {
    if r != [] {
      assert r[0] == t[0];
    }
  }

  /** `r`, the end-trimmed suffix `t` of `s` from `i`, lies between two runs
      of whitespace. */
  lemma TrimBounds(s: string, t: string, r: string, i: nat)
    requires i <= |s| && t == s[i..] && |r| <= |t| && r == t[..|r|]
    requires forall k :: 0 <= k < i ==> IsSpace(s[k])
    requires forall k :: |r| <= k < |t| ==> IsSpace(t[k])
    ensures SliceBetweenSpaces(s, r, i, i + |r|)
  {
    var j := i + |r|;
    assert r == s[i..j];
    forall k | j <= k < |s|
      ensures IsSpace(s[k])
    {
      assert s[k] == t[k - i];
    }
  }

  /** The whitespace at the start of `s` removed. */
  function TrimStart(s: string): (r: string)
    ensures |r| <= |s| && (r != [] ==> !IsSpace(r[0]))
    ensures r == s[|s| - |r|..]
    ensures forall k :: 0 <= k < |s| - |r| ==> IsSpace(s[k])
  {
    if s != [] && IsSpace(s[0]) then
      var r := TrimStart(s[1..]);
      assert s[1..][|s| - 1 - |r|..] == s[|s| - |r|..];
      assert forall k :: 1 <= k < |s| - |r| ==> s[k] == s[1..][k - 1];
      r
    else s
  }

  /** The whitespace at the end of `s` removed. */
  function TrimEnd(s: string): (r: string)
    ensures |r| <= |s| && (r != [] ==> !IsSpace(r[|r| - 1]))
    ensures r == s[..|r|]
    ensures forall k :: |r| <= k < |s| ==> IsSpace(s[k])
  {
    if s != [] && IsSpace(s[|s| - 1]) then TrimEnd(s[..|s| - 1]) else s
  }

  predicate StartsWith(s: string, prefix: string) {
    |prefix| <= |s| && s[..|prefix|] == prefix
  }

  predicate EndsWith(s: string, suffix: string) {
    |suffix| <= |s| && s[|s| - |suffix|..] == suffix
  }

  /** `p` occurs in `s` starting at index `i`. */
  predicate OccursAt(s: string, p: string, i: int) {
    0 <= i && i + |p| <= |s| && s[i..i + |p|] == p
  }

  predicate IsInfix(p: string, s: string) {
    exists i :: 0 <= i <= |s| - |p| && OccursAt(s, p, i)
  }

  lemma InfixOfConcat(a: string, p: string, b: string)
    ensures OccursAt(a + p + b, p, |a|)
    ensures IsInfix(p, a + p + b)
  {
    assert (a + p + b)[|a|..|a| + |p|] == p;
    assert OccursAt(a + p + b, p, |a|);
  }

  lemma InfixWiden(p: string, s: string, a: string, b: string)
    requires IsInfix(p, s)
    ensures IsInfix(p, a + s + b)
  {
    var i :| 0 <= i <= |s| - |p| && OccursAt(s, p, i);
    assert s[i..i + |p|] == p;
    assert (a + s + b)[|a| + i..|a| + i + |p|] == s[i..i + |p|];
    assert OccursAt(a + s + b, p, |a| + i);
  }

  /** A slice of `y` is the same slice, shifted, of `x + y`. */
  lemma SliceShift(x: string, y: string, i: nat, j: nat)
    requires i <= j <= |y|
    ensures (x + y)[|x| + i..|x| + j] == y[i..j]
  {
  }

  /** Splitting the head of a concatenation of three. */
  lemma SplitHead(a: string, b: string, e: string, r: string)
    ensures (a + b) + e + r == a + (b + e + r)
  {
  }

  /** The second and third of four pieces, and whatever lies in the third,
      are infixes of the whole. */
  lemma InfixOfFour(a: string, b: string, c: string, d: string)
    ensures IsInfix(b, a + b + c + d)
  {
    InfixOfConcat(a, b, c + d);
    assert a + b + (c + d) == a + b + c + d;
  }

  lemma InfixInThird(x: string, a: string, b: string, c: string, d: string)
    requires IsInfix(x, c)
    ensures IsInfix(x, a + b + c + d)
  {
    InfixWiden(x, c, a + b, d);
  }

  /** A text ends with its last piece. */
  lemma OccursAtEnd(a: string, m: string)
    ensures OccursAt(a + m, m, |a|)
  {
    assert (a + m)[|a|..|a| + |m|] == m;
  }

  /** An occurrence survives appending text after it. */
  lemma OccursExtend(s: string, p: string, i: int, t: string)
    requires OccursAt(s, p, i)
    ensures OccursAt(s + t, p, i)
  {
    assert (s + t)[i..i + |p|] == s[i..i + |p|];
  }

  /** An infix survives appending text on either side. */
  lemma InfixAppend(p: string, s: string, t: string)
    requires IsInfix(p, s)
    ensures IsInfix(p, s + t) && IsInfix(p, t + s)
  {
    var i :| 0 <= i <= |s| - |p| && OccursAt(s, p, i);
    OccursExtend(s, p, i, t);
    assert (t + s)[|t| + i..|t| + i + |p|] == s[i..i + |p|];
    assert OccursAt(t + s, p, |t| + i);
  }

  /** A text is a prefix of itself with anything after it. */
  lemma PrefixOfAppend(a: string, b: string)
    ensures StartsWith(a + b, a)
  {
    assert (a + b)[..|a|] == a;
  }

  /** Where the middle pieces of a five-piece text start. */
  lemma PiecesAt(a: string, b: string, c: string, d: string, e: string)
    ensures OccursAt(a + b + c + d + e, b, |a|)
    ensures OccursAt(a + b + c + d + e, c, |a| + |b|)
    ensures OccursAt(a + b + c + d + e, d, |a| + |b| + |c|)
  {
    var s := a + b + c + d + e;
    assert s[|a|..|a| + |b|] == b;
    assert s[|a| + |b|..|a| + |b| + |c|] == c;
    assert s[|a| + |b| + |c|..|a| + |b| + |c| + |d|] == d;
  }

  /** The same, with one more piece after the last. */
  lemma FramedPiecesAt(a: string, b: string, c: string, d: string, e: string, f: string)
    ensures OccursAt(a + b + c + d + e + f, b, |a|)
    ensures OccursAt(a + b + c + d + e + f, c, |a| + |b|)
    ensures OccursAt(a + b + c + d + e + f, d, |a| + |b| + |c|)
  {
    PiecesAt(a, b, c, d, e);
    OccursExtend(a + b + c + d + e, b, |a|, f);
    OccursExtend(a + b + c + d + e, c, |a| + |b|, f);
    OccursExtend(a + b + c + d + e, d, |a| + |b| + |c|, f);
  }

  /** Where the wrapped piece of `x + (a + w + b) + y` starts. */
  lemma WrappedAt(x: string, a: string, w: string, b: string, y: string)
    ensures OccursAt(x + (a + w + b) + y, w, |x| + |a|)
  {
    var s := x + (a + w + b) + y;
    assert s[|x| + |a|..|x| + |a| + |w|] == w;
  }

  /** Both middle pieces of a five-piece text occur in it. */
  lemma TwoInfixes(a: string, x: string, b: string, y: string, c: string)
    ensures IsInfix(x, a + x + b + y + c)
    ensures IsInfix(y, a + x + b + y + c)
  {
    InfixOfConcat(a, x, b + y + c);
    assert a + x + (b + y + c) == a + x + b + y + c;
    InfixOfConcat(a + x + b, y, c);
  }

  /** A prefix survives appending text after it. */
  lemma PrefixExtend(s: string, p: string, t: string)
    requires StartsWith(s, p)
    ensures StartsWith(s + t, p)
  {
    assert (s + t)[..|p|] == s[..|p|];
  }

  /** A text is a suffix of itself with anything before it. */
  lemma SuffixOfAppend(a: string, b: string)
    ensures EndsWith(a + b, b)
  {
    assert (a + b)[|a|..] == b;
  }

  /** Inserting `x` into `h + t` just before the suffix `t`. */
  lemma InsertBeforeSuffix(h: string, x: string, t: string)
    ensures var s := h + t; var n := |s| - |t|;
            0 <= n && s[..n] + x + s[n..] == h + x + t
  {
    var s := h + t;
    assert s[..|h|] == h && s[|h|..] == t;
  }

  lemma InfixTransitive(p: string, q: string, s: string)
    requires IsInfix(p, q) && IsInfix(q, s)
    ensures IsInfix(p, s)
  {
    var i :| 0 <= i <= |q| - |p| && OccursAt(q, p, i);
    var j :| 0 <= j <= |s| - |q| && OccursAt(s, q, j);
    assert q[i..i + |p|] == p && s[j..j + |q|] == q;
    forall k | 0 <= k < |p|
      ensures s[j + i + k] == p[k]
    {
      assert s[j + i + k] == s[j..j + |q|][i + k] == q[i + k];
    }
    assert s[j + i..j + i + |p|] == p;
    assert OccursAt(s, p, j + i);
  }

  /** The concatenation of `f(x)` over `xs`, in order: the `forEach` with
      `html +=` that every builder of the generator runs. */
  function Join<T>(xs: seq<T>, f: T -> string): string
    decreases |xs|
  {
    if xs == [] then "" else Join(xs[..|xs| - 1], f) + f(xs[|xs| - 1])
  }

  /** One more step of the fold: the shape of every `forEach` loop body
      that appends to an accumulator. */
  lemma JoinStep<T>(xs: seq<T>, i: nat, f: T -> string)
    requires i < |xs|
    ensures Join(xs[..i + 1], f) == Join(xs[..i], f) + f(xs[i])
  {
    assert xs[..i + 1][..i] == xs[..i];
  }

  /** The same step behind a fixed head: the invariant of a loop that
      appends to an accumulator which started as `head`. */
  lemma JoinStepAfter<T>(head: string, xs: seq<T>, i: nat, f: T -> string)
    requires i < |xs|
    ensures head + Join(xs[..i + 1], f) == head + Join(xs[..i], f) + f(xs[i])
  {
    JoinStep(xs, i, f);
  }

  /** Joining splits at any point of the sequence. */
  lemma {:induction false} JoinAppend<T>(xs: seq<T>, ys: seq<T>, f: T -> string)
    ensures Join(xs + ys, f) == Join(xs, f) + Join(ys, f)
    decreases |ys|
  {
    if ys == [] {
      assert xs + ys == xs;
    } else {
      var init := ys[..|ys| - 1];
      assert (xs + ys)[..|xs + ys| - 1] == xs + init;
      JoinAppend(xs, init, f);
    }
  }

  /** The fragment of element `i` sits in the join right after the fragments
      of the elements before it. */
  lemma JoinAt<T>(xs: seq<T>, i: nat, f: T -> string)
    requires i < |xs|
    ensures Join(xs, f) == Join(xs[..i], f) + f(xs[i]) + Join(xs[i + 1..], f)
    ensures OccursAt(Join(xs, f), f(xs[i]), |Join(xs[..i], f)|)
  {
    assert xs == xs[..i] + [xs[i]] + xs[i + 1..];
    JoinAppend(xs[..i] + [xs[i]], xs[i + 1..], f);
    JoinAppend(xs[..i], [xs[i]], f);
    assert Join([xs[i]], f) == f(xs[i]) by {
      assert [xs[i]][..0] == [];
    }
    InfixOfConcat(Join(xs[..i], f), f(xs[i]), Join(xs[i + 1..], f));
  }

  /** Every element contributes its fragment to the join. */
  lemma JoinContains<T>(xs: seq<T>, x: T, f: T -> string)
    requires x in xs
    ensures IsInfix(f(x), Join(xs, f))
  {
    var i :| 0 <= i < |xs| && xs[i] == x;
    JoinAt(xs, i, f);
  }

  /** Elements whose fragment is empty leave no trace in the join. */
  lemma {:induction false} JoinOfSilent<T>(xs: seq<T>, f: T -> string)
    requires forall k :: 0 <= k < |xs| ==> f(xs[k]) == ""
    ensures Join(xs, f) == ""
    decreases |xs|
  {
    if xs != [] {
      JoinOfSilent(xs[..|xs| - 1], f);
    }
  }

  /** A piece of text as it is: the fragment function of `Concat`. */
  function Verbatim(s: string): string {
    s
  }

  /** The pieces of a template, one after the other. */
  function Concat(parts: seq<string>): string {
    Join(parts, Verbatim)
  }

  /** Each piece of a template appears in the text it builds. */
  lemma ConcatHas(parts: seq<string>, i: nat)
    requires i < |parts|
    ensures IsInfix(parts[i], Concat(parts))
  {
    JoinAt(parts, i, Verbatim);
    var at := |Join(parts[..i], Verbatim)|;
    assert OccursAt(Concat(parts), parts[i], at);
  }
}

=== FILE: wrappers.dfy ===
/** Option and Result, the two failure-carrying datatypes the model uses. */
module Wrappers {

  datatype Option<+T> = None | Some(value: T) {
    function GetOr(default: T): T {
      match this
      case Some(v) => v
      case None => default
    }
  }

  datatype Result<+R, +E> = Success(value: R) | Failure(error: E)
}
